=== FILE: README.md ===
# Rune combat core in Dafny

A model of the turn-resolution engine of *rune*, a small turn-based combat
game in TypeScript. The player enters direction inputs. A combo parser turns
them into attacks. The turn manager then runs a fixed cycle: the player's
turn, then every enemy's turn, then the turn end, where statuses tick and
decay. The cycle repeats until every enemy or the player is dead.

One Dafny module per source file:

| module | models |
|---|---|
| `ComboParser` | `src/systems/ComboParser.ts`: stable longest-first sort, greedy chained matching, the prefix query for hints |
| `InputBufferSystem` | `src/systems/InputBufferSystem.ts`: the bounded input list |
| `StatusManager` | `src/systems/StatusManager.ts`: applying, firing and decaying statuses, and the stun query |
| `DamageResolver` | `src/systems/DamageResolver.ts`: the per-hit multipliers, rounding, and shield before HP |
| `TargetResolver` | `src/systems/TargetResolver.ts`: the five targeting modes |
| `EnemyAI` | `src/systems/EnemyAI.ts`: the candidate list and the selection strategies |
| `Leveling` | the experience and level helpers of `src/systems/TurnManager.ts` |
| `TurnManager` | the turn phases and `executeAction` of `src/systems/TurnManager.ts` |
| `CombatController` | `src/controllers/CombatController.ts`: the phase-guarded entry points |
| `Types`, `Wrappers`, `Numerics`, `Randomness`, `Registry` | the records of `src/types/index.ts`, `Option`/`Result`, `Math` helpers, random draws, and the id-keyed lookup tables |
| `Scenarios` | the shipped status catalog (`src/data/statuses.ts`) and the concrete outcomes of `tests/combat.test.ts`, stated as lemmas |

## How the model is built

- **State.** The source mutates one `CombatState` object through aliases. Here
  every operation is a pure function from a state to the next state.
- **Combatants.** A `Ref` (`PlayerRef` or `EnemyRef(i)`) names a combatant.
  `Get` and `Set` read and replace it.
- **Randomness.** Each `Math.random()` is a `Draw`, a real in [0, 1), taken
  from an explicit stream `Rng`. `Math.floor(Math.random() * n)` is
  `PickIndex(u, n)`.
- **Draws consumed.** For a random-enemy combo, the player's turn makes two
  draws: one for the animation's own `resolveTargets` call and one for the
  action. Both are modelled, and the first one's result is discarded.
- **Arithmetic.** All arithmetic is exact:
  - multipliers are `real`
  - `Math.round` is `Round`
  - `Math.pow(m, k)` is `Pow`
  - `floor(50 * L^1.5)` is the integer square root of `2500 * L^3`
  - the streak bonus `floor(b * (1 + 0.1 * s))` is `b * (10 + s) / 10`
- **Errors.** A thrown error is a `Result` failure. Only one can happen: an
  enemy whose action pool has no registered action. The failure carries the
  error and the state the enemies' turn had reached when it was thrown, since
  the source mutates its state in place and keeps those changes.
- **Log.** The combat log is a list of tagged `LogEntry` values, without text
  or timestamps.
- **Missing values.** A status-effect field the source tests for truthiness is
  a `nat`, and 0 stands for an absent field. An unset player level is 0,
  which the source reads as 1.

## Notes on the source's behaviour

The model follows the code. These behaviours are easy to miss.

- **Greedy matching can stop early.** Chained matching is greedy and
  longest-first. It stops as soon as no catalog sequence begins the input
  left (`ComboParser.ParseFromStops`), so it can leave input unmatched that
  another segmentation would use (`Scenarios.GreedyStopsEarly`). The code
  does not maximise the input consumed.
- **Liveness can disagree with HP.** Inside one `triggerStatusEffects` call,
  a heal that fires after a lethal damage tick leaves the combatant dead with
  positive HP (`Scenarios.HealAfterLethalPoison`). So liveness is not always
  `currentHp > 0`, and `StatusManager.TriggerStatusEffects` states liveness
  one way only. When every firing status deals damage, liveness does follow
  HP (`StatusManager.TriggerStatusEffectsDamage`).
- **Turn-start statuses run after the win/loss checks.** The checks in
  `executeTurnEnd` come before the next turn's turn-start statuses, so a
  player whom poison kills there still gets the input phase, and the combat
  is not lost (`Scenarios.PoisonedPlayerGetsTurn`).
- **A full buffer refuses input.** `addInput` refuses a sixth input in a
  five-slot buffer and evicts nothing (`Scenarios.FullBufferRefuses`). The
  buffer test at `tests/combat.test.ts:97-107` expects eviction, which
  contradicts the code.
- **Self-directed statuses repeat per target.** A self-directed status effect
  is applied once per resolved target, so an area attack that grants its
  user a shield grants it once per enemy hit
  (`TurnManager.ExecuteActionSelfStacks`, `TurnManager.ExecuteOnTargetsGrants`).
- **Status deaths give no experience.** Only kills by direct damage award
  experience. Deaths from statuses at turn end award none
  (`TurnManager.TurnEndFrame` keeps the player's progress).
- **The initial buffer copy is not synced.** The controller's constructor does
  not copy its empty buffer into `state.inputBuffer`. Until the first input
  operation, the state keeps whatever buffer the initial state had.

## Model

| member | source | states |
|---|---|---|
| ComboParser.SortByLength | src/systems/ComboParser.ts:8-10 | the catalog sorted longest first, a permutation of it, and stable: combos of equal length keep their catalog order |
| ComboParser.NewParser | src/systems/ComboParser.ts:6-11 | the parser holds the stably sorted catalog and the fallback action |
| ComboParser.FirstMatch | src/systems/ComboParser.ts:26-33 | the first catalog entry whose sequence begins the input; no earlier entry does; none exactly when no entry matches |
| ComboParser.FirstMatchIsLongest | src/systems/ComboParser.ts:8-33 | in a length-sorted catalog the first match is a longest match |
| ComboParser.ParseFrom | src/systems/ComboParser.ts:22-40 | every combo found is from the catalog; their sequences concatenated are a prefix of the input; nothing is found exactly when nothing matches at the front |
| ComboParser.ParseFromStops | src/systems/ComboParser.ts:22-40 | the loop stops only when no catalog sequence begins the input left after the combos found |
| ComboParser.ParseAllCombos | src/systems/ComboParser.ts:17-44 | never empty; exactly the fallback when no catalog sequence begins the buffer (the empty buffer included); otherwise catalog combos whose sequences concatenated prefix the buffer, starting with the first match, and no catalog sequence begins the input left over |
| ComboParser.ParseCombo | src/systems/ComboParser.ts:50-53 | the first element of `ParseAllCombos`: the first matching catalog entry, or the fallback |
| ComboParser.GreedyAtEveryStep | src/systems/ComboParser.ts:22-40 | the j-th combo found is the first entry matching the input left after the earlier ones, and no matching entry there is longer |
| ComboParser.MatchesSequence | src/systems/ComboParser.ts:58-73 | the comparison loop returns true iff the sequence fits in the buffer and equals its front |
| ComboParser.PotentialFrom | src/systems/ComboParser.ts:80-92 | exactly the entries whose sequence begins with the buffer; empty iff none does |
| ComboParser.PotentialFromSorted | src/systems/ComboParser.ts:80-92 | filtering keeps the longest-first order |
| ComboParser.PotentialFromCounts | src/systems/ComboParser.ts:80-92 | each entry the buffer is a prefix of is kept as often as the catalog holds it; every other entry is dropped |
| ComboParser.PotentialFromAppend | src/systems/ComboParser.ts:80-92 | the filter goes entry by entry: filtering two catalogs joined is joining their filtered lists |
| ComboParser.FindPotentialCombos | src/systems/ComboParser.ts:79-93 | exactly the sorted catalog entries the buffer is a prefix of, in sorted order, each as often as in the catalog; the whole catalog for an empty buffer |
| InputBufferSystem.NewInputBuffer | src/systems/InputBufferSystem.ts:7-9 | an empty buffer with the given cap |
| InputBufferSystem.AddInput | src/systems/InputBufferSystem.ts:15-23 | refused, buffer unchanged, iff it is full; otherwise the input is appended; the length stays within the cap |
| InputBufferSystem.SliceTo | src/systems/InputBufferSystem.ts:32 | JavaScript's `slice(0, end)`, a negative end counting back from the length |
| InputBufferSystem.SetMaxBufferSize | src/systems/InputBufferSystem.ts:28-34 | the cap is set and exactly the first min(length, cap) inputs are kept |
| InputBufferSystem.RemoveLastInput | src/systems/InputBufferSystem.ts:60-62 | returns the newest input and leaves the rest; nothing and no change on an empty buffer |
| InputBufferSystem.SetBuffer | src/systems/InputBufferSystem.ts:67-69 | the contents become the given sequence, whatever the cap |
| InputBufferSystem.ClearBuffer | src/systems/InputBufferSystem.ts:53-55 | the buffer is empty and keeps its cap |
| InputBufferSystem.GetLengthTracksEdits | src/systems/InputBufferSystem.ts:74-76 | the length goes up by one on an accepted add, down by one on undo unless empty, to 0 on clear, to the new sequence's length on replace, and to min(length, cap) on a cap change |
| InputBufferSystem.IsEmpty | src/systems/InputBufferSystem.ts:81-83 | true iff the length is 0 |
| InputBufferSystem.AddThenRemove | src/systems/InputBufferSystem.ts:60-62 | removing right after an accepted add restores the buffer and returns the input |
| Registry.Index | src/systems/StatusManager.ts:7-9 | the constructors' lookup table has exactly the keys of the items |
| Registry.IndexLastWins | src/systems/StatusManager.ts:7-9 | for a repeated key the table holds the last item carrying it |
| StatusManager.FindStatus | src/systems/StatusManager.ts:21 | the index of the first instance of the kind, none iff there is none |
| StatusManager.ApplyStatus | src/systems/StatusManager.ts:15-46 | an existing instance gets the capped sum of stacks in place, a new kind is appended with capped stacks, one instance per kind is kept, only shield credits the shield pool (per-stack amount times requested stacks), nothing else changes |
| StatusManager.ApplyStatusStacks | src/systems/StatusManager.ts:23-35 | the kind's stack count becomes min(cap, old + n) and no other kind's count changes |
| StatusManager.ExecuteStatusEffect | src/systems/StatusManager.ts:77-126 | damage first: HP max(0, hp - dps * stacks), death at 0; else heal: min(hp + hps * stacks, maxHp), liveness kept; else stun reports and changes nothing; else nothing |
| StatusManager.FireOne | src/systems/StatusManager.ts:58-71 | one instance changes only HP and liveness, keeps HP within [0, maxHp], never revives, reports at most one result, and does nothing unless it fires at the timing |
| StatusManager.TriggerEachBounds | src/systems/StatusManager.ts:57-72 | the loop changes only HP and liveness, keeps HP within [0, maxHp], never revives, reports at most one result per instance, and changes nothing when no instance fires at the timing |
| StatusManager.TriggerEachAppend | src/systems/StatusManager.ts:57-72 | the loop goes instance by instance: running it over two lists joined is running it over the first, then over the second from where the first left the entity, with the results joined |
| StatusManager.TriggerEachSingle | src/systems/StatusManager.ts:58-71 | a single instance that fires executes its effect once and reports its result; one that does not fire changes nothing |
| StatusManager.TriggerEachDamage | src/systems/StatusManager.ts:57-72 | when every firing instance deals damage, HP drops by the summed damage per stack times stacks, clamped at 0, with one result per firing instance |
| StatusManager.TriggerEachDamageAlive | src/systems/StatusManager.ts:57-72 | under the same condition the combatant is alive afterwards iff it was and, when anything fired, HP is left |
| StatusManager.TriggerStatusEffects | src/systems/StatusManager.ts:51-75 | nothing changes when no instance's definition has the timing; otherwise only HP and liveness change, HP stays in [0, maxHp], a survivor keeps positive HP, no revival, at most one result per instance |
| StatusManager.TriggerStatusEffectsDamage | src/systems/StatusManager.ts:51-75 | when every firing status deals damage: HP minus the summed damage, clamped at 0; one result per firing status; alive afterwards iff alive before and, if anything fired, HP left |
| StatusManager.DecayList | src/systems/StatusManager.ts:132-142 | no instance is longer and every instance left has stacks |
| StatusManager.DecayListOrigin | src/systems/StatusManager.ts:133-141 | every instance left is the decayed form of an instance before |
| StatusManager.DecayListAppend | src/systems/StatusManager.ts:132-142 | decay works instance by instance, so survivors keep their order |
| StatusManager.DecayKeepsUniqueIds | src/systems/StatusManager.ts:131-143 | decay keeps one instance per kind |
| StatusManager.DecayStacks | src/systems/StatusManager.ts:139 | a known kind's count becomes max(0, count - decay); an unknown kind's is kept |
| StatusManager.DecayStatuses | src/systems/StatusManager.ts:131-143 | only the statuses change; all survivors have stacks and come from decayed instances; one instance per kind is kept |
| StatusManager.IsStunned | src/systems/StatusManager.ts:148-151 | true iff the stun kind has stacks; with one instance per kind, iff some stun instance has stacks |
| Numerics.Round | src/systems/DamageResolver.ts:40 | the nearest integer, halves rounded up |
| DamageResolver.ElementalMultiplier | src/systems/DamageResolver.ts:75-82 | the target's affinity, or 1 for no element, an unlisted one or a stored 0; never 0 |
| DamageResolver.OutgoingMultiplier | src/systems/DamageResolver.ts:59-72 | 1 when the attacker has no weak instance, or the weak kind is unregistered or has a zero multiplier; otherwise the per-stack multiplier to the power of the attacker's weak stacks |
| DamageResolver.IncomingMultiplier | src/systems/DamageResolver.ts:84-97 | 1 when the target has no vulnerable instance, or the vulnerable kind is unregistered or has a zero multiplier; otherwise the per-stack multiplier to the power of the target's vulnerable stacks |
| DamageResolver.HitDamage | src/systems/DamageResolver.ts:26-40 | base times weak, elemental and vulnerable multipliers, rounded to the nearest integer |
| DamageResolver.ApplyToEntity | src/systems/DamageResolver.ts:100-132 | the shield absorbs min(d, shield), HP takes min(rest, hp), pools never go negative, HP 0 kills, nothing revives, the damage dealt is what the pools lost |
| DamageResolver.ApplyHits | src/systems/DamageResolver.ts:25-50 | one amount per hit; the amounts sum to what the pools lost, and to min(n * d, shield + hp) for non-negative d |
| DamageResolver.ApplyDamage | src/systems/DamageResolver.ts:15-57 | only the target's shield, HP and liveness change; the total is the sum of the hits and what the pools lost; `targetKilled` iff HP ends at or below 0; no revival |
| DamageResolver.ApplyDamageTotal | src/systems/DamageResolver.ts:43-44 | with non-negative damage the total is min(hits * damage, shield + hp) |
| TargetResolver.LivingEnemies | src/systems/TargetResolver.ts:46 | the living enemies, each exactly once, in roster order; empty iff all are dead |
| TargetResolver.LivingPlayer | src/systems/TargetResolver.ts:48 | the player alone iff alive, else nothing |
| TargetResolver.SelectSingleEnemy | src/systems/TargetResolver.ts:33-42 | for the player: the first living enemy, or none iff all are dead; for an enemy: the living player |
| TargetResolver.GetAllEnemies | src/systems/TargetResolver.ts:44-50 | the living members of the other team |
| TargetResolver.SelectRandomEnemy | src/systems/TargetResolver.ts:52-62 | for the player: the living enemy the draw picks, one draw used, none and no draw when all are dead; for an enemy: the living player |
| TargetResolver.GetAllAllies | src/systems/TargetResolver.ts:64-70 | the living members of the actor's own team |
| TargetResolver.ResolveTargets | src/systems/TargetResolver.ts:7-31 | every target is a valid combatant and alive, except SELF which gives exactly the actor; only the player's RANDOM_ENEMY uses a draw, an enemy's never does; for the player, SINGLE_ENEMY gives the first living enemy and RANDOM_ENEMY the living enemy the draw picks, both empty iff every enemy is dead; ALL_ENEMIES the living opponents, ALL_ALLIES the living team-mates, and an enemy's enemy-targeting modes the living player |
| TargetResolver.ResolveTargetsReadsCombatants | src/systems/TargetResolver.ts:7-70 | the targets and the draw depend only on the combatants, not on the log or the discoveries |
| Randomness.PickIndex | src/systems/TargetResolver.ts:57 | floor(u * n), an index below n |
| EnemyAI.Candidates | src/systems/EnemyAI.ts:20-22 | the pool ids found in the registry, mapped to their actions, unknown ids dropped |
| EnemyAI.CandidatesAppend | src/systems/EnemyAI.ts:20-22 | the lookup goes id by id, so pool order is kept |
| EnemyAI.GetAction | src/systems/EnemyAI.ts:78-80 | the registered action with that id, if any |
| EnemyAI.SelectAction | src/systems/EnemyAI.ts:15-31 | an error naming the enemy iff no candidate; otherwise the candidate the draw picks, a registered member of the pool |
| EnemyAI.FirstDefensive | src/systems/EnemyAI.ts:63-65 | the first candidate granting shield or regeneration, none iff there is none |
| EnemyAI.SelectActionByPattern | src/systems/EnemyAI.ts:36-73 | error iff no candidate; RANDOM draws; SEQUENTIAL takes turnCount mod n; CONDITIONAL below 30% HP takes the first defensive candidate, else the first; any other strategy takes the first |
| Leveling.ExperienceForLevel | src/systems/TurnManager.ts:158-161 | the integer square root of 2500 * level^3, which is floor(50 * level^1.5) |
| Leveling.ExperienceForLevelAtLeast50 | src/systems/TurnManager.ts:174-182 | from level 1 on a level costs at least 50, so the level-up loop terminates |
| Leveling.ExperienceForLevelMonotone | src/systems/TurnManager.ts:158-161 | higher levels never cost less |
| Leveling.MaxInputLimit | src/systems/TurnManager.ts:213-215 | 3 plus one per two levels beyond the first |
| Leveling.LevelCurves | src/systems/TurnManager.ts:209-223 | 3 inputs and 100 HP at level 1, one more input every two levels, 15 more HP per level |
| Leveling.LevelUpHp | src/systems/TurnManager.ts:179-197 | the new HP is at most the new maximum, never below the old HP, and full HP stays full; a non-positive old maximum counts as full health, so HP rises by twice the increase, capped |
| Leveling.LevelUps | src/systems/TurnManager.ts:174-204 | the loop keeps the threshold of the current level recorded and never lowers the level |
| Leveling.LevelUpsSpendsExperience | src/systems/TurnManager.ts:174-182 | the loop stops below the threshold, and the thresholds of the levels gained plus the leftover equal the experience it started with |
| Leveling.LevelUpsFrame | src/systems/TurnManager.ts:174-204 | only progress, HP cap, HP, input limit and log change, with one log entry per level gained |
| Leveling.LevelUpsStats | src/systems/TurnManager.ts:185-197 | after a level-up the HP cap and input limit are the new level's, and HP is within the cap |
| Leveling.LevelUpsKeepHp | src/systems/TurnManager.ts:192-197 | a level-up never costs HP when the maximum is at most the level's |
| Leveling.EffectiveLevel | src/systems/TurnManager.ts:167 | an unset level counts as 1 |
| Leveling.AwardExperience | src/systems/TurnManager.ts:166-207 | experience is added and spent level by level; the leftover is below the new threshold; HP cap and input limit follow the new level; only progress, HP and log change |
| Leveling.BaseExperience | src/systems/TurnManager.ts:230 | max(1, floor(maxHp / 6)) |
| Leveling.StreakExperience | src/systems/TurnManager.ts:233-234 | floor(base * (1 + streak / 10)), never below the base |
| Leveling.AwardExperienceForEnemy | src/systems/TurnManager.ts:228-254 | the streak-scaled experience is awarded and logged after any level-up entries |
| TurnManager.NewTurnManager | src/systems/TurnManager.ts:16-28 | the parser, status registry and action registry built from the catalogs |
| TurnManager.ApplyEffect | src/systems/TurnManager.ts:390-404 | the recipient (the actor for a self effect, else the target) becomes what `applyStatus` makes of it with the effect's kind and stacks; no other combatant changes; roster, turn and progress are kept; exactly one grant entry names the recipient |
| TurnManager.ApplyEffectEntities | src/systems/TurnManager.ts:390-397 | a granted status changes only statuses and shields |
| TurnManager.ApplyEffectsFrame | src/systems/TurnManager.ts:390-404 | granting statuses keeps the roster, the turn and the player's progress |
| TurnManager.ApplyEffectsEntities | src/systems/TurnManager.ts:390-404 | granting statuses changes combatants only in statuses and shields |
| TurnManager.ApplyEffectsLog | src/systems/TurnManager.ts:390-404 | one log entry per effect, in order, naming its recipient |
| TurnManager.GainedLog | src/systems/TurnManager.ts:399-403 | one grant entry per effect and no damage entry |
| TurnManager.Kill | src/systems/TurnManager.ts:374-386 | the target becomes the damaged entity marked dead; no other enemy changes; the player's liveness changes only when the player is the target, and then only a death entry is logged and no experience is awarded; the old log is kept as a prefix; no grant or damage entry is logged |
| TurnManager.MarkDead | src/systems/TurnManager.ts:374-380 | the target alone is marked dead and a death entry is appended; progress is kept |
| TurnManager.KillAwardsExperience | src/systems/TurnManager.ts:382-385 | killing an enemy awards the streak-scaled experience of its HP cap: the thresholds of the levels gained plus the leftover equal the old experience plus the award; the log gets the death, the level-ups and the award, in that order |
| TurnManager.KillStatuses | src/systems/TurnManager.ts:374-386 | a kill changes no combatant's statuses but the target's, which are the damaged entity's |
| TurnManager.KillNoRevival | src/systems/TurnManager.ts:374-386 | a kill revives no one |
| TurnManager.DamageTarget | src/systems/TurnManager.ts:354-386 | the target becomes the entity `applyDamage` returns, marked dead when it reports a kill; the damage entry with the total comes right after the old log; one damage entry, no grant entry; the roster and turn are kept |
| TurnManager.DamageTargetStatuses | src/systems/TurnManager.ts:354-386 | damage changes no combatant's statuses |
| TurnManager.DamageTargetNoRevival | src/systems/TurnManager.ts:354-386 | damage revives no one |
| TurnManager.DamageTargetOthers | src/systems/TurnManager.ts:354-386 | no enemy but the target changes, and progress changes only when the target was an enemy that died |
| TurnManager.HitTarget | src/systems/TurnManager.ts:353-405 | one target's iteration logs a damage entry for a damaging action and one grant per status effect |
| TurnManager.HitTargetEntities | src/systems/TurnManager.ts:353-405 | no revival; without damage only statuses and shields change and no experience is awarded |
| TurnManager.ExecuteOnTargetsFrame | src/systems/TurnManager.ts:353-405 | the target loop keeps the roster and the turn and revives no one |
| TurnManager.ExecuteOnTargetsGrants | src/systems/TurnManager.ts:390-397 | the grant loop runs for every target over all status effects, self ones included: targets times effects grant entries |
| TurnManager.ApplyEffectStacks | src/systems/TurnManager.ts:390-397 | for an uncapped kind, a granted effect raises its recipient's stack count by the effect's stacks and no one else's |
| TurnManager.ApplyEffectsStacks | src/systems/TurnManager.ts:390-397 | granting a list of effects raises each combatant's count of an uncapped kind by exactly the stacks directed at it |
| TurnManager.HitTargetStacks | src/systems/TurnManager.ts:353-405 | one target's iteration raises each combatant's count of an uncapped kind by the stacks directed at it; damage changes no statuses |
| TurnManager.ExecuteOnTargetsStacks | src/systems/TurnManager.ts:353-405 | over the target loop each combatant receives, per target, the stacks of an uncapped kind directed at it |
| TurnManager.ReceivedAllSelf | src/systems/TurnManager.ts:390-392 | when every effect of a kind is self-directed, the actor receives all of its stacks once per target |
| TurnManager.ExecuteOnTargetsDamageEntries | src/systems/TurnManager.ts:354-372 | a damaging action logs one damage entry per target |
| TurnManager.ExecuteOnTargetsHarmless | src/systems/TurnManager.ts:353-405 | a non-damaging action changes only statuses and shields and awards nothing |
| TurnManager.DamageTargetLog | src/systems/TurnManager.ts:354-386 | damage keeps the log it started from as a prefix |
| TurnManager.HitTargetLog | src/systems/TurnManager.ts:353-405 | one target's iteration keeps the log it started from as a prefix |
| TurnManager.ExecuteOnTargetsLog | src/systems/TurnManager.ts:353-405 | the target loop keeps the log it started from as a prefix |
| TurnManager.ExecuteActionLog | src/systems/TurnManager.ts:331-406 | an action keeps the log it started from as a prefix |
| TurnManager.ExecuteAction | src/systems/TurnManager.ts:331-406 | with no target only a no-target entry is logged; the draw used is the target resolution's; roster and turn kept; no revival |
| TurnManager.ExecuteActionEffects | src/systems/TurnManager.ts:331-406 | the grant and damage entries per target, and a non-damaging action touches only statuses and shields |
| TurnManager.ExecuteActionStacks | src/systems/TurnManager.ts:331-406 | an action raises each combatant's count of an uncapped kind by the stacks its effects direct at it, summed over the resolved targets |
| TurnManager.ExecuteActionSelfStacks | src/systems/TurnManager.ts:331-406 | with every effect of an uncapped kind aimed at the actor, the actor's count rises by the number of targets times the stacks listed |
| TurnManager.Discover | src/systems/TurnManager.ts:46-53 | a non-fallback combo not yet known is appended and logged; otherwise nothing changes; no id twice |
| TurnManager.DiscoverFrame | src/systems/TurnManager.ts:46-53 | recording a discovery changes no combatant |
| TurnManager.PlayCombo | src/systems/TurnManager.ts:44-71 | one combo's iteration records its discovery, keeps the roster and turn, revives no one, and keeps the log up to the discovery entry |
| TurnManager.PlayComboEffects | src/systems/TurnManager.ts:57-70 | the combo is executed with the draw the animation's target resolution leaves: each of its targets gets every status effect, a damaging combo logs one damage entry per target, and the draw used is the second resolution's |
| TurnManager.PlayComboStacks | src/systems/TurnManager.ts:57-70 | the combo raises each combatant's count of an uncapped kind by the stacks it directs at it over its targets |
| TurnManager.RunCombosLog | src/systems/TurnManager.ts:44-71 | the combo loop keeps the log it started from as a prefix |
| TurnManager.RunCombosStacksGrow | src/systems/TurnManager.ts:44-71 | over the combo loop no combatant loses stacks of an uncapped kind |
| TurnManager.RunCombosFrame | src/systems/TurnManager.ts:44-71 | the combo loop keeps the roster and turn and revives no one |
| TurnManager.RecordedProperties | src/systems/TurnManager.ts:46-53 | the discovery fold keeps the old list as a prefix, records every non-fallback id, nothing else, and no id twice |
| TurnManager.RunCombosRecords | src/systems/TurnManager.ts:44-53 | the loop's discoveries are the fold over the combos' ids |
| TurnManager.RunCombosDiscoveries | src/systems/TurnManager.ts:44-53 | old discoveries kept in front, every non-fallback combo recorded, nothing else, no duplicates |
| TurnManager.FinishPlayerTurn | src/systems/TurnManager.ts:73-97 | the combos are logged, the buffer is emptied, and the phase is combat end with victory iff all enemies are dead, else the enemy turn |
| TurnManager.RememberFirst | src/systems/TurnManager.ts:38-40 | the replay cache holds the first combo's sequence unless it is the fallback |
| TurnManager.PlayerTurnOutcome | src/systems/TurnManager.ts:33-98 | buffer emptied; replay cache from the first parsed combo unless fallback; victory and combat end iff all enemies are dead, else the enemy turn; roster, turn count and defeat kept; no revival |
| TurnManager.PlayerTurnDiscoveries | src/systems/TurnManager.ts:44-53 | after the turn every non-fallback parsed combo is discovered, nothing else is added, and no id appears twice |
| TurnManager.EnemyStep | src/systems/TurnManager.ts:104-147 | dead and stunned enemies do not act (a stunned one is logged); a living, unstunned enemy fails iff it has no candidates, and otherwise acts with the action `selectAction` picks with one draw; the loop reports a dead player |
| TurnManager.EnemyActs | src/systems/TurnManager.ts:117-140 | an acting enemy's action entry directly follows the old log; it draws nothing more; roster and turn kept; no revival |
| TurnManager.EnemyActsEffects | src/systems/TurnManager.ts:117-140 | the enemy's action is executed on the targets it resolves: every status effect per target, one damage entry per target when it deals damage |
| TurnManager.EnemyActsStacks | src/systems/TurnManager.ts:117-140 | the enemy's action raises each combatant's count of an uncapped kind by the stacks it directs at it over its targets |
| TurnManager.StuckEnemyWasAlive | src/systems/TurnManager.ts:104-118 | an enemy that is alive and has no candidates after an earlier enemy's step was already so before it |
| TurnManager.EnemyLoopOutcome | src/systems/TurnManager.ts:103-153 | the enemy turn ends in the turn end or, with the player dead, in a defeat, and a player dying in it always ends it in defeat |
| TurnManager.EnemyLoopFailure | src/systems/TurnManager.ts:117-118 | the enemy turn fails only for an enemy alive at its start whose pool has no registered action |
| TurnManager.EnemyLoopAborted | src/systems/TurnManager.ts:104-147 | a failed enemy turn carries the state it had reached: roster and turn kept, no revival, and the error names an enemy still alive there |
| TurnManager.EntityAtTurnEnd | src/systems/TurnManager.ts:259-326 | one combatant's turn end: turn-end statuses fire if it is alive, then decay, then turn-start statuses if the next turn starts; a dead combatant only decays |
| TurnManager.AllRefs | src/systems/TurnManager.ts:260-263 | the player, then each enemy in roster order |
| TurnManager.TriggerPass | src/systems/TurnManager.ts:266-286 | a trigger loop keeps the roster, the turn and the progress |
| TurnManager.TriggerPassEntities | src/systems/TurnManager.ts:266-286 | only living combatants fire, each on its own |
| TurnManager.DecayPass | src/systems/TurnManager.ts:289-291 | the decay loop keeps the roster, the turn and the progress |
| TurnManager.DecayPassEntities | src/systems/TurnManager.ts:289-291 | every combatant decays, dead ones included |
| TurnManager.AfterDecay | src/systems/TurnManager.ts:259-291 | triggers and decay keep the roster, turn and progress |
| TurnManager.AfterDecayEntities | src/systems/TurnManager.ts:259-291 | after triggers and decay each combatant is as `EntityAtTurnEnd` leaves it |
| TurnManager.StartNextTurn | src/systems/TurnManager.ts:306-323 | the turn count is the one given, input reopens, and outcome flags are kept |
| TurnManager.StartNextTurnEntities | src/systems/TurnManager.ts:310-323 | turn-start statuses fire on the living combatants only |
| TurnManager.TurnEndEntities | src/systems/TurnManager.ts:259-326 | each combatant ends the turn as `EntityAtTurnEnd` says, with turn-start effects exactly when input reopens |
| TurnManager.TurnEndEntitiesNextTurn | src/systems/TurnManager.ts:306-323 | when the next turn starts, its turn-start effects apply to the decayed combatants |
| TurnManager.EntityAtTurnEndSteps | src/systems/TurnManager.ts:306-323 | the next turn's start extends the turn end that stops the combat |
| TurnManager.AfterDecayOver | src/systems/TurnManager.ts:293-304 | the win/loss checks see the combatants after triggers and decay |
| TurnManager.TurnEndFrame | src/systems/TurnManager.ts:259-326 | the turn end changes only combatants, log, turn count, phase and flags; no experience from status deaths |
| TurnManager.TurnEndOutcome | src/systems/TurnManager.ts:293-326 | combat ends iff all enemies or the player are dead after decay, victory first; otherwise the count goes up by one and input reopens |
| CombatController.NewController | src/controllers/CombatController.ts:10-25 | an unset input limit becomes 3 + floor((level - 1) / 2), level defaulting to 1; the buffer starts empty with that cap |
| CombatController.SyncCap | src/controllers/CombatController.ts:38-40 | the buffer's cap follows the state's limit, resized only when they differ |
| CombatController.AddInput | src/controllers/CombatController.ts:31-45 | refused with no change outside the input phase; else cap synced, input appended unless full, state's buffer copy refreshed, cap respected |
| CombatController.UndoLastInput | src/controllers/CombatController.ts:50-58 | no change outside the input phase; else the newest input is dropped and the copy refreshed |
| CombatController.AddThenUndo | src/controllers/CombatController.ts:31-58 | undo takes back an accepted input |
| CombatController.ClearInput | src/controllers/CombatController.ts:63-71 | no change outside the input phase; else buffer and copy are empty |
| CombatController.ConfirmAction | src/controllers/CombatController.ts:77-92 | no change outside the input phase; else the turn runs on the state's buffer, the buffer is cleared, and the phase is the enemy turn or combat end (never executing) |
| CombatController.ReplayLastCombo | src/controllers/CombatController.ts:97-111 | nothing without a stored combo or outside the input phase; else the stored sequence is loaded, whatever the cap, and confirmed |
| CombatController.RunTurnEnd | src/controllers/CombatController.ts:134-140 | the turn end runs and the buffer's cap follows the limit |
| CombatController.ProgressTurn | src/controllers/CombatController.ts:117-143 | the input phase and combat end are left as they are; only the enemies' turn can fail; the turn end alone uses no draw; the turn manager's catalogs are kept |
| CombatController.ProgressTurnOutcome | src/controllers/CombatController.ts:117-143 | does nothing in the input phase or at combat end; otherwise ends in input or combat end with the cap synced, combat end carrying victory or defeat, and the count up by one when input reopens; fails only in the enemy turn, for a living enemy without candidates, returning the enemies' partial turn with defeat unchanged |
| CombatController.RoundTrip | src/controllers/CombatController.ts:77-143 | confirming then progressing reaches combat end or the next turn's input phase |
| CombatController.IsCombatOver | src/controllers/CombatController.ts:155-157 | true iff victory or defeat is set |
| CombatController.GetCombatResult | src/controllers/CombatController.ts:162-166 | victory wins over defeat; ongoing iff the combat is not over |
| Scenarios.BurnStacks | tests/combat.test.ts:155-161 | burn 3 then 2 gives one instance of 5 stacks, and a further 3 stays capped at 5 |
| Scenarios.ShieldCredits | tests/combat.test.ts:163-167 | two shield stacks credit 20 to the pool |
| Scenarios.BurnTicks | tests/combat.test.ts:169-176 | three burn stacks take 100 HP to 91 with one result |
| Scenarios.BurnDecays | tests/combat.test.ts:178-192 | decay takes burn 3 to 2 and removes a burn left at 0 |
| Scenarios.HealAfterLethalPoison | src/systems/StatusManager.ts:85-113 | a lethal poison tick then a regeneration heal leaves the combatant dead at 4 HP |
| Scenarios.FullBufferRefuses | src/systems/InputBufferSystem.ts:15-23 | a full five-slot buffer refuses the sixth input and keeps the first five |
| Scenarios.ParseExamples | tests/combat.test.ts:12-52 | exact match, longest match first, the fallback for unknown and empty input, and a short combo |
| Scenarios.GreedyStopsEarly | src/systems/ComboParser.ts:22-40 | greedy matching can leave input that two shorter combos would have used |
| Scenarios.PotentialExamples | tests/combat.test.ts:55-79 | a prefix offers the combos it begins, an unknown prefix offers none, the empty buffer offers all |
| Scenarios.PoisonedPlayerGetsTurn | src/systems/TurnManager.ts:293-323 | a player killed by turn-start poison is handed the input phase without a defeat |

## Left out

- `gui/main.ts`, `src/example.ts`, `vite.config.ts` and everything under `dist/`: UI, demo, build configuration and stale compiled copies.
- The content tables `src/data/combos.ts` and `src/data/enemyActions.ts`. They are data, not logic. A few of their combos, with their names and elements, and the status catalog appear as constants in `Scenarios`.
- IEEE-754 floating point: multipliers, `Math.pow`, the streak factor and the HP ratio are exact rationals, so float rounding edge cases are not modelled.
- `Math.random` itself: it is an explicit stream of draws in [0, 1).
- The text and timestamps of log entries, `pendingAnimation`, and `console.warn`: these exist only for display. The log is a list of tagged entries.
- The trivial accessors `getMaxBufferSize`, `getBuffer`, `getAllCombos`, `getStatusDefinition` and `getState`. They are plain field reads of the model's records (`maxBufferSize`, `contents`, `Parser.combos`, a map lookup, `Controller.state`).
- `resolveTargets`' `default` branch, which throws. The targeting mode is a closed datatype, so the branch cannot be reached.
- Negative or fractional stack counts and hit counts, and an undefined `experience`. These are natural numbers here.
- ComboParser.ParseAllCombos: requires every catalog sequence to be non-empty. The source loops forever on an empty one, because the slice at `src/systems/ComboParser.ts:30` does not shrink the buffer.
- CombatController.ProgressTurn: requires the phase not to be executing. The source's loop would spin forever there, since no case handles that phase.
- TurnManager.ExecutePlayerTurn, TurnManager.ExecuteEnemyTurns and TurnManager.ExecuteTurnEnd: their own contracts state only that the roster size is kept. What they promise is in `PlayerTurnOutcome`, `EnemyLoopOutcome`, `TurnEndOutcome`, `TurnEndEntities` and `TurnEndFrame`.
- TurnManager.DamageTarget: states the log only up to the damage entry. What a kill appends after it is in `TurnManager.Kill` and `TurnManager.KillAwardsExperience`.
- TurnManager.ApplyEffectStacks, TurnManager.ExecuteActionStacks, TurnManager.EnemyActsStacks, TurnManager.PlayComboStacks, TurnManager.RunCombosStacksGrow and the other stack-count lemmas: cover kinds without a stack cap. For a capped kind each grant is clamped at the cap in turn, which `StatusManager.ApplyStatusStacks` states for one grant.
- StatusManager.TriggerStatusEffectsDamage and StatusManager.TriggerEachDamage: assume HP is not negative, which every combatant's HP is; with a negative HP and nothing firing the clamped form would not hold.
- StatusManager.TriggerStatusEffects: states liveness in one direction only (alive afterwards implies alive before, HP positive for the living). A heal after a lethal tick can leave positive HP on a dead combatant, so the converse does not hold.
- Leveling.LevelUpHp: the contract bounds the new HP (at most the new maximum, never below the old HP, full stays full) rather than restating the formula min(newMax, floor(hp + increase * hp / oldMax) + increase). The definition computes that formula exactly. For a non-positive old maximum the ratio is 1, as the source's own guard at `src/systems/TurnManager.ts:179` sets it, and the contract states that case exactly.
- TurnManager.RunCombosStacksGrow: over the whole combo loop states only that counts do not drop. Each combo's targets depend on the combatants the earlier combos left alive, so the exact total is stated per combo, in `TurnManager.PlayComboStacks` and `TurnManager.PlayComboEffects`.
- TurnManager.EnemyLoopOutcome: states that a player's death ends the enemy turn in defeat. It does not state separately that the remaining enemies are skipped; the loop's definition returns at that point.

=== FILE: combat_controller.dfy ===
/**
 * The phase-guarded entry points the interface calls
 * (src/controllers/CombatController.ts). The controller owns the combat state
 * and an input buffer whose contents it copies into the state after each edit.
 */
module CombatController {
  import opened Wrappers
  import opened Types
  import opened Randomness
  import InputBufferSystem
  import ComboParser
  import TurnManager
  import EnemyAI
  import Leveling

  datatype Controller = Controller(state: CombatState, tm: TurnManager.TurnManager, buffer: InputBufferSystem.InputBuffer)

  datatype CombatResult = Victory | Defeat | Ongoing

  /**
   * The constructor: an unset (zero) input limit is derived from the player's
   * level, an unset level counting as 1; the buffer starts empty with that cap.
   */
  function NewController(initial: CombatState, combos: seq<Action>, statuses: seq<StatusDefinition>,
                         enemyActions: seq<Action>, fallback: Action): (c: Controller)
    ensures initial.maxInputLimit != 0 ==> c.state == initial
    ensures initial.maxInputLimit == 0 ==>
              && c.state == initial.(maxInputLimit := c.state.maxInputLimit)
              && c.state.maxInputLimit == Leveling.MaxInputLimit(Leveling.EffectiveLevel(initial.player))
              && c.state.maxInputLimit >= 3
    ensures c.buffer.contents == [] && c.buffer.maxBufferSize == c.state.maxInputLimit
    ensures c.tm == TurnManager.NewTurnManager(combos, statuses, enemyActions, fallback)
  {
    var state :=
      if initial.maxInputLimit == 0 then
        initial.(maxInputLimit := Leveling.MaxInputLimit(Leveling.EffectiveLevel(initial.player)))
      else initial;
    Controller(state, TurnManager.NewTurnManager(combos, statuses, enemyActions, fallback),
               InputBufferSystem.NewInputBuffer(state.maxInputLimit))
  }

  /** The buffer's cap brought in line with the state's input limit, when they differ. */
  function SyncCap(b: InputBufferSystem.InputBuffer, limit: int): (r: InputBufferSystem.InputBuffer)
    ensures r.maxBufferSize == limit
    ensures b.maxBufferSize == limit ==> r == b
    ensures b.maxBufferSize != limit ==> r == InputBufferSystem.SetMaxBufferSize(b, limit)
  {
    if b.maxBufferSize != limit then InputBufferSystem.SetMaxBufferSize(b, limit) else b
  }

  /** The buffer holds no more inputs than its cap allows. */
  predicate WithinCap(c: Controller) {
    |c.buffer.contents| <= c.buffer.maxBufferSize
  }

  /**
   * `addInput`: outside the input phase nothing happens and the input is
   * refused; otherwise the cap is synced, the input is appended unless the
   * buffer is full, and the state's copy of the buffer is refreshed.
   */
  function AddInput(c: Controller, d: Direction): (r: (Controller, bool))
    ensures c.state.turnPhase != PlayerInput ==> r == (c, false)
    ensures c.state.turnPhase == PlayerInput ==>
              var synced := SyncCap(c.buffer, c.state.maxInputLimit);
              && r.0.tm == c.tm
              && r.0.state == c.state.(inputBuffer := r.0.buffer.contents)
              && r.0.buffer.maxBufferSize == c.state.maxInputLimit
              && (r.1 <==> |synced.contents| < c.state.maxInputLimit)
              && r.0.buffer.contents == (if r.1 then synced.contents + [d] else synced.contents)
    ensures c.state.maxInputLimit >= 0 && WithinCap(c) ==> WithinCap(r.0)
  {
    if c.state.turnPhase != PlayerInput then (c, false)
    else
      var (b, added) := InputBufferSystem.AddInput(SyncCap(c.buffer, c.state.maxInputLimit), d);
      (c.(buffer := b, state := c.state.(inputBuffer := b.contents)), added)
  }

  /** `undoLastInput`: in the input phase, drops the newest input. */
  function UndoLastInput(c: Controller): (r: Controller)
    ensures c.state.turnPhase != PlayerInput ==> r == c
    ensures c.state.turnPhase == PlayerInput ==>
              && r == c.(buffer := r.buffer, state := c.state.(inputBuffer := r.buffer.contents))
              && r.buffer.maxBufferSize == c.buffer.maxBufferSize
              && (|c.buffer.contents| == 0 ==> r.buffer.contents == [])
              && (|c.buffer.contents| > 0 ==> r.buffer.contents + [c.buffer.contents[|c.buffer.contents| - 1]] == c.buffer.contents)
  {
    if c.state.turnPhase != PlayerInput then c
    else
      var b := InputBufferSystem.RemoveLastInput(c.buffer).0;
      c.(buffer := b, state := c.state.(inputBuffer := b.contents))
  }

  /** Undo takes back an accepted input. */
  lemma AddThenUndo(c: Controller, d: Direction)
    requires c.state.turnPhase == PlayerInput
    ensures var (c1, added) := AddInput(c, d);
            added ==> UndoLastInput(c1).buffer == SyncCap(c.buffer, c.state.maxInputLimit)
                      && UndoLastInput(c1).state == c.state.(inputBuffer := SyncCap(c.buffer, c.state.maxInputLimit).contents)
  {
    var synced := SyncCap(c.buffer, c.state.maxInputLimit);
    var (c1, added) := AddInput(c, d);
    if added {
      assert (synced.contents + [d])[..|synced.contents|] == synced.contents;
    }
  }

  /** `clearInput`: in the input phase, empties the buffer. */
  function ClearInput(c: Controller): (r: Controller)
    ensures c.state.turnPhase != PlayerInput ==> r == c
    ensures c.state.turnPhase == PlayerInput ==>
              && r.buffer == c.buffer.(contents := [])
              && r.state == c.state.(inputBuffer := [])
              && r.tm == c.tm
  {
    if c.state.turnPhase != PlayerInput then c
    else
      var b := InputBufferSystem.ClearBuffer(c.buffer);
      c.(buffer := b, state := c.state.(inputBuffer := b.contents))
  }

  /**
   * `confirmAction`: in the input phase, runs the player's turn on the state's
   * copy of the buffer, clears the buffer, and stops in the enemy turn (or at
   * combat end) without running it.
   */
  function ConfirmAction(c: Controller, rng: Rng): (r: (Controller, Rng))
    requires c.tm.Valid()
    ensures c.state.turnPhase != PlayerInput ==> r == (c, rng)
    ensures c.state.turnPhase == PlayerInput ==>
              var s := r.0.state;
              var first := ComboParserFirst(c);
              && r.0.tm == c.tm
              && r.0.buffer == c.buffer.(contents := [])
              && s.inputBuffer == []
              && SameRoster(c.state, s)
              && s.turnCount == c.state.turnCount
              && (s.AllEnemiesDead() ==> s.turnPhase == CombatEnd && s.isVictory)
              && (!s.AllEnemiesDead() ==> s.turnPhase == EnemyTurn && s.isVictory == c.state.isVictory)
              && s.lastSuccessfulCombo == (if first.id != c.tm.Fallback().id then Some(first.sequence) else c.state.lastSuccessfulCombo)
  {
    if c.state.turnPhase != PlayerInput then (c, rng)
    else
      var executing := c.state.(turnPhase := PlayerExecuting);
      TurnManager.PlayerTurnOutcome(c.tm, executing, rng);
      var (s, rng') := TurnManager.ExecutePlayerTurn(c.tm, executing, rng);
      var s' := if s.turnPhase != CombatEnd then s.(turnPhase := EnemyTurn) else s;
      (c.(state := s', buffer := InputBufferSystem.ClearBuffer(c.buffer)), rng')
  }

  /** The first combo the state's copy of the buffer parses into. */
  function ComboParserFirst(c: Controller): Action
    requires c.tm.Valid()
  {
    ComboParser.ParseCombo(c.tm.parser, c.state.inputBuffer)
  }

  /**
   * `replayLastCombo`: with no remembered combo, or outside the input phase,
   * nothing happens; otherwise the remembered sequence replaces the buffer and
   * is confirmed.
   */
  function ReplayLastCombo(c: Controller, rng: Rng): (r: (Controller, Rng))
    requires c.tm.Valid()
    ensures c.state.lastSuccessfulCombo.None? || c.state.turnPhase != PlayerInput ==> r == (c, rng)
    ensures c.state.lastSuccessfulCombo.Some? && c.state.turnPhase == PlayerInput ==>
              var replay := c.(buffer := c.buffer.(contents := c.state.lastSuccessfulCombo.value),
                               state := c.state.(inputBuffer := c.state.lastSuccessfulCombo.value));
              && r == ConfirmAction(replay, rng)
              && ComboParserFirst(replay) == ComboParser.ParseCombo(c.tm.parser, c.state.lastSuccessfulCombo.value)
              && r.0.state.inputBuffer == [] && r.0.buffer.contents == []
              && (r.0.state.turnPhase == EnemyTurn || r.0.state.turnPhase == CombatEnd)
  {
    match c.state.lastSuccessfulCombo
    case None => (c, rng)
    case Some(sequence) =>
      if c.state.turnPhase != PlayerInput then (c, rng)
      else
        var b := InputBufferSystem.SetBuffer(c.buffer, sequence);
        ConfirmAction(c.(buffer := b, state := c.state.(inputBuffer := b.contents)), rng)
  }

  /**
   * `progressTurn`: runs phases until input reopens or the combat ends. From the
   * enemy turn that is the enemies' turn and, unless it ended the combat, the
   * turn end; from the turn end, the turn end alone. The buffer's cap follows
   * the input limit after each phase. An enemy with no usable action aborts it;
   * the failure carries the state the enemies' turn had reached, which is what
   * the controller's mutated state holds once the error has propagated.
   */
  function ProgressTurn(c: Controller, rng: Rng): (r: Result<(Controller, Rng), TurnManager.Aborted>)
    requires c.state.turnPhase != PlayerExecuting
    ensures c.state.turnPhase == PlayerInput || c.state.turnPhase == CombatEnd ==> r == Success((c, rng))
    ensures r.Failure? ==> c.state.turnPhase == EnemyTurn
    ensures c.state.turnPhase == TurnEnd ==> r.Success? && r.value.1 == rng
    ensures r.Success? ==> r.value.0.tm == c.tm
  {
    match c.state.turnPhase
    case PlayerInput => Success((c, rng))
    case CombatEnd => Success((c, rng))
    case TurnEnd => Success((RunTurnEnd(c), rng))
    case EnemyTurn =>
      match TurnManager.ExecuteEnemyTurns(c.tm, c.state, rng)
      case Failure(err) => Failure(err)
      case Success((s, rng')) =>
        var c1 := c.(state := s, buffer := SyncCap(c.buffer, s.maxInputLimit));
        if s.turnPhase == TurnEnd then Success((RunTurnEnd(c1), rng'))
        else Success((c1, rng'))
  }

  /** The `TURN_END` case of `progressTurn`. */
  function RunTurnEnd(c: Controller): (r: Controller)
    ensures r.state == TurnManager.ExecuteTurnEnd(c.tm, c.state)
    ensures r.buffer == SyncCap(c.buffer, r.state.maxInputLimit)
    ensures r.tm == c.tm
  {
    var s := TurnManager.ExecuteTurnEnd(c.tm, c.state);
    c.(state := s, buffer := SyncCap(c.buffer, s.maxInputLimit))
  }

  /**
   * The phase loop of `progressTurn` terminates where it promises to: input
   * reopens for the next turn, or the combat is over; it fails only on an
   * enemy, alive when its turn began, whose pool has no registered action, and
   * then leaves the state in the enemy turn with the earlier enemies' actions applied.
   */
  lemma ProgressTurnOutcome(c: Controller, rng: Rng)
    requires c.state.turnPhase != PlayerExecuting
    ensures var r := ProgressTurn(c, rng);
            && (c.state.turnPhase == PlayerInput || c.state.turnPhase == CombatEnd ==> r == Success((c, rng)))
            && (r.Success? ==> r.value.0.state.turnPhase == PlayerInput || r.value.0.state.turnPhase == CombatEnd)
            && (r.Success? ==> r.value.0.buffer.maxBufferSize == r.value.0.state.maxInputLimit
                               || c.state.turnPhase == PlayerInput || c.state.turnPhase == CombatEnd)
            && (r.Success? && r.value.0.state.turnPhase == CombatEnd ==>
                  (r.value.0.state.isVictory || r.value.0.state.isDefeat || c.state.turnPhase == CombatEnd))
            && (r.Success? && r.value.0.state.turnPhase == PlayerInput && c.state.turnPhase != PlayerInput ==>
                  r.value.0.state.turnCount == c.state.turnCount + 1)
            && (r.Failure? ==>
                  && c.state.turnPhase == EnemyTurn
                  && exists k :: 0 <= k < |c.state.enemies| && c.state.enemies[k].entity.isAlive
                                 && |EnemyAI.Candidates(c.tm.actions, c.state.enemies[k].actionPool)| == 0)
            && (r.Failure? ==>
                  && r.error.state.turnPhase == EnemyTurn && r.error.state.isDefeat == c.state.isDefeat
                  && TurnManager.Framed(c.state, r.error.state))
  {
    match c.state.turnPhase
    case PlayerInput =>
    case CombatEnd =>
    case TurnEnd =>
      TurnManager.TurnEndOutcome(c.tm, c.state);
    case EnemyTurn =>
      TurnManager.EnemyLoopOutcome(c.tm, 0, c.state, rng);
      TurnManager.EnemyLoopFailure(c.tm, 0, c.state, rng);
      TurnManager.EnemyLoopAborted(c.tm, 0, c.state, rng);
      match TurnManager.ExecuteEnemyTurns(c.tm, c.state, rng)
      case Failure(err) =>
      case Success((s, rng')) =>
        if s.turnPhase == TurnEnd {
          TurnManager.TurnEndOutcome(c.tm, s);
          TurnManager.TurnEndFrame(c.tm, s);
        }
  }

  /**
   * A whole round from the input phase: confirming and then progressing ends
   * in the next turn's input phase or at combat end.
   */
  lemma RoundTrip(c: Controller, rng: Rng)
    requires c.tm.Valid() && c.state.turnPhase == PlayerInput
    ensures var (c1, rng1) := ConfirmAction(c, rng);
            var r := ProgressTurn(c1, rng1);
            r.Success? ==>
              || r.value.0.state.turnPhase == CombatEnd
              || (r.value.0.state.turnPhase == PlayerInput && r.value.0.state.turnCount == c.state.turnCount + 1)
  {
    var (c1, rng1) := ConfirmAction(c, rng);
    ProgressTurnOutcome(c1, rng1);
  }

  /** `isCombatOver` */
  function IsCombatOver(c: Controller): (b: bool)
    ensures b <==> c.state.isVictory || c.state.isDefeat
  {
    c.state.isVictory || c.state.isDefeat
  }

  /** `getCombatResult`: victory wins over defeat when both flags are set. */
  function GetCombatResult(c: Controller): (r: CombatResult)
    ensures r == Victory <==> c.state.isVictory
    ensures r == Defeat <==> !c.state.isVictory && c.state.isDefeat
    ensures r == Ongoing <==> !IsCombatOver(c)
  {
    if c.state.isVictory then Victory
    else if c.state.isDefeat then Defeat
    else Ongoing
  }
}

=== FILE: combo_parser.dfy ===
/**
 * Greedy longest-first segmentation of the direction buffer into combos
 * (src/systems/ComboParser.ts).
 */
module ComboParser {
  import opened Wrappers
  import opened Types

  /** `a` begins with `p`. */
  predicate StartsWith(a: seq<Direction>, p: seq<Direction>) {
    |p| <= |a| && a[..|p|] == p
  }

  /** The sort key of a combo: the length of its sequence. */
  function Key(c: Action): nat {
    |c.sequence|
  }

  predicate SortedByLengthDesc(cs: seq<Action>) {
    forall i, j :: 0 <= i < j < |cs| ==> Key(cs[i]) >= Key(cs[j])
  }

  /** Parsing only makes progress when every catalog sequence is non-empty. */
  predicate NonEmptySequences(cs: seq<Action>) {
    forall i :: 0 <= i < |cs| ==> |cs[i].sequence| > 0
  }

  /** The entries of `cs` whose sequence has length `k`, in their order in `cs`. */
  function WithLength(cs: seq<Action>, k: nat): seq<Action> {
    if |cs| == 0 then []
    else (if Key(cs[0]) == k then [cs[0]] else []) + WithLength(cs[1..], k)
  }

  /** The concatenation of the combos' sequences. */
  function Flatten(cs: seq<Action>): seq<Direction> {
    if |cs| == 0 then [] else cs[0].sequence + Flatten(cs[1..])
  }

  lemma WithLengthCons(a: Action, cs: seq<Action>, k: nat)
    ensures WithLength([a] + cs, k) == (if Key(a) == k then [a] else []) + WithLength(cs, k)
  {
    assert ([a] + cs)[1..] == cs;
  }

  /** Places `c` before the first entry that is not longer than it. */
  function Insert(c: Action, cs: seq<Action>): (r: seq<Action>)
    ensures multiset(r) == multiset(cs) + multiset{c}
  {
    if |cs| == 0 || Key(cs[0]) <= Key(c) then [c] + cs
    else
      assert cs == [cs[0]] + cs[1..];
      [cs[0]] + Insert(c, cs[1..])
  }

  lemma {:induction false} InsertSorted(c: Action, cs: seq<Action>)
    requires SortedByLengthDesc(cs)
    ensures SortedByLengthDesc(Insert(c, cs))
  {
    var r := Insert(c, cs);
    if |cs| == 0 || Key(cs[0]) <= Key(c) {
      forall i, j | 0 <= i < j < |r| ensures Key(r[i]) >= Key(r[j]) {
        assert r[j] == cs[j - 1];
        if i > 0 {
          assert r[i] == cs[i - 1];
        }
      }
    } else {
      var rest := Insert(c, cs[1..]);
      InsertSorted(c, cs[1..]);
      assert r == [cs[0]] + rest;
      forall i, j | 0 <= i < j < |r| ensures Key(r[i]) >= Key(r[j]) {
        assert r[j] == rest[j - 1];
        if i > 0 {
          assert r[i] == rest[i - 1];
        } else {
          var x := rest[j - 1];
          assert x in multiset(rest);
          if x != c {
            assert x in multiset(cs[1..]);
            var m :| 0 <= m < |cs[1..]| && cs[1..][m] == x;
            assert cs[m + 1] == x;
          }
        }
      }
    }
  }

  /** Insertion keeps the relative order of combos of equal length, `c` first. */
  lemma {:induction false} InsertWithLength(c: Action, cs: seq<Action>, k: nat)
    requires SortedByLengthDesc(cs)
    ensures WithLength(Insert(c, cs), k) == (if Key(c) == k then [c] else []) + WithLength(cs, k)
  {
    if |cs| == 0 || Key(cs[0]) <= Key(c) {
      WithLengthCons(c, cs, k);
    } else {
      var rest := Insert(c, cs[1..]);
      InsertWithLength(c, cs[1..], k);
      WithLengthCons(cs[0], rest, k);
      assert cs == [cs[0]] + cs[1..];
      WithLengthCons(cs[0], cs[1..], k);
      var w := WithLength(cs[1..], k);
      if Key(cs[0]) == k {
        assert WithLength(Insert(c, cs), k) == [cs[0]] + w;
      } else if Key(c) == k {
        assert WithLength(Insert(c, cs), k) == [c] + w;
      } else {
        assert WithLength(Insert(c, cs), k) == w;
      }
    }
  }

  /**
   * The constructor's sort: by sequence length, longest first, keeping the
   * catalog order among combos of equal length (a stable sort).
   */
  function SortByLength(cs: seq<Action>): (r: seq<Action>)
    ensures SortedByLengthDesc(r)
    ensures multiset(r) == multiset(cs)
    ensures forall k :: WithLength(r, k) == WithLength(cs, k)
  {
    if |cs| == 0 then []
    else
      var rest := SortByLength(cs[1..]);
      assert cs == [cs[0]] + cs[1..];
      InsertSorted(cs[0], rest);
      forall k ensures WithLength(Insert(cs[0], rest), k) == WithLength(cs, k) {
        InsertWithLength(cs[0], rest, k);
        WithLengthCons(cs[0], cs[1..], k);
      }
      Insert(cs[0], rest)
  }

  /** The parser: the sorted catalog and the action used when nothing matches. */
  datatype Parser = Parser(combos: seq<Action>, fallback: Action)

  function NewParser(catalog: seq<Action>, fallback: Action): (p: Parser)
    ensures SortedByLengthDesc(p.combos)
    ensures multiset(p.combos) == multiset(catalog)
    ensures forall k :: WithLength(p.combos, k) == WithLength(catalog, k)
    ensures p.fallback == fallback
  {
    Parser(SortByLength(catalog), fallback)
  }

  /** The index of the first entry of `cs` whose sequence begins `rest`. */
  function FirstMatch(cs: seq<Action>, rest: seq<Direction>): (m: Option<nat>)
    ensures m.Some? ==> m.value < |cs| && StartsWith(rest, cs[m.value].sequence)
    ensures m.Some? ==> forall j :: 0 <= j < m.value ==> !StartsWith(rest, cs[j].sequence)
    ensures m.None? <==> forall j :: 0 <= j < |cs| ==> !StartsWith(rest, cs[j].sequence)
  {
    FirstMatchFrom(cs, rest, 0)
  }

  function FirstMatchFrom(cs: seq<Action>, rest: seq<Direction>, k: nat): (m: Option<nat>)
    requires k <= |cs|
    ensures m.Some? ==> k <= m.value < |cs| && StartsWith(rest, cs[m.value].sequence)
    ensures m.Some? ==> forall j :: k <= j < m.value ==> !StartsWith(rest, cs[j].sequence)
    ensures m.None? <==> forall j :: k <= j < |cs| ==> !StartsWith(rest, cs[j].sequence)
    decreases |cs| - k
  {
    if k == |cs| then None
    else if StartsWith(rest, cs[k].sequence) then Some(k)
    else FirstMatchFrom(cs, rest, k + 1)
  }

  /** In a length-sorted catalog the first match is a longest match. */
  lemma FirstMatchIsLongest(cs: seq<Action>, rest: seq<Direction>)
    requires SortedByLengthDesc(cs)
    requires FirstMatch(cs, rest).Some?
    ensures forall j :: 0 <= j < |cs| && StartsWith(rest, cs[j].sequence) ==>
              |cs[j].sequence| <= |cs[FirstMatch(cs, rest).value].sequence|
  {
  }

  /** The loop of `parseAllCombos`: match at the front of `rest` until nothing matches. */
  function ParseFrom(cs: seq<Action>, rest: seq<Direction>): (r: seq<Action>)
    requires NonEmptySequences(cs)
    ensures forall a :: a in r ==> a in cs
    ensures StartsWith(rest, Flatten(r))
    ensures |r| == 0 <==> FirstMatch(cs, rest).None?
    ensures |r| > 0 ==> r[0] == cs[FirstMatch(cs, rest).value]
    decreases |rest|
  {
    if |rest| == 0 then
      assert forall j :: 0 <= j < |cs| ==> !StartsWith(rest, cs[j].sequence);
      []
    else
      match FirstMatch(cs, rest)
      case None => []
      case Some(i) =>
        var n := |cs[i].sequence|;
        var tail := ParseFrom(cs, rest[n..]);
        var r := [cs[i]] + tail;
        assert r[1..] == tail;
        assert Flatten(r) == cs[i].sequence + Flatten(tail);
        assert rest == cs[i].sequence + rest[n..];
        r
  }

  /** The loop stops only when no catalog sequence begins the input that is left. */
  lemma {:induction false} ParseFromStops(cs: seq<Action>, rest: seq<Direction>)
    requires NonEmptySequences(cs)
    ensures var r := ParseFrom(cs, rest);
            |Flatten(r)| <= |rest| && FirstMatch(cs, rest[|Flatten(r)|..]).None?
    decreases |rest|
  {
    var r := ParseFrom(cs, rest);
    if |r| == 0 {
      assert rest[0..] == rest;
    } else {
      var i := FirstMatch(cs, rest).value;
      var n := |cs[i].sequence|;
      var tail := ParseFrom(cs, rest[n..]);
      assert r == [cs[i]] + tail;
      assert r[1..] == tail;
      ParseFromStops(cs, rest[n..]);
      assert |Flatten(r)| == n + |Flatten(tail)|;
      assert rest[|Flatten(r)|..] == rest[n..][|Flatten(tail)|..];
    }
  }

  /**
   * `parseAllCombos`: every combo found, or the fallback alone when none is.
   * Matching goes on until no catalog sequence begins the input that is left.
   */
  function ParseAllCombos(p: Parser, buffer: seq<Direction>): (r: seq<Action>)
    requires NonEmptySequences(p.combos)
    ensures |r| >= 1
    ensures |buffer| == 0 ==> r == [p.fallback]
    ensures (forall j :: 0 <= j < |p.combos| ==> !StartsWith(buffer, p.combos[j].sequence)) ==> r == [p.fallback]
    ensures FirstMatch(p.combos, buffer).Some? ==>
              && r[0] == p.combos[FirstMatch(p.combos, buffer).value]
              && (forall a :: a in r ==> a in p.combos)
              && StartsWith(buffer, Flatten(r))
              && FirstMatch(p.combos, buffer[|Flatten(r)|..]).None?
  {
    var found := ParseFrom(p.combos, buffer);
    ParseFromStops(p.combos, buffer);
    if |found| > 0 then found else [p.fallback]
  }

  /** `parseCombo`: the first combo `parseAllCombos` finds. */
  function ParseCombo(p: Parser, buffer: seq<Direction>): (c: Action)
    requires NonEmptySequences(p.combos)
    ensures c == ParseAllCombos(p, buffer)[0]
    ensures c == match FirstMatch(p.combos, buffer)
                 case Some(i) => p.combos[i]
                 case None => p.fallback
  {
    ParseAllCombos(p, buffer)[0]
  }

  /**
   * Greedy at every step: the j-th combo found is the first catalog entry that
   * begins the input left after the earlier combos, and no matching entry there
   * is longer.
   */
  lemma {:induction false} GreedyAtEveryStep(cs: seq<Action>, rest: seq<Direction>, j: nat)
    requires NonEmptySequences(cs) && SortedByLengthDesc(cs)
    requires j < |ParseFrom(cs, rest)|
    ensures var r := ParseFrom(cs, rest);
            var off := |Flatten(r[..j])|;
            && off <= |rest|
            && FirstMatch(cs, rest[off..]).Some?
            && r[j] == cs[FirstMatch(cs, rest[off..]).value]
            && forall c :: c in cs && StartsWith(rest[off..], c.sequence) ==>
                 |c.sequence| <= |r[j].sequence|
    decreases |rest|
  {
    var r := ParseFrom(cs, rest);
    var i := FirstMatch(cs, rest).value;
    var n := |cs[i].sequence|;
    assert r == [cs[i]] + ParseFrom(cs, rest[n..]);
    if j == 0 {
      assert r[..0] == [];
      assert rest[0..] == rest;
      FirstMatchIsLongest(cs, rest);
    } else {
      var tail := ParseFrom(cs, rest[n..]);
      GreedyAtEveryStep(cs, rest[n..], j - 1);
      assert r[..j] == [cs[i]] + tail[..j - 1];
      assert r[..j][1..] == tail[..j - 1];
      var off' := |Flatten(tail[..j - 1])|;
      assert |Flatten(r[..j])| == n + off';
      assert rest[n..][off'..] == rest[n + off'..];
    }
  }

  /** `matchesSequence`: the element-wise comparison loop decides `StartsWith`. */
  method MatchesSequence(buffer: seq<Direction>, sequence: seq<Direction>) returns (b: bool)
    ensures b <==> |sequence| <= |buffer| && buffer[..|sequence|] == sequence
  {
    if |buffer| < |sequence| {
      return false;
    }
    var i := 0;
    while i < |sequence|
      invariant 0 <= i <= |sequence|
      invariant buffer[..i] == sequence[..i]
    {
      if buffer[i] != sequence[i] {
        assert buffer[..|sequence|][i] != sequence[i];
        return false;
      }
      assert buffer[..i + 1] == buffer[..i] + [buffer[i]];
      assert sequence[..i + 1] == sequence[..i] + [sequence[i]];
      i := i + 1;
    }
    assert sequence[..i] == sequence;
    return true;
  }

  /** The entries of `cs` whose sequence begins with `buffer`, in order. */
  function PotentialFrom(cs: seq<Action>, buffer: seq<Direction>): (r: seq<Action>)
    ensures forall c :: c in r <==> c in cs && StartsWith(c.sequence, buffer)
    ensures |r| <= |cs|
    ensures |r| == 0 <==> forall i :: 0 <= i < |cs| ==> !StartsWith(cs[i].sequence, buffer)
  {
    if |cs| == 0 then []
    else
      assert cs == [cs[0]] + cs[1..];
      (if StartsWith(cs[0].sequence, buffer) then [cs[0]] else []) + PotentialFrom(cs[1..], buffer)
  }

  /** Each matching entry is kept as often as it occurs, and no other entry is. */
  lemma {:induction false} PotentialFromCounts(cs: seq<Action>, buffer: seq<Direction>)
    ensures forall c :: multiset(PotentialFrom(cs, buffer))[c] == if StartsWith(c.sequence, buffer) then multiset(cs)[c] else 0
  {
    if |cs| > 0 {
      PotentialFromCounts(cs[1..], buffer);
      assert cs == [cs[0]] + cs[1..];
      assert multiset(cs) == multiset{cs[0]} + multiset(cs[1..]);
      var head: seq<Action> := if StartsWith(cs[0].sequence, buffer) then [cs[0]] else [];
      assert multiset(PotentialFrom(cs, buffer)) == multiset(head) + multiset(PotentialFrom(cs[1..], buffer));
    }
  }

  /** Filtering works entry by entry, so it keeps the catalog's order. */
  lemma {:induction false} PotentialFromAppend(a: seq<Action>, b: seq<Action>, buffer: seq<Direction>)
    ensures PotentialFrom(a + b, buffer) == PotentialFrom(a, buffer) + PotentialFrom(b, buffer)
  {
    if |a| > 0 {
      assert (a + b)[1..] == a[1..] + b;
      PotentialFromAppend(a[1..], b, buffer);
    } else {
      assert a + b == b;
    }
  }

  lemma {:induction false} PotentialFromSorted(cs: seq<Action>, buffer: seq<Direction>)
    ensures SortedByLengthDesc(cs) ==> SortedByLengthDesc(PotentialFrom(cs, buffer))
  {
    if |cs| > 0 && SortedByLengthDesc(cs) {
      var tail := PotentialFrom(cs[1..], buffer);
      PotentialFromSorted(cs[1..], buffer);
      if StartsWith(cs[0].sequence, buffer) {
        SortedCons(cs[0], tail, cs[1..]);
      }
    }
  }

  /** A longest-first list stays so with an entry in front that is no shorter than any entry of `from`. */
  lemma SortedCons(x: Action, t: seq<Action>, from: seq<Action>)
    requires SortedByLengthDesc(t) && SortedByLengthDesc([x] + from)
    requires forall c :: c in t ==> c in from
    ensures SortedByLengthDesc([x] + t)
  {
    var r := [x] + t;
    forall j | 0 < j < |r| ensures Key(x) >= Key(r[j]) {
      assert r[j] == t[j - 1] && t[j - 1] in from;
      var m :| 0 <= m < |from| && from[m] == t[j - 1];
      assert ([x] + from)[0] == x && ([x] + from)[m + 1] == from[m];
    }
    forall i, j | 0 <= i < j < |r| ensures Key(r[i]) >= Key(r[j]) {
      if i > 0 {
        assert r[i] == t[i - 1] && r[j] == t[j - 1];
      }
    }
  }

  lemma {:induction false} PotentialFromAll(cs: seq<Action>, buffer: seq<Direction>)
    ensures (forall i :: 0 <= i < |cs| ==> StartsWith(cs[i].sequence, buffer)) ==> PotentialFrom(cs, buffer) == cs
  {
    if |cs| > 0 && forall i :: 0 <= i < |cs| ==> StartsWith(cs[i].sequence, buffer) {
      PotentialFromAll(cs[1..], buffer);
      assert cs == [cs[0]] + cs[1..];
    }
  }

  /**
   * `findPotentialCombos`: exactly the catalog entries whose sequence begins
   * with the buffer, each as often as in the catalog, in sorted order; the
   * whole catalog for an empty buffer.
   */
  function FindPotentialCombos(p: Parser, buffer: seq<Direction>): (r: seq<Action>)
    ensures forall c :: c in r <==> c in p.combos && StartsWith(c.sequence, buffer)
    ensures SortedByLengthDesc(p.combos) ==> SortedByLengthDesc(r)
    ensures |buffer| == 0 ==> r == p.combos
    ensures |r| == 0 <==> forall i :: 0 <= i < |p.combos| ==> !StartsWith(p.combos[i].sequence, buffer)
    ensures forall c :: multiset(r)[c] == if StartsWith(c.sequence, buffer) then multiset(p.combos)[c] else 0
  {
    PotentialFromCounts(p.combos, buffer);
    PotentialFromSorted(p.combos, buffer);
    PotentialFromAll(p.combos, buffer);
    PotentialFrom(p.combos, buffer)
  }
}

=== FILE: damage_resolver.dfy ===
/**
 * Per-hit damage with outgoing, elemental and incoming multipliers, applied
 * to the shield before HP (src/systems/DamageResolver.ts).
 */
module DamageResolver {
  import opened Wrappers
  import opened Types
  import opened Numerics
  import StatusManager

  const WeakId: string := "weak"
  const VulnerableId: string := "vulnerable"

  /** `weak^stacks` of the attacker, 1 when it is not weakened or the multiplier is absent. */
  function OutgoingMultiplier(reg: StatusRegistry, attacker: Entity): (m: real)
    ensures StatusManager.FindStatus(attacker.statuses, WeakId).None? ==> m == 1.0
    ensures WeakId !in reg || reg[WeakId].effectPerStack.outgoingDamageMultiplier == 0.0 ==> m == 1.0
    ensures StatusManager.FindStatus(attacker.statuses, WeakId).Some? && WeakId in reg
              && reg[WeakId].effectPerStack.outgoingDamageMultiplier != 0.0 ==>
              m == Pow(reg[WeakId].effectPerStack.outgoingDamageMultiplier, StatusManager.StacksOf(attacker.statuses, WeakId))
  {
    match StatusManager.FindStatus(attacker.statuses, WeakId)
    case Some(i) =>
      if WeakId in reg && reg[WeakId].effectPerStack.outgoingDamageMultiplier != 0.0 then
        Pow(reg[WeakId].effectPerStack.outgoingDamageMultiplier, attacker.statuses[i].stacks)
      else 1.0
    case None => 1.0
  }

  /**
   * The target's affinity for the element; 1 without an element, for an
   * unlisted element, and for a stored 0 (the source's `|| 1.0`).
   */
  function ElementalMultiplier(element: Option<Element>, target: Entity): (m: real)
    ensures m != 0.0
    ensures element.None? ==> m == 1.0
    ensures element.Some? && element.value in target.affinities && target.affinities[element.value] != 0.0 ==>
              m == target.affinities[element.value]
  {
    match element
    case None => 1.0
    case Some(el) =>
      if el in target.affinities && target.affinities[el] != 0.0 then target.affinities[el] else 1.0
  }

  /** `vulnerable^stacks` of the target, 1 when it is not vulnerable or the multiplier is absent. */
  function IncomingMultiplier(reg: StatusRegistry, target: Entity): (m: real)
    ensures StatusManager.FindStatus(target.statuses, VulnerableId).None? ==> m == 1.0
    ensures VulnerableId !in reg || reg[VulnerableId].effectPerStack.damageMultiplier == 0.0 ==> m == 1.0
    ensures StatusManager.FindStatus(target.statuses, VulnerableId).Some? && VulnerableId in reg
              && reg[VulnerableId].effectPerStack.damageMultiplier != 0.0 ==>
              m == Pow(reg[VulnerableId].effectPerStack.damageMultiplier, StatusManager.StacksOf(target.statuses, VulnerableId))
  {
    match StatusManager.FindStatus(target.statuses, VulnerableId)
    case Some(i) =>
      if VulnerableId in reg && reg[VulnerableId].effectPerStack.damageMultiplier != 0.0 then
        Pow(reg[VulnerableId].effectPerStack.damageMultiplier, target.statuses[i].stacks)
      else 1.0
    case None => 1.0
  }

  /**
   * The damage of one hit before mitigation: the base scaled by the outgoing,
   * elemental and incoming multipliers in that order, rounded to the nearest integer.
   */
  function HitDamage(reg: StatusRegistry, base: int, element: Option<Element>, attacker: Entity, target: Entity): (d: int)
    ensures var exact := (base as real) * OutgoingMultiplier(reg, attacker)
                         * ElementalMultiplier(element, target) * IncomingMultiplier(reg, target);
            (d as real) - 0.5 <= exact < (d as real) + 0.5
  {
    var damage := base as real;
    var damage := damage * OutgoingMultiplier(reg, attacker);
    var damage := damage * ElementalMultiplier(element, target);
    var damage := damage * IncomingMultiplier(reg, target);
    Round(damage)
  }

  datatype HitOutcome = HitOutcome(target: Entity, shieldDamage: int, hpDamage: int)

  /**
   * `applyToEntity`: the shield absorbs first, HP takes the rest, and HP at or
   * below 0 is clamped to 0 and kills.
   */
  function ApplyToEntity(d: int, t: Entity): (r: HitOutcome)
    ensures r.target == t.(shield := r.target.shield, currentHp := r.target.currentHp, isAlive := r.target.isAlive)
    ensures r.target.shield == t.shield - r.shieldDamage
    ensures t.shield >= 0 ==> r.target.shield >= 0
    ensures r.target.currentHp >= 0
    ensures r.target.currentHp == 0 ==> !r.target.isAlive
    ensures r.target.isAlive ==> t.isAlive
    ensures t.currentHp >= 0 ==>
              r.shieldDamage + r.hpDamage == (t.shield + t.currentHp) - (r.target.shield + r.target.currentHp)
    ensures 0 <= d && 0 <= t.shield && 0 <= t.currentHp ==>
              && r.shieldDamage == Min(d, t.shield)
              && r.hpDamage == Min(d - r.shieldDamage, t.currentHp)
              && r.shieldDamage + r.hpDamage == Min(d, t.shield + t.currentHp)
  {
    var shieldDamage := if t.shield > 0 then Min(d, t.shield) else 0;
    var remaining := d - shieldDamage;
    var hpDamage := if remaining > 0 then Min(remaining, t.currentHp) else 0;
    var hp := t.currentHp - hpDamage;
    var t' := t.(shield := t.shield - shieldDamage);
    var t' := if hp <= 0 then t'.(currentHp := 0, isAlive := false) else t'.(currentHp := hp);
    HitOutcome(t', shieldDamage, hpDamage)
  }

  function Sum(xs: seq<int>): int {
    if |xs| == 0 then 0 else xs[0] + Sum(xs[1..])
  }

  /** `n` hits of `d` each; returns the target and the damage each hit dealt. */
  function ApplyHits(d: int, t: Entity, n: nat): (r: (Entity, seq<int>))
    ensures |r.1| == n
    ensures r.0 == t.(shield := r.0.shield, currentHp := r.0.currentHp, isAlive := r.0.isAlive)
    ensures t.shield >= 0 ==> r.0.shield >= 0
    ensures t.currentHp >= 0 ==> r.0.currentHp >= 0
    ensures n > 0 ==> r.0.currentHp >= 0 && (r.0.currentHp == 0 ==> !r.0.isAlive)
    ensures r.0.isAlive ==> t.isAlive
    ensures t.currentHp >= 0 ==> Sum(r.1) == (t.shield + t.currentHp) - (r.0.shield + r.0.currentHp)
    ensures 0 <= d && 0 <= t.shield && 0 <= t.currentHp ==> Sum(r.1) == Min(n * d, t.shield + t.currentHp)
    decreases n
  {
    if n == 0 then (t, [])
    else
      var hit := ApplyToEntity(d, t);
      var (t', rest) := ApplyHits(d, hit.target, n - 1);
      var dealt := [hit.shieldDamage + hit.hpDamage] + rest;
      assert dealt[1..] == rest;
      assert n * d == d + (n - 1) * d;
      (t', dealt)
  }

  /** What `applyDamage` reports, with the damaged target and the per-hit amounts. */
  datatype DamageResult = DamageResult(target: Entity, totalDamage: int, perHit: seq<int>, targetKilled: bool)

  /**
   * `applyDamage`: `hitCount` hits of the same rounded damage. Only the
   * target's shield, HP and liveness change, and the total is what the pools lost.
   */
  function ApplyDamage(reg: StatusRegistry, base: int, element: Option<Element>, attacker: Entity, target: Entity, hitCount: nat): (r: DamageResult)
    ensures r.target == target.(shield := r.target.shield, currentHp := r.target.currentHp, isAlive := r.target.isAlive)
    ensures |r.perHit| == hitCount && r.totalDamage == Sum(r.perHit)
    ensures target.shield >= 0 ==> r.target.shield >= 0
    ensures target.currentHp >= 0 ==> r.target.currentHp >= 0
    ensures target.currentHp >= 0 ==>
              r.totalDamage == (target.shield + target.currentHp) - (r.target.shield + r.target.currentHp)
    ensures r.targetKilled <==> r.target.currentHp <= 0
    ensures hitCount > 0 && r.target.currentHp <= 0 ==> !r.target.isAlive
    ensures r.target.isAlive ==> target.isAlive
  {
    var (t', perHit) := ApplyHits(HitDamage(reg, base, element, attacker, target), target, hitCount);
    DamageResult(t', Sum(perHit), perHit, t'.currentHp <= 0)
  }

  /**
   * For non-negative per-hit damage, `applyDamage`'s total is the smaller of
   * all hits together and the two pools together.
   */
  lemma ApplyDamageTotal(reg: StatusRegistry, base: int, element: Option<Element>, attacker: Entity, target: Entity, hitCount: nat)
    ensures var d := HitDamage(reg, base, element, attacker, target);
            0 <= d && 0 <= target.shield && 0 <= target.currentHp ==>
              ApplyDamage(reg, base, element, attacker, target, hitCount).totalDamage == Min(hitCount * d, target.shield + target.currentHp)
  {
  }
}

=== FILE: enemy_ai.dfy ===
/** Action selection for enemies (src/systems/EnemyAI.ts). */
module EnemyAI {
  import opened Wrappers
  import opened Types
  import opened Randomness
  import Registry

  /** The error `selectAction` throws when an enemy has nothing it can do. */
  datatype AiError = NoValidActions(enemyId: string)

  datatype AIPattern = AIPattern(id: string, strategy: AIStrategy)

  function BuildActionRegistry(actions: seq<Action>): ActionRegistry {
    Registry.Index(actions, (a: Action) => a.id)
  }

  /** The action pool looked up in the registry, unknown ids dropped, pool order kept. */
  function Candidates(reg: ActionRegistry, pool: seq<string>): (r: seq<Action>)
    ensures |r| <= |pool|
    ensures forall a :: a in r ==> exists id :: id in pool && id in reg && reg[id] == a
    ensures forall id :: id in pool && id in reg ==> reg[id] in r
  {
    if |pool| == 0 then []
    else
      assert pool == [pool[0]] + pool[1..];
      (if pool[0] in reg then [reg[pool[0]]] else []) + Candidates(reg, pool[1..])
  }

  /** `getAction`: the registered action with that id, if any. */
  function GetAction(reg: ActionRegistry, actionId: string): (r: Option<Action>)
    ensures r.Some? <==> actionId in reg
    ensures r.Some? ==> r.value == reg[actionId]
  {
    if actionId in reg then Some(reg[actionId]) else None
  }

  /** The lookup works id by id, so the candidates follow the pool's order. */
  lemma {:induction false} CandidatesAppend(reg: ActionRegistry, p1: seq<string>, p2: seq<string>)
    ensures Candidates(reg, p1 + p2) == Candidates(reg, p1) + Candidates(reg, p2)
  {
    if |p1| == 0 {
      assert p1 + p2 == p2;
    } else {
      assert (p1 + p2)[1..] == p1[1..] + p2;
      CandidatesAppend(reg, p1[1..], p2);
    }
  }

  /**
   * `selectAction`: the candidate the draw picks; an error when there is no
   * candidate. The result is always a registered action of the enemy's pool.
   */
  function SelectAction(reg: ActionRegistry, enemy: Enemy, u: Draw): (r: Result<Action, AiError>)
    ensures r.Failure? <==> |Candidates(reg, enemy.actionPool)| == 0
    ensures r.Failure? ==> r.error == NoValidActions(enemy.entity.id)
    ensures r.Success? ==>
              var cands := Candidates(reg, enemy.actionPool);
              && r.value == cands[PickIndex(u, |cands|)]
              && exists id :: id in enemy.actionPool && id in reg && reg[id] == r.value
  {
    var cands := Candidates(reg, enemy.actionPool);
    if |cands| == 0 then Failure(NoValidActions(enemy.entity.id))
    else
      assert cands[PickIndex(u, |cands|)] in cands;
      Success(cands[PickIndex(u, |cands|)])
  }

  /**
   * `currentHp / maxHp < 0.3` in exact arithmetic; a zero `maxHp` follows the
   * IEEE quotient (only a negative HP gives -Infinity, which is below 0.3).
   */
  predicate LowHp(e: Entity) {
    if e.maxHp == 0 then e.currentHp < 0
    else (e.currentHp as real) / (e.maxHp as real) < 0.3
  }

  /** An action granting shield or regeneration. */
  predicate IsDefensive(a: Action) {
    exists k :: 0 <= k < |a.statusEffects| && a.statusEffects[k].statusId in {"shield", "regen"}
  }

  function FirstDefensive(cands: seq<Action>): (m: Option<nat>)
    ensures m.Some? ==> m.value < |cands| && IsDefensive(cands[m.value])
    ensures m.Some? ==> forall j :: 0 <= j < m.value ==> !IsDefensive(cands[j])
    ensures m.None? <==> forall j :: 0 <= j < |cands| ==> !IsDefensive(cands[j])
  {
    if |cands| == 0 then None
    else if IsDefensive(cands[0]) then Some(0)
    else
      match FirstDefensive(cands[1..])
      case None => None
      case Some(k) => Some(k + 1)
  }

  /**
   * `selectActionByPattern`: RANDOM draws, SEQUENTIAL cycles with the turn
   * count, CONDITIONAL prefers the first defensive action at low HP, and any
   * other strategy takes the first candidate.
   */
  function SelectActionByPattern(reg: ActionRegistry, enemy: Enemy, pattern: AIPattern, turnCount: nat, u: Draw): (r: Result<Action, AiError>)
    ensures r.Failure? <==> |Candidates(reg, enemy.actionPool)| == 0
    ensures r.Success? ==>
              var cands := Candidates(reg, enemy.actionPool);
              && r.value in cands
              && (pattern.strategy == RandomChoice ==> r.value == cands[PickIndex(u, |cands|)])
              && (pattern.strategy == Sequential ==> r.value == cands[turnCount % |cands|])
              && (pattern.strategy == PriorityBased ==> r.value == cands[0])
              && (pattern.strategy == Conditional ==>
                    if LowHp(enemy.entity) && exists j :: 0 <= j < |cands| && IsDefensive(cands[j]) then
                      exists i :: 0 <= i < |cands| && r.value == cands[i] && IsDefensive(cands[i])
                        && forall j :: 0 <= j < i ==> !IsDefensive(cands[j])
                    else r.value == cands[0])
  {
    var actions := Candidates(reg, enemy.actionPool);
    if |actions| == 0 then Failure(NoValidActions(enemy.entity.id))
    else
      match pattern.strategy
      case RandomChoice => Success(actions[PickIndex(u, |actions|)])
      case Sequential => Success(actions[turnCount % |actions|])
      case Conditional =>
        if LowHp(enemy.entity) then
          match FirstDefensive(actions)
          case Some(i) =>
            assert actions[i] in actions;
            Success(actions[i])
          case None => Success(actions[0])
        else Success(actions[0])
      case PriorityBased => Success(actions[0])
  }
}

=== FILE: input_buffer.dfy ===
/** The bounded list of pending direction inputs (src/systems/InputBufferSystem.ts). */
module InputBufferSystem {
  import opened Wrappers
  import opened Types
  import opened Numerics

  datatype InputBuffer = InputBuffer(contents: seq<Direction>, maxBufferSize: int)

  /** The constructor: an empty buffer, 20 slots unless told otherwise. */
  function NewInputBuffer(maxBufferSize: int): (b: InputBuffer)
    ensures b.contents == [] && b.maxBufferSize == maxBufferSize
  {
    InputBuffer([], maxBufferSize)
  }

  const DefaultMaxBufferSize: int := 20

  /**
   * `addInput`: refuses a full buffer (no eviction), otherwise appends.
   */
  function AddInput(b: InputBuffer, d: Direction): (r: (InputBuffer, bool))
    ensures !r.1 <==> |b.contents| >= b.maxBufferSize
    ensures !r.1 ==> r.0 == b
    ensures r.1 ==> r.0 == b.(contents := b.contents + [d])
    ensures |b.contents| <= b.maxBufferSize ==> |r.0.contents| <= r.0.maxBufferSize
  {
    if |b.contents| >= b.maxBufferSize then (b, false)
    else (b.(contents := b.contents + [d]), true)
  }

  /**
   * JavaScript's `slice(0, end)`: a negative end counts back from the length.
   */
  function SliceTo(s: seq<Direction>, end: int): (r: seq<Direction>)
    ensures 0 <= end <= |s| ==> r == s[..end]
    ensures end < 0 ==> r == s[..Max(|s| + end, 0)]
  {
    if end < 0 then s[..if |s| + end < 0 then 0 else |s| + end]
    else if end > |s| then s
    else s[..end]
  }

  /**
   * `setMaxBufferSize`: sets the cap and trims the buffer when it is over it.
   */
  function SetMaxBufferSize(b: InputBuffer, size: int): (r: InputBuffer)
    ensures r.maxBufferSize == size
    ensures size >= 0 ==> r.contents == b.contents[..Min(|b.contents|, size)]
    ensures size >= 0 ==> |r.contents| <= r.maxBufferSize
    ensures |b.contents| <= size ==> r.contents == b.contents
  {
    if |b.contents| > size then InputBuffer(SliceTo(b.contents, size), size)
    else b.(maxBufferSize := size)
  }

  /** `removeLastInput`: pops the newest input; nothing on an empty buffer. */
  function RemoveLastInput(b: InputBuffer): (r: (InputBuffer, Option<Direction>))
    ensures |b.contents| == 0 ==> r.0 == b && r.1 == None
    ensures |b.contents| > 0 ==>
              && r.1 == Some(b.contents[|b.contents| - 1])
              && r.0.contents + [r.1.value] == b.contents
              && r.0.maxBufferSize == b.maxBufferSize
  {
    if |b.contents| == 0 then (b, None)
    else (b.(contents := b.contents[..|b.contents| - 1]), Some(b.contents[|b.contents| - 1]))
  }

  /** `setBuffer`: replaces the contents wholesale; the cap is not enforced. */
  function SetBuffer(b: InputBuffer, sequence: seq<Direction>): (r: InputBuffer)
    ensures r.contents == sequence && r.maxBufferSize == b.maxBufferSize
  {
    b.(contents := sequence)
  }

  function ClearBuffer(b: InputBuffer): (r: InputBuffer)
    ensures r.contents == [] && r.maxBufferSize == b.maxBufferSize
  {
    b.(contents := [])
  }

  function GetLength(b: InputBuffer): nat {
    |b.contents|
  }

  /**
   * The length counts the edits: an accepted add raises it by one and a refused
   * one leaves it, undo lowers it by one unless the buffer is empty, clearing
   * makes it 0, replacing makes it the new sequence's length, and a cap
   * change leaves the smaller of the old length and a non-negative cap.
   */
  lemma GetLengthTracksEdits(b: InputBuffer, d: Direction, sequence: seq<Direction>, size: int)
    ensures GetLength(AddInput(b, d).0) == GetLength(b) + (if AddInput(b, d).1 then 1 else 0)
    ensures GetLength(RemoveLastInput(b).0) == Max(0, GetLength(b) - 1)
    ensures GetLength(ClearBuffer(b)) == 0
    ensures GetLength(SetBuffer(b, sequence)) == |sequence|
    ensures size >= 0 ==> GetLength(SetMaxBufferSize(b, size)) == Min(GetLength(b), size)
  {
    if |b.contents| > 0 {
      var r := RemoveLastInput(b);
      assert |r.0.contents + [r.1.value]| == |b.contents|;
    }
  }

  function IsEmpty(b: InputBuffer): (e: bool)
    ensures e <==> GetLength(b) == 0
    ensures e <==> b.contents == []
  {
    |b.contents| == 0
  }

  /** Adding then undoing restores the buffer whenever the add succeeded. */
  lemma AddThenRemove(b: InputBuffer, d: Direction)
    requires |b.contents| < b.maxBufferSize
    ensures var (added, ok) := AddInput(b, d);
            ok && RemoveLastInput(added) == (b, Some(d))
  {
    var added := AddInput(b, d).0;
    assert added.contents[..|added.contents| - 1] == b.contents;
  }

}

=== FILE: leveling.dfy ===
/**
 * Experience and level progression of the player (the private helpers
 * `getExperienceForLevel`, `awardExperience`, `calculateMaxInputLimit`,
 * `calculateMaxHp` and `awardExperienceForEnemy` of src/systems/TurnManager.ts).
 */
module Leveling {
  import opened Types
  import opened Numerics

  /**
   * `getExperienceForLevel`: floor(50 * level^1.5). Since 50 * level^1.5 is the
   * square root of 2500 * level^3, its floor is the integer square root.
   */
  function ExperienceForLevel(level: nat): (t: nat)
    ensures t * t <= 2500 * (level * level * level) < (t + 1) * (t + 1)
  {
    ISqrt(2500 * (level * level * level))
  }

  /** From level 1 on a level costs at least 50 experience, so level-ups terminate. */
  lemma ExperienceForLevelAtLeast50(level: nat)
    ensures level >= 1 ==> ExperienceForLevel(level) >= 50
  {
    if level >= 1 {
      var t := ExperienceForLevel(level);
      var cube := level * level * level;
      CubeMonotone(1, level);
      assert 2500 <= 2500 * cube;
      if t < 50 {
        SquareMonotone(t + 1, 50);
      }
    }
  }

  lemma MulMonotone(x: nat, y: nat, z: nat)
    requires x <= y
    ensures x * z <= y * z
  {
  }

  lemma CubeMonotone(a: nat, b: nat)
    requires a <= b
    ensures a * a * a <= b * b * b
  {
    SquareMonotone(a, b);
    MulMonotone(a * a, b * b, a);
    MulMonotone(a, b, b * b);
    assert b * b * a == a * (b * b);
  }

  /** Higher levels never cost less. */
  lemma ExperienceForLevelMonotone(a: nat, b: nat)
    requires a <= b
    ensures ExperienceForLevel(a) <= ExperienceForLevel(b)
  {
    var ta, tb := ExperienceForLevel(a), ExperienceForLevel(b);
    CubeMonotone(a, b);
    if ta > tb {
      SquareMonotone(tb + 1, ta);
    }
  }

  /** `calculateMaxInputLimit`: 3 inputs at level 1, one more every two levels. */
  function MaxInputLimit(level: int): (r: int)
    ensures 2 * (r - 3) <= level - 1 < 2 * (r - 3) + 2
  {
    3 + (level - 1) / 2
  }

  /** `calculateMaxHp`: 100 HP at level 1. */
  function MaxHpFor(level: int): int {
    100 + (level - 1) * 15
  }

  /** The curves the helpers' comments promise. */
  lemma {:induction false} LevelCurves(level: nat)
    requires level >= 1
    ensures MaxInputLimit(1) == 3 && MaxHpFor(1) == 100
    ensures MaxInputLimit(level + 2) == MaxInputLimit(level) + 1
    ensures MaxInputLimit(level) <= MaxInputLimit(level + 1) <= MaxInputLimit(level) + 1
    ensures MaxInputLimit(level) >= 3
    ensures MaxHpFor(level + 1) == MaxHpFor(level) + 15
  {
  }

  /**
   * The current HP after a level-up from `oldMax` to `newMax`: the old HP plus
   * its share of the increase, plus the increase again, capped at the new maximum.
   */
  function LevelUpHp(oldHp: int, oldMax: int, newMax: int): (hp: int)
    ensures hp <= newMax
    ensures 0 <= oldHp <= oldMax && 0 < oldMax <= newMax ==> oldHp <= hp
    ensures 0 < oldMax == oldHp <= newMax ==> hp == newMax
    ensures oldMax <= 0 ==> hp == Min(newMax, oldHp + 2 * (newMax - oldMax))
  {
    var increase := newMax - oldMax;
    var percentage: real := if oldMax > 0 then (oldHp as real) / (oldMax as real) else 1.0;
    ScaledIncreaseNonNegative(oldHp, oldMax, increase);
    assert oldMax <= 0 ==> ((oldHp as real) + (increase as real) * percentage).Floor == oldHp + increase;
    Min(newMax, ((oldHp as real) + (increase as real) * percentage).Floor + increase)
  }

  /** A non-negative increase scaled by a non-negative HP ratio is non-negative. */
  lemma ScaledIncreaseNonNegative(oldHp: int, oldMax: int, increase: int)
    ensures 0 <= oldHp && 0 < oldMax && 0 <= increase ==>
              (increase as real) * ((oldHp as real) / (oldMax as real)) >= 0.0
  {
    if 0 <= oldHp && 0 < oldMax && 0 <= increase {
      var ratio := (oldHp as real) / (oldMax as real);
      assert ratio >= 0.0;
    }
  }

  /** The experience the levels `from` .. `to` - 1 cost in total. */
  function ExperienceBetween(from: nat, to: nat): nat
    requires from <= to
    decreases (to as int) - (from as int)
  {
    if from == to then 0 else ExperienceForLevel(from) + ExperienceBetween(from + 1, to)
  }

  /** One level-up log entry for each of the levels `from` + 1 .. `to`. */
  function LevelUpLog(from: nat, to: nat): seq<LogEntry>
    requires from <= to
    decreases (to as int) - (from as int)
  {
    if from == to then [] else [LeveledUp(from + 1)] + LevelUpLog(from + 1, to)
  }

  /** What a level-up may touch: the player's progress, HP cap, HP, the input limit and the log. */
  predicate OnlyProgressChanged(s: CombatState, r: CombatState) {
    && r == s.(player := r.player, maxInputLimit := r.maxInputLimit, combatLog := r.combatLog)
    && r.player.entity == s.player.entity.(maxHp := r.player.entity.maxHp, currentHp := r.player.entity.currentHp)
  }

  /** The precondition of the level-up loop: a set level whose threshold is recorded. */
  predicate ThresholdRecorded(s: CombatState) {
    s.player.level >= 1 && s.player.experienceToNextLevel == ExperienceForLevel(s.player.level)
  }

  /** One iteration of the level-up loop. */
  function LevelUpStep(s: CombatState): CombatState
    requires ThresholdRecorded(s) && s.player.experience >= s.player.experienceToNextLevel
  {
    var p := s.player;
    var level := p.level + 1;
    var newMaxHp := MaxHpFor(level);
    var e := p.entity.(maxHp := newMaxHp, currentHp := LevelUpHp(p.entity.currentHp, p.entity.maxHp, newMaxHp));
    var p' := Player(e, level, p.experience - p.experienceToNextLevel, ExperienceForLevel(level));
    s.(player := p', maxInputLimit := MaxInputLimit(level)).Log(LeveledUp(level))
  }

  /** The `while` loop of `awardExperience`: level up while the experience covers the threshold. */
  function LevelUps(s: CombatState): (r: CombatState)
    requires ThresholdRecorded(s)
    ensures ThresholdRecorded(r)
    ensures r.player.level >= s.player.level
    decreases s.player.experience
  {
    if s.player.experience < s.player.experienceToNextLevel then s
    else
      ExperienceForLevelAtLeast50(s.player.level);
      LevelUps(LevelUpStep(s))
  }

  /**
   * The loop stops below the next threshold, and the thresholds of the levels
   * gained plus the leftover are exactly the experience the player had.
   */
  lemma {:induction false} LevelUpsSpendsExperience(s: CombatState)
    requires ThresholdRecorded(s)
    ensures LevelUps(s).player.experience < LevelUps(s).player.experienceToNextLevel
    ensures ExperienceBetween(s.player.level, LevelUps(s).player.level) + LevelUps(s).player.experience == s.player.experience
    decreases s.player.experience
  {
    if s.player.experience >= s.player.experienceToNextLevel {
      ExperienceForLevelAtLeast50(s.player.level);
      LevelUpsSpendsExperience(LevelUpStep(s));
    }
  }

  /** Only the player's progress, HP cap and HP, the input limit and the log change; one entry per level gained. */
  lemma {:induction false} LevelUpsFrame(s: CombatState)
    requires ThresholdRecorded(s)
    ensures OnlyProgressChanged(s, LevelUps(s))
    ensures LevelUps(s).combatLog == s.combatLog + LevelUpLog(s.player.level, LevelUps(s).player.level)
    ensures LevelUps(s).player.level == s.player.level ==> LevelUps(s) == s
    decreases s.player.experience
  {
    if s.player.experience >= s.player.experienceToNextLevel {
      ExperienceForLevelAtLeast50(s.player.level);
      var s1 := LevelUpStep(s);
      LevelUpsFrame(s1);
      assert s.combatLog + LevelUpLog(s.player.level, LevelUps(s).player.level)
          == s.combatLog + [LeveledUp(s.player.level + 1)] + LevelUpLog(s1.player.level, LevelUps(s1).player.level);
    }
  }

  /** After a level-up the HP cap and the input limit are the new level's, and HP is within the cap. */
  lemma {:induction false} LevelUpsStats(s: CombatState)
    requires ThresholdRecorded(s)
    ensures LevelUps(s).player.level > s.player.level ==>
              && LevelUps(s).player.entity.maxHp == MaxHpFor(LevelUps(s).player.level)
              && LevelUps(s).maxInputLimit == MaxInputLimit(LevelUps(s).player.level)
              && LevelUps(s).player.entity.currentHp <= LevelUps(s).player.entity.maxHp
    decreases s.player.experience
  {
    if s.player.experience >= s.player.experienceToNextLevel {
      ExperienceForLevelAtLeast50(s.player.level);
      LevelUpsStats(LevelUpStep(s));
    }
  }

  /** A level-up never costs HP when the player's maximum is at most the one its level grants. */
  lemma {:induction false} LevelUpsKeepHp(s: CombatState)
    requires ThresholdRecorded(s)
    requires 0 <= s.player.entity.currentHp <= s.player.entity.maxHp
    requires 0 < s.player.entity.maxHp <= MaxHpFor(s.player.level)
    ensures LevelUps(s).player.entity.currentHp >= s.player.entity.currentHp
    decreases s.player.experience
  {
    if s.player.experience >= s.player.experienceToNextLevel {
      ExperienceForLevelAtLeast50(s.player.level);
      LevelUpsKeepHp(LevelUpStep(s));
    }
  }

  /** The level an unset level stands for. */
  function EffectiveLevel(p: Player): (l: nat)
    ensures l >= 1
    ensures p.level >= 1 ==> l == p.level
  {
    if p.level == 0 then 1 else p.level
  }

  /**
   * `awardExperience`: adds `amount`, then levels up as often as the
   * experience allows; the leftover is below the next threshold and the
   * experience spent on levels plus the leftover is exactly what the player had.
   */
  function AwardExperience(s: CombatState, amount: nat): (r: CombatState)
    ensures OnlyProgressChanged(s, r)
    ensures r.player.level >= EffectiveLevel(s.player)
    ensures r.player.experienceToNextLevel == ExperienceForLevel(r.player.level)
    ensures r.player.experience < r.player.experienceToNextLevel
    ensures ExperienceBetween(EffectiveLevel(s.player), r.player.level) + r.player.experience == s.player.experience + amount
    ensures r.combatLog == s.combatLog + LevelUpLog(EffectiveLevel(s.player), r.player.level)
    ensures r.player.level > EffectiveLevel(s.player) ==>
              && r.player.entity.maxHp == MaxHpFor(r.player.level)
              && r.maxInputLimit == MaxInputLimit(r.player.level)
              && r.player.entity.currentHp <= r.player.entity.maxHp
    ensures r.player.level == EffectiveLevel(s.player) ==>
              r.player.entity == s.player.entity && r.maxInputLimit == s.maxInputLimit
  {
    var level := EffectiveLevel(s.player);
    var p := s.player.(level := level, experience := s.player.experience + amount,
                       experienceToNextLevel := ExperienceForLevel(level));
    var s0 := s.(player := p);
    LevelUpsSpendsExperience(s0);
    LevelUpsFrame(s0);
    LevelUpsStats(s0);
    LevelUps(s0)
  }

  /** `Math.max(1, Math.floor(maxHp / 6))`: about one experience point per six HP. */
  function BaseExperience(enemyMaxHp: int): (b: nat)
    ensures b >= 1
    ensures enemyMaxHp >= 6 ==> 6 * b <= enemyMaxHp < 6 * b + 6
    ensures enemyMaxHp < 12 ==> b == 1
  {
    Max(1, enemyMaxHp / 6)
  }

  /**
   * `Math.floor(base * (1.0 + streak * 0.1))` in exact arithmetic: the base
   * plus a tenth of it per battle of the streak, rounded down.
   */
  function StreakExperience(base: nat, streak: nat): (xp: nat)
    ensures 10 * xp <= base * (10 + streak) < 10 * xp + 10
    ensures xp >= base
    ensures streak == 0 ==> xp == base
  {
    base * (10 + streak) / 10
  }

  /**
   * `awardExperienceForEnemy`: the enemy's experience, scaled by the streak,
   * is awarded and logged after any level-up entries.
   */
  function AwardExperienceForEnemy(s: CombatState, enemy: Entity): (r: CombatState)
    ensures var gained := StreakExperience(BaseExperience(enemy.maxHp), s.battleStreak);
            && OnlyProgressChanged(s, r)
            && r.player.level >= EffectiveLevel(s.player)
            && ExperienceBetween(EffectiveLevel(s.player), r.player.level) + r.player.experience == s.player.experience + gained
            && r.player.experience < r.player.experienceToNextLevel
            && r.combatLog == s.combatLog + LevelUpLog(EffectiveLevel(s.player), r.player.level) + [ExperienceGained(gained)]
  {
    var gained := StreakExperience(BaseExperience(enemy.maxHp), s.battleStreak);
    AwardExperience(s, gained).Log(ExperienceGained(gained))
  }
}

=== FILE: numerics.dfy ===
/** Integer and rational helpers standing for the source's `Math` calls. */
module Numerics {

  function Min(a: int, b: int): int {
    if a <= b then a else b
  }

  function Max(a: int, b: int): int {
    if a >= b then a else b
  }

  /** `Math.round`: the nearest integer, halves rounded towards +infinity. */
  function Round(x: real): (r: int)
    ensures (r as real) - 0.5 <= x < (r as real) + 0.5
  {
    (x + 0.5).Floor
  }

  /** `Math.pow(m, k)` for a natural exponent, in exact arithmetic. */
  function Pow(m: real, k: nat): real {
    if k == 0 then 1.0 else m * Pow(m, k - 1)
  }

  /** The largest natural number whose square does not exceed `n`. */
  function ISqrt(n: nat): (r: nat)
    ensures r * r <= n < (r + 1) * (r + 1)
  {
    if n == 0 then 0
    else
      var r := ISqrt(n - 1);
      if (r + 1) * (r + 1) <= n then
        assert (r + 2) * (r + 2) == (r + 1) * (r + 1) + 2 * r + 3;
        r + 1
      else r
  }

  /** The integer square root is determined by its bracketing squares. */
  lemma ISqrtUnique(n: nat, r: nat)
    requires r * r <= n < (r + 1) * (r + 1)
    ensures ISqrt(n) == r
  {
    var q := ISqrt(n);
    if q < r {
      SquareMonotone(q + 1, r);
    } else if r < q {
      SquareMonotone(r + 1, q);
    }
  }

  lemma SquareMonotone(a: nat, b: nat)
    requires a <= b
    ensures a * a <= b * b
  {
    assert a * a <= a * b <= b * b;
  }
}

=== FILE: randomness.dfy ===
/**
 * `Math.random()` as an explicit source: a draw is a real in [0, 1), and a
 * stream of draws is threaded through the operations that consume them.
 */
module Randomness {

  type Draw = u: real | 0.0 <= u < 1.0

  /** `Math.floor(Math.random() * n)`: an index into a list of length `n`. */
  function PickIndex(u: Draw, n: nat): (i: nat)
    requires n > 0
    ensures i < n
    ensures (i as real) <= u * (n as real) < (i as real) + 1.0
  {
    ScaleBelow(u, n as real);
    (u * (n as real)).Floor
  }

  /** A fraction in [0, 1) of a positive amount lies in [0, that amount). */
  lemma ScaleBelow(u: real, m: real)
    requires 0.0 <= u < 1.0 && 0.0 < m
    ensures 0.0 <= u * m < m
  {
    assert m - u * m == (1.0 - u) * m;
  }

  /** An infinite stream of draws and the position of the next one. */
  datatype Rng = Rng(source: nat -> Draw, pos: nat) {
    function Peek(): Draw {
      source(pos)
    }

    function Advance(): Rng {
      this.(pos := pos + 1)
    }
  }
}

=== FILE: registry.dfy ===
/** The `new Map(items.map(x => [x.id, x]))` lookup tables built by the constructors. */
module Registry {

  /** Indexes `items` by `key`; when two items share a key the later one wins. */
  function Index<T>(items: seq<T>, key: T -> string): (reg: map<string, T>)
    ensures forall id :: id in reg <==> exists i :: 0 <= i < |items| && key(items[i]) == id
  {
    if |items| == 0 then map[]
    else
      var n := |items| - 1;
      var reg := Index(items[..n], key);
      assert forall i :: 0 <= i < n ==> items[..n][i] == items[i];
      reg[key(items[n]) := items[n]]
  }

  /** The entry for a key is the last item carrying it. */
  lemma {:induction false} IndexLastWins<T>(items: seq<T>, key: T -> string, i: nat)
    requires i < |items|
    requires forall j :: i < j < |items| ==> key(items[j]) != key(items[i])
    ensures key(items[i]) in Index(items, key) && Index(items, key)[key(items[i])] == items[i]
  {
    var n := |items| - 1;
    if i < n {
      assert forall j :: i < j < n ==> items[..n][j] == items[j];
      IndexLastWins(items[..n], key, i);
    }
  }
}

=== FILE: scenarios.dfy ===
/**
 * The shipped status catalog (src/data/statuses.ts) and a few combos of
 * src/data/combos.ts (id, name, sequence, damage, element, targeting,
 * effects and hit count as listed there), with the concrete behaviours
 * the repository's own test suite describes, stated over the model.
 */
module Scenarios {
  import opened Wrappers
  import opened Types
  import StatusManager
  import InputBufferSystem
  import ComboParser
  import TurnManager

  function DamageOverTime(id: string, name: string, timing: TriggerTiming, perStack: nat, decay: nat, cap: nat): StatusDefinition {
    StatusDefinition(id, name, StatusType.DamageOverTime, timing,
                     StatusEffectDef(perStack, 0, 0, 0.0, 0.0, false), decay, Some(cap))
  }

  const Burn: StatusDefinition := DamageOverTime("burn", "Burn", AtTurnEnd, 3, 1, 5)
  const PoisonStatus: StatusDefinition := DamageOverTime("poison", "Poison", AtTurnStart, 5, 1, 10)
  const Bleed: StatusDefinition := DamageOverTime("bleed", "Bleed", AtTurnEnd, 4, 2, 8)
  const Regen: StatusDefinition :=
    StatusDefinition("regen", "Regeneration", Buff, AtTurnStart, StatusEffectDef(0, 4, 0, 0.0, 0.0, false), 1, None)
  const Shield: StatusDefinition :=
    StatusDefinition("shield", "Shield", Buff, Passive, StatusEffectDef(0, 0, 10, 0.0, 0.0, false), 0, None)
  const Vulnerable: StatusDefinition :=
    StatusDefinition("vulnerable", "Vulnerable", Debuff, OnHitTaken, StatusEffectDef(0, 0, 0, 1.2, 0.0, false), 1, Some(5))
  const Weak: StatusDefinition :=
    StatusDefinition("weak", "Weak", Debuff, OnHitDealt, StatusEffectDef(0, 0, 0, 0.0, 0.9, false), 1, Some(5))
  const Stun: StatusDefinition :=
    StatusDefinition("stun", "Stun", Control, Passive, StatusEffectDef(0, 0, 0, 0.0, 0.0, true), 1, Some(3))

  /** The registry the status manager builds from the shipped catalog. */
  const Catalog: StatusRegistry := map[
    "burn" := Burn, "poison" := PoisonStatus, "bleed" := Bleed, "regen" := Regen,
    "shield" := Shield, "vulnerable" := Vulnerable, "weak" := Weak, "stun" := Stun]

  /** The entity every status test starts from. */
  const Dummy: Entity := Entity("test", "Test Entity", 100, 100, 0, [], map[], true)

  /** Applying burn 3 and then burn 2 leaves one instance with 5 stacks; a further 3 stay at the cap of 5. */
  lemma BurnStacks()
    ensures var e := StatusManager.ApplyStatus(Catalog, StatusManager.ApplyStatus(Catalog, Dummy, "burn", 3), "burn", 2);
            e.statuses == [StatusInstance("burn", 5)]
    ensures var e := StatusManager.ApplyStatus(Catalog, StatusManager.ApplyStatus(Catalog, Dummy, "burn", 3), "burn", 3);
            e.statuses == [StatusInstance("burn", 5)]
  {
    var e1 := StatusManager.ApplyStatus(Catalog, Dummy, "burn", 3);
    assert e1.statuses == [StatusInstance("burn", 3)];
    assert StatusManager.FindStatus(e1.statuses, "burn") == Some(0);
  }

  /** Two shield stacks credit 20 to the shield pool. */
  lemma ShieldCredits()
    ensures StatusManager.ApplyStatus(Catalog, Dummy, "shield", 2).shield == 20
  {
  }

  /** Burn with 3 stacks at turn end takes 9 HP from 100, with one reported result. */
  lemma BurnTicks()
    ensures var r := StatusManager.TriggerStatusEffects(Catalog, Dummy.(statuses := [StatusInstance("burn", 3)]), AtTurnEnd);
            r.0.currentHp == 91 && r.0.isAlive && |r.1| == 1
  {
  }

  /** Decay takes burn from 3 stacks to 2, and removes an instance left at 0. */
  lemma BurnDecays()
    ensures StatusManager.DecayStatuses(Catalog, Dummy.(statuses := [StatusInstance("burn", 3)])).statuses == [StatusInstance("burn", 2)]
    ensures StatusManager.DecayStatuses(Catalog, Dummy.(statuses := [StatusInstance("burn", 1)])).statuses == []
  {
  }

  /**
   * Poison and regeneration both fire at turn start. When the poison kills, the
   * later regeneration still heals: the entity ends dead with positive HP.
   */
  lemma HealAfterLethalPoison()
    ensures var e := Dummy.(currentHp := 5, statuses := [StatusInstance("poison", 1), StatusInstance("regen", 1)]);
            var r := StatusManager.TriggerStatusEffects(Catalog, e, AtTurnStart);
            !r.0.isAlive && r.0.currentHp == 4
  {
    var e := Dummy.(currentHp := 5, statuses := [StatusInstance("poison", 1), StatusInstance("regen", 1)]);
    var (e1, _) := StatusManager.ExecuteStatusEffect(e, PoisonStatus, 1);
    assert e1.currentHp == 0 && !e1.isAlive;
  }

  /** A buffer of 5 refuses the sixth input and keeps the first five. */
  lemma FullBufferRefuses()
    ensures var b0 := InputBufferSystem.NewInputBuffer(5);
            var b := b0.(contents := [Up, Down, Left, Right, Up]);
            InputBufferSystem.AddInput(b, Down) == (b, false)
  {
  }

  function Combo(id: string, name: string, sequence: seq<Direction>, damage: int, element: Element, targeting: TargetingMode, effects: seq<StatusEffect>, hits: nat): Action {
    Action(id, name, sequence, damage, Some(element), targeting, effects, hits)
  }

  const Fireball: Action := Combo("fireball", "Fireball", [Up, Up, Right], 30, Fire, SingleEnemy, [StatusEffect("burn", 2, ToTarget)], 1)
  const MeteorStorm: Action := Combo("meteor_storm", "Meteor Storm", [Up, Up, Right, Down, Down], 50, Fire, AllEnemies, [StatusEffect("burn", 3, ToTarget)], 3)
  const Slash: Action := Combo("slash", "Slash", [Right, Left], 20, Physical, SingleEnemy, [], 1)
  const WeakAttack: Action := Combo("weak_attack", "Weak Attack", [], 12, Physical, SingleEnemy, [], 1)

  /** A parser over fireball, meteor storm and slash, sorted longest first. */
  const Combos: ComboParser.Parser := ComboParser.Parser([MeteorStorm, Fireball, Slash], WeakAttack)

  /**
   * The parse examples: exact matches, the longest match winning over its
   * prefix, and the fallback for an unknown or empty buffer.
   */
  lemma ParseExamples()
    ensures ComboParser.ParseCombo(Combos, [Up, Up, Right]) == Fireball
    ensures ComboParser.ParseCombo(Combos, [Up, Up, Right, Down, Down]) == MeteorStorm
    ensures ComboParser.ParseCombo(Combos, [Left, Left, Left]) == WeakAttack
    ensures ComboParser.ParseCombo(Combos, [Right, Left]) == Slash
    ensures ComboParser.ParseCombo(Combos, []) == WeakAttack
  {
    assert ComboParser.NonEmptySequences(Combos.combos);
    assert ComboParser.SortedByLengthDesc(Combos.combos);
    var cs := Combos.combos;
    var fire: seq<Direction> := [Up, Up, Right];
    assert !ComboParser.StartsWith(fire, cs[0].sequence);
    assert fire[..3] == cs[1].sequence;
    assert ComboParser.FirstMatch(cs, fire) == Some(1);
    assert ComboParser.FirstMatch(cs, [Up, Up, Right, Down, Down]) == Some(0);
    var lefts: seq<Direction> := [Left, Left, Left];
    assert lefts[..3][0] != Fireball.sequence[0];
    assert lefts[..2][0] != Slash.sequence[0];
    assert ComboParser.FirstMatch(cs, lefts).None?;
    var slash: seq<Direction> := [Right, Left];
    assert !ComboParser.StartsWith(slash, cs[0].sequence) && !ComboParser.StartsWith(slash, cs[1].sequence);
    assert slash[..2] == cs[2].sequence;
    assert ComboParser.FirstMatch(cs, slash) == Some(2);
  }

  /** Two short combos that are not in the shipped catalog, made up to show where greedy matching stops. */
  const Twin: Action := Combo("twin", "Twin", [Up, Up], 10, Physical, SingleEnemy, [], 1)
  const Cut: Action := Combo("cut", "Cut", [Right, Down], 10, Physical, SingleEnemy, [], 1)

  /**
   * Greedy longest-first matching can leave input that another segmentation
   * would have used: the longest match is taken first, and what remains
   * matches nothing, although two shorter combos cover the whole input.
   */
  lemma GreedyStopsEarly()
    ensures var p := ComboParser.Parser([Fireball, Twin, Cut], WeakAttack);
            var input := [Up, Up, Right, Down];
            && ComboParser.ParseAllCombos(p, input) == [Fireball]
            && |ComboParser.Flatten([Fireball])| < |input|
            && ComboParser.Flatten([Twin, Cut]) == input
  {
    var p := ComboParser.Parser([Fireball, Twin, Cut], WeakAttack);
    var input: seq<Direction> := [Up, Up, Right, Down];
    assert ComboParser.NonEmptySequences(p.combos);
    assert ComboParser.FirstMatch(p.combos, input) == Some(0);
    var rest: seq<Direction> := [Down];
    assert input[3..] == rest;
    assert ComboParser.FirstMatch(p.combos, rest).None?;
    assert ComboParser.Flatten([Cut]) == Cut.sequence + ComboParser.Flatten([]);
  }

  /**
   * The hint examples: a two-input prefix offers the fire combos, an unknown
   * prefix offers nothing, and the empty buffer offers the whole catalog.
   */
  lemma PotentialExamples()
    ensures var r := ComboParser.FindPotentialCombos(Combos, [Up, Up]);
            Fireball in r && MeteorStorm in r && Slash !in r
    ensures ComboParser.FindPotentialCombos(Combos, [Down, Up, Left]) == []
    ensures ComboParser.FindPotentialCombos(Combos, []) == Combos.combos
  {
    assert ComboParser.StartsWith(Fireball.sequence, [Up, Up]);
    assert ComboParser.StartsWith(MeteorStorm.sequence, [Up, Up]);
    assert Slash.sequence[..2][0] != Up;
    forall c | c in Combos.combos
      ensures !ComboParser.StartsWith(c.sequence, [Down, Up, Left])
    {
      assert c == MeteorStorm || c == Fireball || c == Slash;
      if |c.sequence| >= 3 {
        assert c.sequence[..3][0] == Up;
      }
    }
  }

  /**
   * The next turn's start-of-turn statuses run after the turn end's win/loss
   * checks: a player whom poison kills there is handed the input phase while
   * dead, and the combat is not yet lost.
   */
  lemma PoisonedPlayerGetsTurn()
    ensures var tm := TurnManager.TurnManager(Combos, Catalog, map[]);
            var foe := Enemy(Dummy.(id := "foe"), "", []);
            var hero := Player(Dummy.(id := "hero", currentHp := 5, statuses := [StatusInstance("poison", 2)]), 1, 0, 50);
            var s := CombatState(hero, [foe], TurnEnd, 1, [], 3, None, [], 0, [], false, false);
            var r := TurnManager.ExecuteTurnEnd(tm, s);
            r.turnPhase == PlayerInput && !r.player.entity.isAlive && !r.isDefeat
  {
    var tm := TurnManager.TurnManager(Combos, Catalog, map[]);
    var foe := Enemy(Dummy.(id := "foe"), "", []);
    var hero := Player(Dummy.(id := "hero", currentHp := 5, statuses := [StatusInstance("poison", 2)]), 1, 0, 50);
    var s := CombatState(hero, [foe], TurnEnd, 1, [], 3, None, [], 0, [], false, false);
    var afterDecay := hero.entity.(statuses := [StatusInstance("poison", 1)]);
    assert TurnManager.EntityAtTurnEnd(Catalog, hero.entity, false) == afterDecay;
    assert TurnManager.EntityAtTurnEnd(Catalog, foe.entity, false) == foe.entity;
    assert TurnManager.EntityAtTurnEnd(Catalog, s.enemies[0].entity, false).isAlive;
    assert TurnManager.EntityAtTurnEnd(Catalog, s.player.entity, false).isAlive;
    assert !TurnManager.CombatOverAfterDecay(Catalog, s);
    TurnManager.TurnEndOutcome(tm, s);
    TurnManager.TurnEndEntities(tm, s);
    assert s.ValidRef(PlayerRef);
    assert !TurnManager.EntityAtTurnEnd(Catalog, hero.entity, true).isAlive;
  }
}

=== FILE: status_manager.dfy ===
/**
 * Application, triggering, decay and the stun query of status effects
 * (src/systems/StatusManager.ts).
 */
module StatusManager {
  import opened Wrappers
  import opened Types
  import opened Numerics
  import Registry

  const ShieldId: string := "shield"
  const StunId: string := "stun"

  /** The constructor's registry, keyed by status id. */
  function BuildRegistry(defs: seq<StatusDefinition>): StatusRegistry {
    Registry.Index(defs, (d: StatusDefinition) => d.id)
  }

  /** At most one instance per status kind. */
  predicate UniqueIds(ss: seq<StatusInstance>) {
    forall i, j :: 0 <= i < j < |ss| ==> ss[i].statusId != ss[j].statusId
  }

  /** `statuses.find(s => s.statusId === id)`, as an index. */
  function FindStatus(ss: seq<StatusInstance>, id: string): (m: Option<nat>)
    ensures m.Some? ==> m.value < |ss| && ss[m.value].statusId == id
    ensures m.Some? ==> forall j :: 0 <= j < m.value ==> ss[j].statusId != id
    ensures m.None? <==> forall j :: 0 <= j < |ss| ==> ss[j].statusId != id
  {
    if |ss| == 0 then None
    else if ss[0].statusId == id then Some(0)
    else
      match FindStatus(ss[1..], id)
      case None => None
      case Some(k) => Some(k + 1)
  }

  /** The stack count of the (first) instance of `id`, 0 when there is none. */
  function StacksOf(ss: seq<StatusInstance>, id: string): nat {
    match FindStatus(ss, id)
    case Some(i) => ss[i].stacks
    case None => 0
  }

  /** The stack count after applying the kind's cap, if it has one. */
  function CapStacks(reg: StatusRegistry, id: string, n: nat): nat {
    if id in reg && reg[id].maxStacks.Some? then Min(reg[id].maxStacks.value, n) else n
  }

  /** A kind whose stack count has no cap (no definition, or no `maxStacks`). */
  predicate Uncapped(reg: StatusRegistry, id: string) {
    !(id in reg && reg[id].maxStacks.Some?)
  }

  function ShieldPerStack(reg: StatusRegistry): nat {
    if ShieldId in reg then reg[ShieldId].effectPerStack.shieldPerStack else 0
  }

  /**
   * `applyStatus`: adds stacks to the existing instance of the kind, or appends
   * a new one, capping at the kind's maximum; shield also credits the shield pool.
   */
  function ApplyStatus(reg: StatusRegistry, e: Entity, id: string, stacks: nat): (r: Entity)
    ensures r == e.(statuses := r.statuses, shield := r.shield)
    ensures r.shield == e.shield + (if id == ShieldId then ShieldPerStack(reg) * stacks else 0)
    ensures FindStatus(e.statuses, id).None? ==>
              r.statuses == e.statuses + [StatusInstance(id, CapStacks(reg, id, stacks))]
    ensures FindStatus(e.statuses, id).Some? ==>
              var i := FindStatus(e.statuses, id).value;
              && |r.statuses| == |e.statuses|
              && r.statuses[i] == StatusInstance(id, CapStacks(reg, id, e.statuses[i].stacks + stacks))
              && forall j :: 0 <= j < |e.statuses| && j != i ==> r.statuses[j] == e.statuses[j]
    ensures UniqueIds(e.statuses) ==> UniqueIds(r.statuses)
  {
    var statuses :=
      match FindStatus(e.statuses, id)
      case Some(i) => e.statuses[i := StatusInstance(id, CapStacks(reg, id, e.statuses[i].stacks + stacks))]
      case None => e.statuses + [StatusInstance(id, CapStacks(reg, id, stacks))];
    var shield := if id == ShieldId then e.shield + ShieldPerStack(reg) * stacks else e.shield;
    e.(statuses := statuses, shield := shield)
  }

  /**
   * Applying a status sets its stack count to the capped sum of the old count
   * and the new stacks, and leaves every other kind's count alone.
   */
  lemma ApplyStatusStacks(reg: StatusRegistry, e: Entity, id: string, stacks: nat, other: string)
    requires other != id
    ensures StacksOf(ApplyStatus(reg, e, id, stacks).statuses, id) == CapStacks(reg, id, StacksOf(e.statuses, id) + stacks)
    ensures StacksOf(ApplyStatus(reg, e, id, stacks).statuses, other) == StacksOf(e.statuses, other)
  {
    var r := ApplyStatus(reg, e, id, stacks).statuses;
    match FindStatus(e.statuses, id)
    case Some(i) =>
      FindStatusAfterUpdate(e.statuses, i, StatusInstance(id, CapStacks(reg, id, e.statuses[i].stacks + stacks)), id);
      FindStatusAfterUpdate(e.statuses, i, StatusInstance(id, CapStacks(reg, id, e.statuses[i].stacks + stacks)), other);
    case None =>
      FindStatusAfterAppend(e.statuses, StatusInstance(id, CapStacks(reg, id, stacks)), id);
      FindStatusAfterAppend(e.statuses, StatusInstance(id, CapStacks(reg, id, stacks)), other);
  }

  /** `FindStatus` is the unique first-occurrence index. */
  lemma FindStatusIs(ss: seq<StatusInstance>, q: string, m: Option<nat>)
    requires m.Some? ==> m.value < |ss| && ss[m.value].statusId == q
    requires m.Some? ==> forall j :: 0 <= j < m.value ==> ss[j].statusId != q
    requires m.None? ==> forall j :: 0 <= j < |ss| ==> ss[j].statusId != q
    ensures FindStatus(ss, q) == m
  {
  }

  lemma FindStatusAfterUpdate(ss: seq<StatusInstance>, i: nat, x: StatusInstance, q: string)
    requires i < |ss| && x.statusId == ss[i].statusId
    ensures FindStatus(ss[i := x], q) == FindStatus(ss, q)
  {
    var t := ss[i := x];
    assert forall j :: 0 <= j < |t| ==> t[j].statusId == ss[j].statusId;
    FindStatusIs(t, q, FindStatus(ss, q));
  }

  lemma FindStatusAfterAppend(ss: seq<StatusInstance>, x: StatusInstance, q: string)
    requires FindStatus(ss, x.statusId).None?
    ensures FindStatus(ss + [x], q) == if q == x.statusId then Some(|ss|) else FindStatus(ss, q)
  {
    var t := ss + [x];
    assert forall j :: 0 <= j < |ss| ==> t[j] == ss[j];
    FindStatusIs(t, q, if q == x.statusId then Some(|ss|) else FindStatus(ss, q));
  }

  /** Whether an instance's definition exists and fires at `timing`. */
  predicate Fires(reg: StatusRegistry, s: StatusInstance, timing: TriggerTiming) {
    s.statusId in reg && reg[s.statusId].triggerTiming == timing
  }

  /**
   * `executeStatusEffect`: the first of damage, heal and stun the definition
   * carries takes effect once, scaled by the stack count.
   */
  function ExecuteStatusEffect(e: Entity, def: StatusDefinition, stacks: nat): (r: (Entity, Option<TriggerResult>))
    ensures r.0 == e.(currentHp := r.0.currentHp, isAlive := r.0.isAlive)
    ensures def.effectPerStack.damagePerStack > 0 ==>
              var dmg := def.effectPerStack.damagePerStack * stacks;
              && r.0.currentHp == Max(0, e.currentHp - dmg)
              && (r.0.isAlive <==> e.isAlive && r.0.currentHp > 0)
              && r.1 == Some(TriggerResult(def.name, Damaged(dmg), !r.0.isAlive))
    ensures def.effectPerStack.damagePerStack == 0 && def.effectPerStack.healPerStack > 0 ==>
              && r.0.currentHp == Min(e.currentHp + def.effectPerStack.healPerStack * stacks, e.maxHp)
              && r.0.isAlive == e.isAlive
              && r.1 == Some(TriggerResult(def.name, Healed(r.0.currentHp - e.currentHp), false))
    ensures def.effectPerStack.damagePerStack == 0 && def.effectPerStack.healPerStack == 0 ==>
              && r.0 == e
              && (r.1.Some? <==> def.effectPerStack.preventAction && stacks > 0)
  {
    var effect := def.effectPerStack;
    if effect.damagePerStack > 0 then
      var damage := effect.damagePerStack * stacks;
      var hp := Max(0, e.currentHp - damage);
      var e' := e.(currentHp := hp, isAlive := if hp <= 0 then false else e.isAlive);
      (e', Some(TriggerResult(def.name, Damaged(damage), !e'.isAlive)))
    else if effect.healPerStack > 0 then
      var heal := effect.healPerStack * stacks;
      var actual := Min(heal, e.maxHp - e.currentHp);
      (e.(currentHp := e.currentHp + actual), Some(TriggerResult(def.name, Healed(actual), false)))
    else if effect.preventAction && stacks > 0 then
      (e, Some(TriggerResult(def.name, ActionPrevented, false)))
    else
      (e, None)
  }

  /** One instance of the loop of `triggerStatusEffects`: executed and reported if it fires at `timing`. */
  function FireOne(reg: StatusRegistry, e: Entity, s: StatusInstance, timing: TriggerTiming): (r: (Entity, seq<TriggerResult>))
    ensures r.0 == e.(currentHp := r.0.currentHp, isAlive := r.0.isAlive)
    ensures r.0.isAlive ==> e.isAlive
    ensures 0 <= e.currentHp <= e.maxHp ==> 0 <= r.0.currentHp <= e.maxHp
    ensures 0 <= e.currentHp <= e.maxHp && (e.isAlive ==> e.currentHp > 0) ==> (r.0.isAlive ==> r.0.currentHp > 0)
    ensures |r.1| <= 1
    ensures !Fires(reg, s, timing) ==> r == (e, [])
  {
    if !Fires(reg, s, timing) then (e, [])
    else
      var (e1, res) := ExecuteStatusEffect(e, reg[s.statusId], s.stacks);
      (e1, if res.Some? then [res.value] else [])
  }

  /** The loop of `triggerStatusEffects` over the instances `ss`. */
  function TriggerEach(reg: StatusRegistry, e: Entity, ss: seq<StatusInstance>, timing: TriggerTiming): (Entity, seq<TriggerResult>)
    decreases |ss|
  {
    if |ss| == 0 then (e, [])
    else
      var (e1, head) := FireOne(reg, e, ss[0], timing);
      var (e2, rest) := TriggerEach(reg, e1, ss[1..], timing);
      (e2, head + rest)
  }

  /**
   * The loop changes only HP and liveness, keeps HP within [0, maxHp], never
   * revives, reports at most one result per instance, and changes nothing when
   * no instance fires at the timing.
   */
  lemma {:induction false} TriggerEachBounds(reg: StatusRegistry, e: Entity, ss: seq<StatusInstance>, timing: TriggerTiming)
    ensures var r := TriggerEach(reg, e, ss, timing);
            && r.0 == e.(currentHp := r.0.currentHp, isAlive := r.0.isAlive)
            && (r.0.isAlive ==> e.isAlive)
            && (0 <= e.currentHp <= e.maxHp ==> 0 <= r.0.currentHp <= e.maxHp)
            && (0 <= e.currentHp <= e.maxHp && (e.isAlive ==> e.currentHp > 0) ==> (r.0.isAlive ==> r.0.currentHp > 0))
            && |r.1| <= |ss|
            && ((forall k :: 0 <= k < |ss| ==> !Fires(reg, ss[k], timing)) ==> r.0 == e && r.1 == [])
    decreases |ss|
  {
    if |ss| > 0 {
      var h := FireOne(reg, e, ss[0], timing);
      TriggerEachBounds(reg, h.0, ss[1..], timing);
      assert forall k :: 0 <= k < |ss[1..]| ==> ss[1..][k] == ss[k + 1];
    }
  }

  /** A nonempty run is the first instance's step followed by the run over the rest. */
  lemma TriggerEachCons(reg: StatusRegistry, e: Entity, ss: seq<StatusInstance>, timing: TriggerTiming)
    requires |ss| > 0
    ensures var h := FireOne(reg, e, ss[0], timing);
            var t := TriggerEach(reg, h.0, ss[1..], timing);
            TriggerEach(reg, e, ss, timing) == (t.0, h.1 + t.1)
  {
  }

  /** The loop runs instance by instance: two runs in a row are one run over both lists. */
  lemma {:induction false} TriggerEachAppend(reg: StatusRegistry, e: Entity, ss1: seq<StatusInstance>, ss2: seq<StatusInstance>, timing: TriggerTiming)
    ensures var first := TriggerEach(reg, e, ss1, timing);
            var second := TriggerEach(reg, first.0, ss2, timing);
            TriggerEach(reg, e, ss1 + ss2, timing) == (second.0, first.1 + second.1)
    decreases |ss1|
  {
    if |ss1| == 0 {
      var second := TriggerEach(reg, e, ss2, timing);
      assert TriggerEach(reg, e, ss1, timing) == (e, []);
      assert ss1 + ss2 == ss2;
      assert [] + second.1 == second.1;
    } else {
      var ss := ss1 + ss2;
      assert ss[0] == ss1[0] && ss[1..] == ss1[1..] + ss2;
      var h := FireOne(reg, e, ss1[0], timing);
      TriggerEachCons(reg, e, ss1, timing);
      TriggerEachCons(reg, e, ss, timing);
      TriggerEachAppend(reg, h.0, ss1[1..], ss2, timing);
      var inner := TriggerEach(reg, h.0, ss1[1..], timing);
      var second := TriggerEach(reg, inner.0, ss2, timing);
      assert h.1 + (inner.1 + second.1) == (h.1 + inner.1) + second.1;
    }
  }

  /**
   * One instance: if it fires at the timing, its effect is executed once and
   * its result, if any, is reported; otherwise nothing happens.
   */
  lemma TriggerEachSingle(reg: StatusRegistry, e: Entity, s: StatusInstance, timing: TriggerTiming)
    ensures var r := TriggerEach(reg, e, [s], timing);
            && (!Fires(reg, s, timing) ==> r == (e, []))
            && (Fires(reg, s, timing) ==>
                  var x := ExecuteStatusEffect(e, reg[s.statusId], s.stacks);
                  r.0 == x.0 && r.1 == (if x.1.Some? then [x.1.value] else []))
  {
    var h := FireOne(reg, e, s, timing);
    TriggerEachCons(reg, e, [s], timing);
    assert [s][1..] == [];
    assert h.1 + [] == h.1;
  }

  /** An instance that fires and carries damage. */
  predicate DamagesAt(reg: StatusRegistry, s: StatusInstance, timing: TriggerTiming) {
    Fires(reg, s, timing) && reg[s.statusId].effectPerStack.damagePerStack > 0
  }

  /** The total damage the firing damage instances of `ss` deal: damage per stack times stacks, summed. */
  function FiringDamage(reg: StatusRegistry, ss: seq<StatusInstance>, timing: TriggerTiming): nat {
    if |ss| == 0 then 0
    else (if DamagesAt(reg, ss[0], timing) then reg[ss[0].statusId].effectPerStack.damagePerStack * ss[0].stacks else 0)
         + FiringDamage(reg, ss[1..], timing)
  }

  /** The number of instances of `ss` that fire at the timing. */
  function FiringCount(reg: StatusRegistry, ss: seq<StatusInstance>, timing: TriggerTiming): nat {
    if |ss| == 0 then 0 else (if Fires(reg, ss[0], timing) then 1 else 0) + FiringCount(reg, ss[1..], timing)
  }

  /** Without a firing instance there is no firing damage. */
  lemma {:induction false} NoFiringNoDamage(reg: StatusRegistry, ss: seq<StatusInstance>, timing: TriggerTiming)
    ensures FiringCount(reg, ss, timing) == 0 ==> FiringDamage(reg, ss, timing) == 0
    decreases |ss|
  {
    if |ss| > 0 {
      NoFiringNoDamage(reg, ss[1..], timing);
    }
  }

  /** Every instance of `ss[1..]` that fires is a damage instance when every one of `ss` is. */
  lemma DamagesAtTail(reg: StatusRegistry, ss: seq<StatusInstance>, timing: TriggerTiming)
    requires |ss| > 0
    requires forall k :: 0 <= k < |ss| && Fires(reg, ss[k], timing) ==> DamagesAt(reg, ss[k], timing)
    ensures forall k :: 0 <= k < |ss[1..]| && Fires(reg, ss[1..][k], timing) ==> DamagesAt(reg, ss[1..][k], timing)
  {
    assert forall k :: 0 <= k < |ss[1..]| ==> ss[1..][k] == ss[k + 1];
  }

  /** A firing damage instance takes its damage times its stacks from HP, clamped at 0, and reports one result. */
  lemma FireOneDamage(reg: StatusRegistry, e: Entity, s: StatusInstance, timing: TriggerTiming)
    requires DamagesAt(reg, s, timing)
    ensures var h := FireOne(reg, e, s, timing);
            && h.0.currentHp == Max(0, e.currentHp - reg[s.statusId].effectPerStack.damagePerStack * s.stacks)
            && (h.0.isAlive <==> e.isAlive && h.0.currentHp > 0)
            && |h.1| == 1
  {
  }

  /** Damage taken twice in a row, each clamped at 0, is the summed damage clamped once. */
  lemma ClampTwice(h: int, a: nat, b: nat)
    ensures Max(0, Max(0, h - a) - b) == Max(0, h - (a + b))
  {
  }

  /**
   * When every instance that fires is a damage-over-time, the loop takes their
   * summed damage from HP, clamped at 0, and reports one result per firing
   * instance.
   */
  lemma {:induction false} TriggerEachDamage(reg: StatusRegistry, e: Entity, ss: seq<StatusInstance>, timing: TriggerTiming)
    requires 0 <= e.currentHp
    requires forall k :: 0 <= k < |ss| && Fires(reg, ss[k], timing) ==> DamagesAt(reg, ss[k], timing)
    ensures var r := TriggerEach(reg, e, ss, timing);
            && r.0.currentHp == Max(0, e.currentHp - FiringDamage(reg, ss, timing))
            && |r.1| == FiringCount(reg, ss, timing)
    decreases |ss|
  {
    if |ss| > 0 {
      var s := ss[0];
      var h := FireOne(reg, e, s, timing);
      TriggerEachCons(reg, e, ss, timing);
      DamagesAtTail(reg, ss, timing);
      TriggerEachDamage(reg, h.0, ss[1..], timing);
      if Fires(reg, s, timing) {
        assert DamagesAt(reg, ss[0], timing);
        FireOneDamage(reg, e, s, timing);
        var d0 := reg[s.statusId].effectPerStack.damagePerStack * s.stacks;
        ClampTwice(e.currentHp, d0, FiringDamage(reg, ss[1..], timing));
      }
    }
  }

  /**
   * Under the same condition the entity is alive afterwards iff it was and,
   * when anything fired, HP is left.
   */
  lemma {:induction false} TriggerEachDamageAlive(reg: StatusRegistry, e: Entity, ss: seq<StatusInstance>, timing: TriggerTiming)
    requires forall k :: 0 <= k < |ss| && Fires(reg, ss[k], timing) ==> DamagesAt(reg, ss[k], timing)
    ensures var r := TriggerEach(reg, e, ss, timing);
            r.0.isAlive <==> e.isAlive && (r.0.currentHp > 0 || FiringCount(reg, ss, timing) == 0)
    decreases |ss|
  {
    if |ss| > 0 {
      var s := ss[0];
      var h := FireOne(reg, e, s, timing);
      var r := TriggerEach(reg, e, ss, timing);
      TriggerEachCons(reg, e, ss, timing);
      DamagesAtTail(reg, ss, timing);
      TriggerEachDamageAlive(reg, h.0, ss[1..], timing);
      NoFiringNoDamage(reg, ss[1..], timing);
      if Fires(reg, s, timing) {
        assert DamagesAt(reg, ss[0], timing);
        FireOneDamage(reg, e, s, timing);
        TriggerEachDamage(reg, h.0, ss[1..], timing);
        assert r.0.currentHp > 0 ==> h.0.currentHp > 0;
      }
    }
  }

  /**
   * `triggerStatusEffects`: fires every instance whose definition has the given
   * timing; only HP and liveness can change, HP stays within [0, maxHp] and a
   * dead entity is never revived.
   */
  function TriggerStatusEffects(reg: StatusRegistry, e: Entity, timing: TriggerTiming): (r: (Entity, seq<TriggerResult>))
    ensures r.0 == e.(currentHp := r.0.currentHp, isAlive := r.0.isAlive)
    ensures r.0.isAlive ==> e.isAlive
    ensures 0 <= e.currentHp <= e.maxHp ==> 0 <= r.0.currentHp <= e.maxHp
    ensures 0 <= e.currentHp <= e.maxHp && (e.isAlive ==> e.currentHp > 0) ==> (r.0.isAlive ==> r.0.currentHp > 0)
    ensures |r.1| <= |e.statuses|
    ensures (forall k :: 0 <= k < |e.statuses| ==> !Fires(reg, e.statuses[k], timing)) ==> r.0 == e && r.1 == []
  {
    TriggerEachBounds(reg, e, e.statuses, timing);
    TriggerEach(reg, e, e.statuses, timing)
  }

  /**
   * When every status on the entity that fires at the timing is a
   * damage-over-time, triggering takes their summed damage from HP, clamped
   * at 0, reports one result per firing status, and leaves the entity alive
   * iff it was and, when anything fired, HP is left.
   */
  lemma TriggerStatusEffectsDamage(reg: StatusRegistry, e: Entity, timing: TriggerTiming)
    requires 0 <= e.currentHp
    requires forall k :: 0 <= k < |e.statuses| && Fires(reg, e.statuses[k], timing) ==> DamagesAt(reg, e.statuses[k], timing)
    ensures var r := TriggerStatusEffects(reg, e, timing);
            && r.0.currentHp == Max(0, e.currentHp - FiringDamage(reg, e.statuses, timing))
            && |r.1| == FiringCount(reg, e.statuses, timing)
            && (r.0.isAlive <==> e.isAlive && (r.0.currentHp > 0 || FiringCount(reg, e.statuses, timing) == 0))
  {
    TriggerEachDamage(reg, e, e.statuses, timing);
    TriggerEachDamageAlive(reg, e, e.statuses, timing);
  }

  /** One instance after a turn's decay; kinds without a definition are kept as they are. */
  function DecayOne(reg: StatusRegistry, s: StatusInstance): StatusInstance {
    if s.statusId in reg then s.(stacks := Max(0, s.stacks - reg[s.statusId].decayPerTurn)) else s
  }

  function DecayList(reg: StatusRegistry, ss: seq<StatusInstance>): (r: seq<StatusInstance>)
    ensures |r| <= |ss|
    ensures forall k :: 0 <= k < |r| ==> r[k].stacks > 0
  {
    if |ss| == 0 then []
    else
      var d := DecayOne(reg, ss[0]);
      var tail := DecayList(reg, ss[1..]);
      (if d.stacks > 0 then [d] else []) + tail
  }

  /** Every instance left after decay is the decayed form of an instance before it. */
  lemma {:induction false} DecayListOrigin(reg: StatusRegistry, ss: seq<StatusInstance>)
    ensures forall x :: x in DecayList(reg, ss) ==> exists y :: y in ss && x == DecayOne(reg, y)
  {
    if |ss| > 0 {
      DecayListOrigin(reg, ss[1..]);
      assert forall y :: y in ss[1..] ==> y in ss;
    }
  }

  /**
   * `decayStatuses`: every known kind loses its decay amount (not below 0), and
   * instances left at 0 are removed.
   */
  function DecayStatuses(reg: StatusRegistry, e: Entity): (r: Entity)
    ensures r == e.(statuses := r.statuses)
    ensures forall k :: 0 <= k < |r.statuses| ==> r.statuses[k].stacks > 0
    ensures forall x :: x in r.statuses ==> exists y :: y in e.statuses && x == DecayOne(reg, y)
    ensures UniqueIds(e.statuses) ==> UniqueIds(r.statuses)
  {
    DecayKeepsUniqueIds(reg, e.statuses);
    DecayListOrigin(reg, e.statuses);
    e.(statuses := DecayList(reg, e.statuses))
  }

  /** Decay works instance by instance, so it keeps the order of the survivors. */
  lemma {:induction false} DecayListAppend(reg: StatusRegistry, ss1: seq<StatusInstance>, ss2: seq<StatusInstance>)
    ensures DecayList(reg, ss1 + ss2) == DecayList(reg, ss1) + DecayList(reg, ss2)
  {
    if |ss1| > 0 {
      assert (ss1 + ss2)[1..] == ss1[1..] + ss2;
      DecayListAppend(reg, ss1[1..], ss2);
    } else {
      assert ss1 + ss2 == ss2;
    }
  }

  /** Decay keeps at most one instance per kind. */
  lemma {:induction false} DecayKeepsUniqueIds(reg: StatusRegistry, ss: seq<StatusInstance>)
    ensures UniqueIds(ss) ==> UniqueIds(DecayList(reg, ss))
  {
    if |ss| > 0 && UniqueIds(ss) {
      DecayKeepsUniqueIds(reg, ss[1..]);
      DecayListOrigin(reg, ss[1..]);
      var tail := DecayList(reg, ss[1..]);
      forall k | 0 <= k < |tail| ensures tail[k].statusId != ss[0].statusId {
        assert tail[k] in tail;
        var y :| y in ss[1..] && tail[k] == DecayOne(reg, y);
        var j :| 0 <= j < |ss[1..]| && ss[1..][j] == y;
        assert ss[1..][j] == ss[j + 1];
      }
      var r := DecayList(reg, ss);
      var d := DecayOne(reg, ss[0]);
      if d.stacks > 0 {
        assert r == [d] + tail;
        forall i, j | 0 <= i < j < |r| ensures r[i].statusId != r[j].statusId {
          assert r[j] == tail[j - 1];
          if i > 0 {
            assert r[i] == tail[i - 1];
          }
        }
      }
    }
  }

  /** With one instance per kind, a kind's count after decay is its decayed count. */
  lemma {:induction false} DecayStacks(reg: StatusRegistry, ss: seq<StatusInstance>, id: string)
    requires UniqueIds(ss)
    ensures StacksOf(DecayList(reg, ss), id) ==
            if id in reg then Max(0, StacksOf(ss, id) - reg[id].decayPerTurn) else StacksOf(ss, id)
  {
    if |ss| > 0 {
      if ss[0].statusId == id {
        DecayStacksHead(reg, ss, id);
      } else {
        assert UniqueIds(ss[1..]);
        DecayStacks(reg, ss[1..], id);
        DecayStacksOther(reg, ss, id);
      }
    }
  }

  /** When the head is the kind asked about, its decayed count is the answer. */
  lemma DecayStacksHead(reg: StatusRegistry, ss: seq<StatusInstance>, id: string)
    requires |ss| > 0 && UniqueIds(ss) && ss[0].statusId == id
    ensures StacksOf(DecayList(reg, ss), id) == DecayOne(reg, ss[0]).stacks
    ensures StacksOf(ss, id) == ss[0].stacks
  {
    var d := DecayOne(reg, ss[0]);
    var tail := DecayList(reg, ss[1..]);
    FindStatusAbsent(ss[1..], id);
    DecayKeepsAbsent(reg, ss[1..], id);
    if d.stacks > 0 {
      StacksOfCons(d, tail, id);
    } else {
      assert DecayList(reg, ss) == tail;
    }
  }

  /** When the head is another kind, the answer is that of the rest of the list. */
  lemma DecayStacksOther(reg: StatusRegistry, ss: seq<StatusInstance>, id: string)
    requires |ss| > 0 && ss[0].statusId != id
    ensures StacksOf(DecayList(reg, ss), id) == StacksOf(DecayList(reg, ss[1..]), id)
    ensures StacksOf(ss, id) == StacksOf(ss[1..], id)
  {
    var d := DecayOne(reg, ss[0]);
    var tail := DecayList(reg, ss[1..]);
    assert ss == [ss[0]] + ss[1..];
    StacksOfCons(ss[0], ss[1..], id);
    if d.stacks > 0 {
      StacksOfCons(d, tail, id);
    } else {
      assert DecayList(reg, ss) == tail;
    }
  }

  /** Decay introduces no kind that was absent. */
  lemma {:induction false} DecayKeepsAbsent(reg: StatusRegistry, ss: seq<StatusInstance>, id: string)
    requires forall j :: 0 <= j < |ss| ==> ss[j].statusId != id
    ensures StacksOf(DecayList(reg, ss), id) == 0
  {
    DecayListOrigin(reg, ss);
    var r := DecayList(reg, ss);
    forall j | 0 <= j < |r|
      ensures r[j].statusId != id
    {
      assert r[j] in r;
      var y :| y in ss && r[j] == DecayOne(reg, y);
    }
    FindStatusAbsent(r, id);
  }

  /** The count of a kind in a list with a given head. */
  lemma StacksOfCons(x: StatusInstance, t: seq<StatusInstance>, id: string)
    ensures StacksOf([x] + t, id) == if x.statusId == id then x.stacks else StacksOf(t, id)
  {
    assert ([x] + t)[1..] == t;
  }

  lemma FindStatusAbsent(ss: seq<StatusInstance>, id: string)
    requires forall j :: 0 <= j < |ss| ==> ss[j].statusId != id
    ensures StacksOf(ss, id) == 0
  {
  }

  /**
   * `isStunned`: the (first) stun instance has stacks; with one instance per
   * kind, exactly when some stun instance has stacks.
   */
  function IsStunned(e: Entity): (b: bool)
    ensures b <==> StacksOf(e.statuses, StunId) > 0
    ensures UniqueIds(e.statuses) ==>
              (b <==> exists k :: 0 <= k < |e.statuses| && e.statuses[k].statusId == StunId && e.statuses[k].stacks > 0)
  {
    match FindStatus(e.statuses, StunId)
    case Some(i) => e.statuses[i].stacks > 0
    case None => false
  }
}

=== FILE: target_resolver.dfy ===
/**
 * Which combatants an action affects, by targeting mode and the actor's team
 * (src/systems/TargetResolver.ts).
 */
module TargetResolver {
  import opened Types
  import opened Randomness

  /** `enemies.filter(e => e.isAlive)`, as references in roster order. */
  function LivingEnemies(enemies: seq<Enemy>): (r: seq<Ref>)
    ensures forall k :: 0 <= k < |r| ==> r[k].EnemyRef? && r[k].index < |enemies|
    ensures forall k :: 0 <= k < |r| ==> enemies[r[k].index].entity.isAlive
    ensures forall k, l :: 0 <= k < l < |r| ==> r[k].index < r[l].index
    ensures forall i :: 0 <= i < |enemies| && enemies[i].entity.isAlive ==> EnemyRef(i) in r
    ensures |r| == 0 <==> forall i :: 0 <= i < |enemies| ==> !enemies[i].entity.isAlive
  {
    LivingFromComplete(enemies, 0);
    LivingFrom(enemies, 0)
  }

  /** The living enemies from index `from` on. */
  function LivingFrom(enemies: seq<Enemy>, from: nat): (r: seq<Ref>)
    requires from <= |enemies|
    ensures forall k :: 0 <= k < |r| ==> r[k].EnemyRef? && from <= r[k].index < |enemies|
    ensures forall k :: 0 <= k < |r| ==> enemies[r[k].index].entity.isAlive
    ensures forall k, l :: 0 <= k < l < |r| ==> r[k].index < r[l].index
    decreases |enemies| - from
  {
    if from == |enemies| then []
    else if enemies[from].entity.isAlive then [EnemyRef(from)] + LivingFrom(enemies, from + 1)
    else LivingFrom(enemies, from + 1)
  }

  /** Every living enemy from `from` on is listed; the list is empty exactly when none lives. */
  lemma {:induction false} LivingFromComplete(enemies: seq<Enemy>, from: nat)
    requires from <= |enemies|
    ensures forall i :: from <= i < |enemies| && enemies[i].entity.isAlive ==> EnemyRef(i) in LivingFrom(enemies, from)
    ensures |LivingFrom(enemies, from)| == 0 <==> forall i :: from <= i < |enemies| ==> !enemies[i].entity.isAlive
    decreases |enemies| - from
  {
    if from < |enemies| {
      LivingFromComplete(enemies, from + 1);
    }
  }

  /** `[state.player].filter(e => e.isAlive)` */
  function LivingPlayer(s: CombatState): (r: seq<Ref>)
    ensures r == [] || r == [PlayerRef]
    ensures r == [PlayerRef] <==> s.player.entity.isAlive
  {
    if s.player.entity.isAlive then [PlayerRef] else []
  }

  /** `selectSingleEnemy`: the first living opponent, deterministically. */
  function SelectSingleEnemy(actor: Ref, s: CombatState): (r: seq<Ref>)
    ensures actor.EnemyRef? ==> r == LivingPlayer(s)
    ensures actor.PlayerRef? ==>
              && |r| <= 1
              && (r == [] <==> s.AllEnemiesDead())
              && forall k :: 0 <= k < |r| ==>
                   && r[k].EnemyRef? && r[k].index < |s.enemies|
                   && s.enemies[r[k].index].entity.isAlive
                   && forall j :: 0 <= j < r[k].index ==> !s.enemies[j].entity.isAlive
  {
    if actor.PlayerRef? then
      var alive := LivingEnemies(s.enemies);
      if |alive| > 0 then [alive[0]]
      else []
    else LivingPlayer(s)
  }

  /** `getAllEnemies`: every living opponent. */
  function GetAllEnemies(actor: Ref, s: CombatState): (r: seq<Ref>)
    ensures actor.PlayerRef? ==> r == LivingEnemies(s.enemies)
    ensures actor.EnemyRef? ==> r == LivingPlayer(s)
  {
    if actor.PlayerRef? then LivingEnemies(s.enemies) else LivingPlayer(s)
  }

  /**
   * `selectRandomEnemy`: for the player, the living enemy the draw picks (one
   * draw consumed, none when no enemy lives); for an enemy, the living player.
   */
  function SelectRandomEnemy(actor: Ref, s: CombatState, rng: Rng): (r: (seq<Ref>, Rng))
    ensures actor.EnemyRef? ==> r == (LivingPlayer(s), rng)
    ensures actor.PlayerRef? && s.AllEnemiesDead() ==> r == ([], rng)
    ensures actor.PlayerRef? && !s.AllEnemiesDead() ==>
              var alive := LivingEnemies(s.enemies);
              && r.1 == rng.Advance()
              && r.0 == [alive[PickIndex(rng.Peek(), |alive|)]]
  {
    if actor.PlayerRef? then
      var alive := LivingEnemies(s.enemies);
      if |alive| == 0 then ([], rng)
      else ([alive[PickIndex(rng.Peek(), |alive|)]], rng.Advance())
    else (LivingPlayer(s), rng)
  }

  /** `getAllAllies`: the living members of the actor's own team. */
  function GetAllAllies(actor: Ref, s: CombatState): (r: seq<Ref>)
    ensures actor.PlayerRef? ==> r == LivingPlayer(s)
    ensures actor.EnemyRef? ==> r == LivingEnemies(s.enemies)
  {
    if actor.PlayerRef? then LivingPlayer(s) else LivingEnemies(s.enemies)
  }

  /**
   * `resolveTargets`. It changes no entity. Every target is a valid reference,
   * and every target is alive except in SELF mode, which gives the actor as is.
   */
  function ResolveTargets(mode: TargetingMode, actor: Ref, s: CombatState, rng: Rng): (r: (seq<Ref>, Rng))
    requires s.ValidRef(actor)
    ensures forall k :: 0 <= k < |r.0| ==> s.ValidRef(r.0[k])
    ensures mode != Self ==> forall k :: 0 <= k < |r.0| ==> s.Get(r.0[k]).isAlive
    ensures mode == Self ==> r == ([actor], rng)
    ensures mode != RandomEnemy ==> r.1 == rng
    ensures mode == RandomEnemy ==> r.1 == rng || r.1 == rng.Advance()
    ensures actor.EnemyRef? && mode in {SingleEnemy, AllEnemies, RandomEnemy} ==> r.0 == LivingPlayer(s)
    ensures actor.PlayerRef? && mode == AllEnemies ==> r.0 == LivingEnemies(s.enemies)
    ensures mode == AllAllies ==> r.0 == if actor.PlayerRef? then LivingPlayer(s) else LivingEnemies(s.enemies)
    ensures actor.PlayerRef? && mode in {SingleEnemy, RandomEnemy} ==> (r.0 == [] <==> s.AllEnemiesDead())
    ensures actor.PlayerRef? && mode == SingleEnemy && !s.AllEnemiesDead() ==> r.0 == [LivingEnemies(s.enemies)[0]]
    ensures actor.PlayerRef? && mode == RandomEnemy && !s.AllEnemiesDead() ==>
              var alive := LivingEnemies(s.enemies);
              r == ([alive[PickIndex(rng.Peek(), |alive|)]], rng.Advance())
    ensures actor.PlayerRef? && mode == RandomEnemy && s.AllEnemiesDead() ==> r == ([], rng)
    ensures actor.EnemyRef? ==> r.1 == rng
  {
    match mode
    case SingleEnemy => (SelectSingleEnemy(actor, s), rng)
    case AllEnemies => (GetAllEnemies(actor, s), rng)
    case RandomEnemy => SelectRandomEnemy(actor, s, rng)
    case Self => ([actor], rng)
    case AllAllies => (GetAllAllies(actor, s), rng)
  }

  /** Target resolution reads only the combatants: the log, the discoveries and the phase play no part. */
  lemma ResolveTargetsReadsCombatants(mode: TargetingMode, actor: Ref, s: CombatState, s': CombatState, rng: Rng)
    requires s.ValidRef(actor) && s'.player == s.player && s'.enemies == s.enemies
    ensures ResolveTargets(mode, actor, s', rng) == ResolveTargets(mode, actor, s, rng)
  {
    assert LivingPlayer(s') == LivingPlayer(s);
  }
}

=== FILE: turn_manager.dfy ===
/**
 * The turn loop: player turn, enemy turns and turn end, and the shared action
 * execution (src/systems/TurnManager.ts). Each operation returns the next state
 * instead of mutating its argument; draws come from an explicit stream.
 */
module TurnManager {
  import opened Wrappers
  import opened Types
  import opened Randomness
  import ComboParser
  import StatusManager
  import DamageResolver
  import TargetResolver
  import EnemyAI
  import Leveling

  /** What the constructor builds from the catalogs. */
  datatype TurnManager = TurnManager(parser: ComboParser.Parser, statuses: StatusRegistry, actions: ActionRegistry)
  {
    function Fallback(): Action {
      parser.fallback
    }

    /** The parser terminates only when every combo consumes input. */
    predicate Valid() {
      ComboParser.NonEmptySequences(parser.combos)
    }
  }

  function NewTurnManager(combos: seq<Action>, statuses: seq<StatusDefinition>, enemyActions: seq<Action>, fallback: Action): (tm: TurnManager)
    ensures tm.parser == ComboParser.NewParser(combos, fallback)
    ensures tm.Fallback() == fallback
    ensures tm.statuses == StatusManager.BuildRegistry(statuses)
    ensures tm.actions == EnemyAI.BuildActionRegistry(enemyActions)
  {
    TurnManager(ComboParser.NewParser(combos, fallback), StatusManager.BuildRegistry(statuses), EnemyAI.BuildActionRegistry(enemyActions))
  }

  /**
   * The parts of the state an action can change: entities, the log, the
   * player's progress and the input limit. The roster itself stays.
   */
  predicate Framed(s: CombatState, r: CombatState) {
    && r == s.(player := r.player, enemies := r.enemies, combatLog := r.combatLog, maxInputLimit := r.maxInputLimit)
    && SameRoster(s, r)
  }

  /** The player's level, experience and input limit are those of `s`. */
  predicate SameProgress(s: CombatState, r: CombatState) {
    && r.player.level == s.player.level
    && r.player.experience == s.player.experience
    && r.player.experienceToNextLevel == s.player.experienceToNextLevel
    && r.maxInputLimit == s.maxInputLimit
  }

  /** No combatant that was dead in `s` is alive in `r`. */
  ghost predicate NoRevival(s: CombatState, r: CombatState)
    requires |r.enemies| == |s.enemies|
  {
    forall q :: s.ValidRef(q) ==> r.Get(q).isAlive ==> s.Get(q).isAlive
  }

  /** Every combatant of `r` differs from its `s` self at most in statuses and shield. */
  ghost predicate OnlyStatusesAndShields(s: CombatState, r: CombatState)
    requires |r.enemies| == |s.enemies|
  {
    forall q :: s.ValidRef(q) ==> r.Get(q) == s.Get(q).(statuses := r.Get(q).statuses, shield := r.Get(q).shield)
  }

  function CountGained(log: seq<LogEntry>): nat {
    if |log| == 0 then 0 else (if log[0].StatusGained? then 1 else 0) + CountGained(log[1..])
  }

  function CountDamageTaken(log: seq<LogEntry>): nat {
    if |log| == 0 then 0 else (if log[0].DamageTaken? then 1 else 0) + CountDamageTaken(log[1..])
  }

  lemma {:induction false} CountsAppend(a: seq<LogEntry>, b: seq<LogEntry>)
    ensures CountGained(a + b) == CountGained(a) + CountGained(b)
    ensures CountDamageTaken(a + b) == CountDamageTaken(a) + CountDamageTaken(b)
  {
    if |a| == 0 {
      assert a + b == b;
    } else {
      assert (a + b)[1..] == a[1..] + b;
      CountsAppend(a[1..], b);
    }
  }

  lemma {:induction false} LevelUpLogCounts(from: nat, to: nat)
    requires from <= to
    ensures CountGained(Leveling.LevelUpLog(from, to)) == 0
    ensures CountDamageTaken(Leveling.LevelUpLog(from, to)) == 0
    decreases (to as int) - (from as int)
  {
    if from < to {
      LevelUpLogCounts(from + 1, to);
      CountsAppend([LeveledUp(from + 1)], Leveling.LevelUpLog(from + 1, to));
    }
  }

  /**
   * The inner loop of `executeAction`: each status effect goes to the actor
   * (`target: 'self'`) or to the current target, with a log entry each.
   */
  function ApplyEffects(tm: TurnManager, actor: Ref, target: Ref, effects: seq<StatusEffect>, s: CombatState): (r: CombatState)
    requires s.ValidRef(actor) && s.ValidRef(target)
    ensures |r.enemies| == |s.enemies|
    decreases |effects|
  {
    if |effects| == 0 then s
    else
      var s1 := ApplyEffect(tm, actor, target, effects[0], s);
      ApplyEffects(tm, actor, target, effects[1..], s1)
  }

  /** Who receives a status effect: the actor for `target: 'self'`, else the current target. */
  function RecipientOf(effect: StatusEffect, actor: Ref, target: Ref): Ref {
    if effect.recipient == ToSelf then actor else target
  }

  /**
   * One status effect of an action, logged: the recipient's entity becomes
   * what `applyStatus` makes of it, and no other combatant changes.
   */
  function ApplyEffect(tm: TurnManager, actor: Ref, target: Ref, effect: StatusEffect, s: CombatState): (r: CombatState)
    requires s.ValidRef(actor) && s.ValidRef(target)
    ensures Framed(s, r) && SameProgress(s, r)
    ensures r.combatLog == s.combatLog + [GainedEntry(actor, target, effect)]
    ensures var recipient := RecipientOf(effect, actor, target);
            r.Get(recipient) == StatusManager.ApplyStatus(tm.statuses, s.Get(recipient), effect.statusId, effect.stacks)
    ensures forall q :: s.ValidRef(q) && q != RecipientOf(effect, actor, target) ==> r.Get(q) == s.Get(q)
  {
    var recipient := RecipientOf(effect, actor, target);
    var e := StatusManager.ApplyStatus(tm.statuses, s.Get(recipient), effect.statusId, effect.stacks);
    s.Set(recipient, e).Log(StatusGained(recipient, effect.statusId, effect.stacks))
  }

  /** One granted status changes the recipient's statuses and shield, and nothing else of any combatant. */
  lemma ApplyEffectEntities(tm: TurnManager, actor: Ref, target: Ref, effect: StatusEffect, s: CombatState)
    requires s.ValidRef(actor) && s.ValidRef(target)
    ensures OnlyStatusesAndShields(s, ApplyEffect(tm, actor, target, effect, s))
  {
  }

  lemma FramedTransitive(s1: CombatState, s2: CombatState, s3: CombatState)
    requires Framed(s1, s2) && Framed(s2, s3)
    ensures Framed(s1, s3)
  {
    SameRosterTransitive(s1, s2, s3);
  }

  lemma OnlyStatusesAndShieldsTransitive(s1: CombatState, s2: CombatState, s3: CombatState)
    requires |s2.enemies| == |s1.enemies| && |s3.enemies| == |s1.enemies|
    ensures OnlyStatusesAndShields(s1, s2) && OnlyStatusesAndShields(s2, s3) ==> OnlyStatusesAndShields(s1, s3)
  {
    if OnlyStatusesAndShields(s1, s2) && OnlyStatusesAndShields(s2, s3) {
      forall q | s1.ValidRef(q)
        ensures s3.Get(q) == s1.Get(q).(statuses := s3.Get(q).statuses, shield := s3.Get(q).shield)
      {
        assert s2.ValidRef(q);
      }
    }
  }

  /** Granting statuses leaves the roster, the turn and the player's progress alone. */
  lemma {:induction false} ApplyEffectsFrame(tm: TurnManager, actor: Ref, target: Ref, effects: seq<StatusEffect>, s: CombatState)
    requires s.ValidRef(actor) && s.ValidRef(target)
    ensures Framed(s, ApplyEffects(tm, actor, target, effects, s))
    ensures SameProgress(s, ApplyEffects(tm, actor, target, effects, s))
    decreases |effects|
  {
    if |effects| > 0 {
      var s1 := ApplyEffect(tm, actor, target, effects[0], s);
      ApplyEffectsFrame(tm, actor, target, effects[1..], s1);
      FramedTransitive(s, s1, ApplyEffects(tm, actor, target, effects, s));
    }
  }

  /** Granting statuses changes combatants only in their statuses and shields. */
  lemma {:induction false} ApplyEffectsEntities(tm: TurnManager, actor: Ref, target: Ref, effects: seq<StatusEffect>, s: CombatState)
    requires s.ValidRef(actor) && s.ValidRef(target)
    ensures OnlyStatusesAndShields(s, ApplyEffects(tm, actor, target, effects, s))
    decreases |effects|
  {
    if |effects| > 0 {
      var s1 := ApplyEffect(tm, actor, target, effects[0], s);
      ApplyEffectEntities(tm, actor, target, effects[0], s);
      ApplyEffectsEntities(tm, actor, target, effects[1..], s1);
      OnlyStatusesAndShieldsTransitive(s, s1, ApplyEffects(tm, actor, target, effects, s));
    }
  }

  /** The log gains one entry per effect, naming its recipient, in order. */
  lemma {:induction false} ApplyEffectsLog(tm: TurnManager, actor: Ref, target: Ref, effects: seq<StatusEffect>, s: CombatState)
    requires s.ValidRef(actor) && s.ValidRef(target)
    ensures ApplyEffects(tm, actor, target, effects, s).combatLog == s.combatLog + GainedLog(actor, target, effects)
    decreases |effects|
  {
    if |effects| > 0 {
      var s1 := ApplyEffect(tm, actor, target, effects[0], s);
      ApplyEffectsLog(tm, actor, target, effects[1..], s1);
      AppendAssoc(s.combatLog, [GainedEntry(actor, target, effects[0])], GainedLog(actor, target, effects[1..]));
    }
  }

  lemma AppendAssoc(a: seq<LogEntry>, b: seq<LogEntry>, c: seq<LogEntry>)
    ensures (a + b) + c == a + (b + c)
  {
  }

  /** The entry that records one granted status. */
  function GainedEntry(actor: Ref, target: Ref, e: StatusEffect): LogEntry {
    StatusGained(RecipientOf(e, actor, target), e.statusId, e.stacks)
  }

  /** The log entries of `ApplyEffects`: one per effect, naming its recipient. */
  function GainedLog(actor: Ref, target: Ref, effects: seq<StatusEffect>): (log: seq<LogEntry>)
    ensures |log| == |effects| && CountGained(log) == |effects| && CountDamageTaken(log) == 0
  {
    if |effects| == 0 then []
    else
      var rest := GainedLog(actor, target, effects[1..]);
      CountsAppend([GainedEntry(actor, target, effects[0])], rest);
      [GainedEntry(actor, target, effects[0])] + rest
  }

  lemma NoRevivalTransitive(s1: CombatState, s2: CombatState, s3: CombatState)
    requires |s2.enemies| == |s1.enemies| && |s3.enemies| == |s1.enemies|
    requires NoRevival(s1, s2) && NoRevival(s2, s3)
    ensures NoRevival(s1, s3)
  {
    forall q | s1.ValidRef(q)
      ensures s3.Get(q).isAlive ==> s1.Get(q).isAlive
    {
      assert s2.ValidRef(q);
    }
  }

  lemma FramedNoRevival(s: CombatState, r: CombatState)
    requires |r.enemies| == |s.enemies| && OnlyStatusesAndShields(s, r)
    ensures NoRevival(s, r)
  {
    forall q | s.ValidRef(q)
      ensures r.Get(q).isAlive ==> s.Get(q).isAlive
    {
      assert r.Get(q) == s.Get(q).(statuses := r.Get(q).statuses, shield := r.Get(q).shield);
    }
  }

  /**
   * A kill in `executeAction`: mark the target dead, log the death and, for an
   * enemy, award the player its experience, scaled by the streak, after any
   * level-ups it causes.
   */
  function Kill(target: Ref, e: Entity, s: CombatState): (r: CombatState)
    requires s.ValidRef(target)
    ensures Framed(s, r)
    ensures r.Get(target) == e.(isAlive := false)
    ensures target.PlayerRef? ==> r.combatLog == s.combatLog + [Died(target)]
    ensures |r.combatLog| > |s.combatLog| && r.combatLog[..|s.combatLog|] == s.combatLog
    ensures forall q :: s.ValidRef(q) && q != target && q != PlayerRef ==> r.Get(q) == s.Get(q)
    ensures r.Get(PlayerRef).isAlive == (if target == PlayerRef then false else s.Get(PlayerRef).isAlive)
    ensures CountGained(r.combatLog) == CountGained(s.combatLog)
    ensures CountDamageTaken(r.combatLog) == CountDamageTaken(s.combatLog)
    ensures target.PlayerRef? ==> SameProgress(s, r)
  {
    var s2 := MarkDead(target, e, s);
    CountsAppend(s.combatLog, [Died(target)]);
    if target.EnemyRef? then
      var dead := e.(isAlive := false);
      var r := Leveling.AwardExperienceForEnemy(s2, dead);
      var lvl := Leveling.EffectiveLevel(s2.player);
      var gained := Leveling.StreakExperience(Leveling.BaseExperience(dead.maxHp), s2.battleStreak);
      var levels := Leveling.LevelUpLog(lvl, r.player.level);
      LevelUpLogCounts(lvl, r.player.level);
      CountsAppend(s2.combatLog, levels);
      CountsAppend(s2.combatLog + levels, [ExperienceGained(gained)]);
      LogPrefix(s.combatLog, [Died(target)] + levels + [ExperienceGained(gained)]);
      r
    else
      LogPrefix(s.combatLog, [Died(target)]);
      s2
  }

  /** Marking a combatant dead and logging its death. */
  function MarkDead(target: Ref, e: Entity, s: CombatState): (r: CombatState)
    requires s.ValidRef(target)
    ensures Framed(s, r) && SameProgress(s, r) && r.player.level == s.player.level
    ensures r.Get(target) == e.(isAlive := false)
    ensures forall q :: s.ValidRef(q) && q != target ==> r.Get(q) == s.Get(q)
    ensures r.combatLog == s.combatLog + [Died(target)]
  {
    s.Set(target, e.(isAlive := false)).Log(Died(target))
  }

  lemma LogPrefix(a: seq<LogEntry>, b: seq<LogEntry>)
    ensures (a + b)[..|a|] == a
  {
  }

  /**
   * The damage half of one target's iteration in `executeAction`: apply the
   * hits and log them; a kill is handled by `Kill`.
   */
  function DamageTarget(tm: TurnManager, actor: Ref, action: Action, target: Ref, s: CombatState): (r: CombatState)
    requires s.ValidRef(actor) && s.ValidRef(target)
    ensures Framed(s, r)
    ensures var res := DamageResolver.ApplyDamage(tm.statuses, action.damage, action.element, s.Get(actor), s.Get(target), action.hitCount);
            && r.Get(target) == (if res.targetKilled then res.target.(isAlive := false) else res.target)
            && |r.combatLog| > |s.combatLog|
            && r.combatLog[..|s.combatLog| + 1] == s.combatLog + [DamageTaken(target, res.totalDamage)]
    ensures CountGained(r.combatLog) == CountGained(s.combatLog)
    ensures CountDamageTaken(r.combatLog) == CountDamageTaken(s.combatLog) + 1
  {
    var res := DamageResolver.ApplyDamage(tm.statuses, action.damage, action.element, s.Get(actor), s.Get(target), action.hitCount);
    var s1 := s.Set(target, res.target).Log(DamageTaken(target, res.totalDamage));
    CountsAppend(s.combatLog, [DamageTaken(target, res.totalDamage)]);
    assert s1.combatLog == s.combatLog + [DamageTaken(target, res.totalDamage)];
    assert s1.combatLog[..|s.combatLog| + 1] == s1.combatLog;
    if !res.targetKilled then s1
    else
      var r := Kill(target, res.target, s1);
      FramedTransitive(s, s1, r);
      assert r.combatLog[..|s.combatLog| + 1] == r.combatLog[..|s1.combatLog|];
      r
  }

  /** Damage revives no one. */
  lemma DamageTargetNoRevival(tm: TurnManager, actor: Ref, action: Action, target: Ref, s: CombatState)
    requires s.ValidRef(actor) && s.ValidRef(target)
    ensures NoRevival(s, DamageTarget(tm, actor, action, target, s))
  {
    var res := DamageResolver.ApplyDamage(tm.statuses, action.damage, action.element, s.Get(actor), s.Get(target), action.hitCount);
    var s1 := s.Set(target, res.target).Log(DamageTaken(target, res.totalDamage));
    assert NoRevival(s, s1);
    if res.targetKilled {
      var r := Kill(target, res.target, s1);
      KillNoRevival(target, res.target, s1);
      NoRevivalTransitive(s, s1, r);
    }
  }

  /**
   * Killing an enemy awards the player its experience, max(1, floor(maxHp / 6))
   * scaled by the streak, spent level by level, and logs the death, any
   * level-ups and the award, in that order.
   */
  lemma KillAwardsExperience(target: Ref, e: Entity, s: CombatState)
    requires s.ValidRef(target) && target.EnemyRef?
    ensures var r := Kill(target, e, s);
            var gained := Leveling.StreakExperience(Leveling.BaseExperience(e.maxHp), s.battleStreak);
            var lvl := Leveling.EffectiveLevel(s.player);
            && r.player.level >= lvl
            && Leveling.ExperienceBetween(lvl, r.player.level) + r.player.experience == s.player.experience + gained
            && r.combatLog == s.combatLog + [Died(target)] + Leveling.LevelUpLog(lvl, r.player.level) + [ExperienceGained(gained)]
  {
    var s2 := s.Set(target, e.(isAlive := false)).Log(Died(target));
    assert s2.Get(target).maxHp == e.maxHp && s2.player == s.player && s2.battleStreak == s.battleStreak;
  }

  lemma KillNoRevival(target: Ref, e: Entity, s: CombatState)
    requires s.ValidRef(target)
    ensures NoRevival(s, Kill(target, e, s))
  {
  }

  /**
   * Damage changes no enemy but the target, and the player's progress only
   * when the target is an enemy that died.
   */
  lemma DamageTargetOthers(tm: TurnManager, actor: Ref, action: Action, target: Ref, s: CombatState)
    requires s.ValidRef(actor) && s.ValidRef(target)
    ensures var r := DamageTarget(tm, actor, action, target, s);
            && (forall q :: s.ValidRef(q) && q != target && q != PlayerRef ==> r.Get(q) == s.Get(q))
            && (SameProgress(s, r) || (target.EnemyRef? && !r.Get(target).isAlive))
  {
  }

  /** One target's iteration of the `for (const target of targets)` loop of `executeAction`. */
  function HitTarget(tm: TurnManager, actor: Ref, action: Action, target: Ref, s: CombatState): (r: CombatState)
    requires s.ValidRef(actor) && s.ValidRef(target)
    ensures Framed(s, r)
    ensures CountGained(r.combatLog) == CountGained(s.combatLog) + |action.statusEffects|
    ensures CountDamageTaken(r.combatLog) == CountDamageTaken(s.combatLog) + (if action.damage > 0 then 1 else 0)
  {
    var s1 := if action.damage > 0 then DamageTarget(tm, actor, action, target, s) else s;
    var r := ApplyEffects(tm, actor, target, action.statusEffects, s1);
    ApplyEffectsFrame(tm, actor, target, action.statusEffects, s1);
    ApplyEffectsLog(tm, actor, target, action.statusEffects, s1);
    CountsAppend(s1.combatLog, GainedLog(actor, target, action.statusEffects));
    FramedTransitive(s, s1, r);
    r
  }

  /**
   * One target's iteration revives no one, and without damage it touches only
   * statuses and shields and awards no experience.
   */
  lemma HitTargetEntities(tm: TurnManager, actor: Ref, action: Action, target: Ref, s: CombatState)
    requires s.ValidRef(actor) && s.ValidRef(target)
    ensures NoRevival(s, HitTarget(tm, actor, action, target, s))
    ensures action.damage <= 0 ==>
              SameProgress(s, HitTarget(tm, actor, action, target, s)) && OnlyStatusesAndShields(s, HitTarget(tm, actor, action, target, s))
  {
    var s1 := if action.damage > 0 then DamageTarget(tm, actor, action, target, s) else s;
    var r := ApplyEffects(tm, actor, target, action.statusEffects, s1);
    if action.damage > 0 {
      DamageTargetNoRevival(tm, actor, action, target, s);
    }
    ApplyEffectsFrame(tm, actor, target, action.statusEffects, s1);
    ApplyEffectsEntities(tm, actor, target, action.statusEffects, s1);
    FramedNoRevival(s1, r);
    if action.damage > 0 {
      NoRevivalTransitive(s, s1, r);
    }
  }

  /** The `for (const target of targets)` loop of `executeAction`. */
  function ExecuteOnTargets(tm: TurnManager, actor: Ref, action: Action, targets: seq<Ref>, s: CombatState): (r: CombatState)
    requires s.ValidRef(actor)
    requires forall k :: 0 <= k < |targets| ==> s.ValidRef(targets[k])
    ensures |r.enemies| == |s.enemies|
    decreases |targets|
  {
    if |targets| == 0 then s
    else ExecuteOnTargets(tm, actor, action, targets[1..], HitTarget(tm, actor, action, targets[0], s))
  }

  /** The loop keeps the roster and the turn, and revives no one. */
  lemma {:induction false} ExecuteOnTargetsFrame(tm: TurnManager, actor: Ref, action: Action, targets: seq<Ref>, s: CombatState)
    requires s.ValidRef(actor)
    requires forall k :: 0 <= k < |targets| ==> s.ValidRef(targets[k])
    ensures Framed(s, ExecuteOnTargets(tm, actor, action, targets, s))
    ensures NoRevival(s, ExecuteOnTargets(tm, actor, action, targets, s))
    decreases |targets|
  {
    if |targets| == 0 {
      FramedNoRevival(s, s);
    } else {
      var s1 := HitTarget(tm, actor, action, targets[0], s);
      var r := ExecuteOnTargets(tm, actor, action, targets[1..], s1);
      HitTargetEntities(tm, actor, action, targets[0], s);
      ExecuteOnTargetsFrame(tm, actor, action, targets[1..], s1);
      FramedTransitive(s, s1, r);
      NoRevivalTransitive(s, s1, r);
    }
  }

  /**
   * Every target gets the action's whole list of status effects, self-directed
   * ones included, so the log records `|targets| * |statusEffects|` grants.
   */
  lemma {:induction false} ExecuteOnTargetsGrants(tm: TurnManager, actor: Ref, action: Action, targets: seq<Ref>, s: CombatState)
    requires s.ValidRef(actor)
    requires forall k :: 0 <= k < |targets| ==> s.ValidRef(targets[k])
    ensures CountGained(ExecuteOnTargets(tm, actor, action, targets, s).combatLog)
         == CountGained(s.combatLog) + |targets| * |action.statusEffects|
    decreases |targets|
  {
    if |targets| > 0 {
      var s1 := HitTarget(tm, actor, action, targets[0], s);
      ExecuteOnTargetsGrants(tm, actor, action, targets[1..], s1);
      MulSucc(|targets| - 1, |action.statusEffects|);
    }
  }

  /** The stacks of kind `id` that one effect grants to `q` in the iteration for `target`. */
  function ReceivedOne(effect: StatusEffect, actor: Ref, target: Ref, q: Ref, id: string): nat {
    if effect.statusId == id && RecipientOf(effect, actor, target) == q then effect.stacks else 0
  }

  /** The stacks of kind `id` that `effects` grant to `q` in the iteration for `target`. */
  function Received(effects: seq<StatusEffect>, actor: Ref, target: Ref, q: Ref, id: string): nat {
    if |effects| == 0 then 0
    else ReceivedOne(effects[0], actor, target, q, id) + Received(effects[1..], actor, target, q, id)
  }

  /** The stacks of kind `id` that `effects` grant to `q` over all of `targets`. */
  function ReceivedAll(effects: seq<StatusEffect>, actor: Ref, targets: seq<Ref>, q: Ref, id: string): nat {
    if |targets| == 0 then 0
    else Received(effects, actor, targets[0], q, id) + ReceivedAll(effects, actor, targets[1..], q, id)
  }

  /** The stacks of kind `id` over all of `effects`, whoever receives them. */
  function StacksIn(effects: seq<StatusEffect>, id: string): nat {
    if |effects| == 0 then 0
    else (if effects[0].statusId == id then effects[0].stacks else 0) + StacksIn(effects[1..], id)
  }

  /** Every effect of kind `id` is directed at the actor. */
  predicate AllSelf(effects: seq<StatusEffect>, id: string) {
    forall k :: 0 <= k < |effects| && effects[k].statusId == id ==> effects[k].recipient == ToSelf
  }

  /**
   * For an uncapped kind, one granted effect raises its recipient's stack
   * count by the effect's stacks and leaves everyone else's alone.
   */
  lemma ApplyEffectStacks(tm: TurnManager, actor: Ref, target: Ref, effect: StatusEffect, s: CombatState, q: Ref, id: string)
    requires s.ValidRef(actor) && s.ValidRef(target) && s.ValidRef(q)
    requires StatusManager.Uncapped(tm.statuses, id)
    ensures StatusManager.StacksOf(ApplyEffect(tm, actor, target, effect, s).Get(q).statuses, id)
         == StatusManager.StacksOf(s.Get(q).statuses, id) + ReceivedOne(effect, actor, target, q, id)
  {
    if q == RecipientOf(effect, actor, target) {
      if effect.statusId == id {
        var other := id + "+";
        assert |other| == |id| + 1;
        StatusManager.ApplyStatusStacks(tm.statuses, s.Get(q), id, effect.stacks, other);
      } else {
        StatusManager.ApplyStatusStacks(tm.statuses, s.Get(q), effect.statusId, effect.stacks, id);
      }
    }
  }

  /** Granting a list of effects adds, per combatant, the stacks of an uncapped kind it receives. */
  lemma {:induction false} ApplyEffectsStacks(tm: TurnManager, actor: Ref, target: Ref, effects: seq<StatusEffect>, s: CombatState, q: Ref, id: string)
    requires s.ValidRef(actor) && s.ValidRef(target) && s.ValidRef(q)
    requires StatusManager.Uncapped(tm.statuses, id)
    ensures StatusManager.StacksOf(ApplyEffects(tm, actor, target, effects, s).Get(q).statuses, id)
         == StatusManager.StacksOf(s.Get(q).statuses, id) + Received(effects, actor, target, q, id)
    decreases |effects|
  {
    if |effects| > 0 {
      var s1 := ApplyEffect(tm, actor, target, effects[0], s);
      ApplyEffectStacks(tm, actor, target, effects[0], s, q, id);
      ApplyEffectsStacks(tm, actor, target, effects[1..], s1, q, id);
    }
  }

  /** Killing changes no combatant's statuses. */
  lemma KillStatuses(target: Ref, e: Entity, s: CombatState, q: Ref)
    requires s.ValidRef(target) && s.ValidRef(q)
    ensures Kill(target, e, s).Get(q).statuses == (if q == target then e.statuses else s.Get(q).statuses)
  {
    var s2 := MarkDead(target, e, s);
    if target.EnemyRef? {
      var r := Leveling.AwardExperienceForEnemy(s2, e.(isAlive := false));
      assert Leveling.OnlyProgressChanged(s2, r);
      assert r.Get(q).statuses == s2.Get(q).statuses;
    }
  }

  /** Damage changes no combatant's statuses. */
  lemma DamageTargetStatuses(tm: TurnManager, actor: Ref, action: Action, target: Ref, s: CombatState, q: Ref)
    requires s.ValidRef(actor) && s.ValidRef(target) && s.ValidRef(q)
    ensures DamageTarget(tm, actor, action, target, s).Get(q).statuses == s.Get(q).statuses
  {
    var res := DamageResolver.ApplyDamage(tm.statuses, action.damage, action.element, s.Get(actor), s.Get(target), action.hitCount);
    var s1 := s.Set(target, res.target).Log(DamageTaken(target, res.totalDamage));
    if res.targetKilled {
      KillStatuses(target, res.target, s1, q);
    }
  }

  /** One target's iteration adds, per combatant, the stacks of an uncapped kind it receives. */
  lemma HitTargetStacks(tm: TurnManager, actor: Ref, action: Action, target: Ref, s: CombatState, q: Ref, id: string)
    requires s.ValidRef(actor) && s.ValidRef(target) && s.ValidRef(q)
    requires StatusManager.Uncapped(tm.statuses, id)
    ensures StatusManager.StacksOf(HitTarget(tm, actor, action, target, s).Get(q).statuses, id)
         == StatusManager.StacksOf(s.Get(q).statuses, id) + Received(action.statusEffects, actor, target, q, id)
  {
    var s1 := if action.damage > 0 then DamageTarget(tm, actor, action, target, s) else s;
    if action.damage > 0 {
      DamageTargetStatuses(tm, actor, action, target, s, q);
    }
    ApplyEffectsStacks(tm, actor, target, action.statusEffects, s1, q, id);
  }

  /**
   * The target loop adds, per combatant, the stacks of an uncapped kind it
   * receives over all targets: the effects are granted once per target.
   */
  lemma {:induction false} ExecuteOnTargetsStacks(tm: TurnManager, actor: Ref, action: Action, targets: seq<Ref>, s: CombatState, q: Ref, id: string)
    requires s.ValidRef(actor) && s.ValidRef(q)
    requires forall k :: 0 <= k < |targets| ==> s.ValidRef(targets[k])
    requires StatusManager.Uncapped(tm.statuses, id)
    ensures StatusManager.StacksOf(ExecuteOnTargets(tm, actor, action, targets, s).Get(q).statuses, id)
         == StatusManager.StacksOf(s.Get(q).statuses, id) + ReceivedAll(action.statusEffects, actor, targets, q, id)
    decreases |targets|
  {
    if |targets| > 0 {
      var s1 := HitTarget(tm, actor, action, targets[0], s);
      HitTargetStacks(tm, actor, action, targets[0], s, q, id);
      assert forall k :: 0 <= k < |targets[1..]| ==> s1.ValidRef(targets[1..][k]);
      ExecuteOnTargetsStacks(tm, actor, action, targets[1..], s1, q, id);
    }
  }

  /** When every effect of the kind is self-directed, the actor receives all of them in each iteration. */
  lemma {:induction false} ReceivedSelf(effects: seq<StatusEffect>, actor: Ref, target: Ref, id: string)
    requires AllSelf(effects, id)
    ensures Received(effects, actor, target, actor, id) == StacksIn(effects, id)
    decreases |effects|
  {
    if |effects| > 0 {
      assert forall k :: 0 <= k < |effects[1..]| ==> effects[1..][k] == effects[k + 1];
      ReceivedSelf(effects[1..], actor, target, id);
    }
  }

  /** ... and so once per target over the loop. */
  lemma {:induction false} ReceivedAllSelf(effects: seq<StatusEffect>, actor: Ref, targets: seq<Ref>, id: string)
    requires AllSelf(effects, id)
    ensures ReceivedAll(effects, actor, targets, actor, id) == |targets| * StacksIn(effects, id)
    decreases |targets|
  {
    if |targets| > 0 {
      ReceivedSelf(effects, actor, targets[0], id);
      ReceivedAllSelf(effects, actor, targets[1..], id);
      MulSucc(|targets| - 1, StacksIn(effects, id));
    }
  }

  /** A damaging action logs one damage entry per target. */
  lemma {:induction false} ExecuteOnTargetsDamageEntries(tm: TurnManager, actor: Ref, action: Action, targets: seq<Ref>, s: CombatState)
    requires s.ValidRef(actor)
    requires forall k :: 0 <= k < |targets| ==> s.ValidRef(targets[k])
    ensures CountDamageTaken(ExecuteOnTargets(tm, actor, action, targets, s).combatLog)
         == CountDamageTaken(s.combatLog) + (if action.damage > 0 then |targets| else 0)
    decreases |targets|
  {
    if |targets| > 0 {
      var s1 := HitTarget(tm, actor, action, targets[0], s);
      ExecuteOnTargetsDamageEntries(tm, actor, action, targets[1..], s1);
    }
  }

  lemma MulSucc(n: nat, m: nat)
    ensures (n + 1) * m == m + n * m
  {
  }

  /** A non-damaging action changes only statuses and shields, and awards no experience. */
  lemma {:induction false} ExecuteOnTargetsHarmless(tm: TurnManager, actor: Ref, action: Action, targets: seq<Ref>, s: CombatState)
    requires s.ValidRef(actor)
    requires forall k :: 0 <= k < |targets| ==> s.ValidRef(targets[k])
    ensures action.damage <= 0 ==>
              && SameProgress(s, ExecuteOnTargets(tm, actor, action, targets, s))
              && OnlyStatusesAndShields(s, ExecuteOnTargets(tm, actor, action, targets, s))
    decreases |targets|
  {
    if |targets| > 0 {
      var s1 := HitTarget(tm, actor, action, targets[0], s);
      var r := ExecuteOnTargets(tm, actor, action, targets[1..], s1);
      HitTargetEntities(tm, actor, action, targets[0], s);
      ExecuteOnTargetsHarmless(tm, actor, action, targets[1..], s1);
      OnlyStatusesAndShieldsTransitive(s, s1, r);
    }
  }

  /**
   * `executeAction`: resolve the targets (one draw for a player's random
   * target); with none, log that and stop; otherwise run every target.
   */
  function ExecuteAction(tm: TurnManager, actor: Ref, action: Action, s: CombatState, rng: Rng): (r: (CombatState, Rng))
    requires s.ValidRef(actor)
    ensures r.1 == TargetResolver.ResolveTargets(action.targeting, actor, s, rng).1
    ensures |TargetResolver.ResolveTargets(action.targeting, actor, s, rng).0| == 0 ==> r.0 == s.Log(NoTargets(action.id))
    ensures Framed(s, r.0) && NoRevival(s, r.0)
  {
    var (targets, rng') := TargetResolver.ResolveTargets(action.targeting, actor, s, rng);
    if |targets| == 0 then
      var r := s.Log(NoTargets(action.id));
      FramedNoRevival(s, r);
      (r, rng')
    else
      ExecuteOnTargetsFrame(tm, actor, action, targets, s);
      (ExecuteOnTargets(tm, actor, action, targets, s), rng')
  }

  /**
   * What an action logs: each target receives every status effect, and a
   * damaging action logs one damage entry per target. An action without
   * damage changes only statuses and shields and awards no experience.
   */
  lemma ExecuteActionEffects(tm: TurnManager, actor: Ref, action: Action, s: CombatState, rng: Rng)
    requires s.ValidRef(actor)
    ensures var targets := TargetResolver.ResolveTargets(action.targeting, actor, s, rng).0;
            var r := ExecuteAction(tm, actor, action, s, rng).0;
            && CountGained(r.combatLog) == CountGained(s.combatLog) + |targets| * |action.statusEffects|
            && CountDamageTaken(r.combatLog) == CountDamageTaken(s.combatLog) + (if action.damage > 0 then |targets| else 0)
            && (action.damage <= 0 ==> SameProgress(s, r) && OnlyStatusesAndShields(s, r))
  {
    var (targets, rng') := TargetResolver.ResolveTargets(action.targeting, actor, s, rng);
    if |targets| == 0 {
      CountsAppend(s.combatLog, [NoTargets(action.id)]);
    } else {
      ExecuteOnTargetsGrants(tm, actor, action, targets, s);
      ExecuteOnTargetsDamageEntries(tm, actor, action, targets, s);
      ExecuteOnTargetsHarmless(tm, actor, action, targets, s);
    }
  }

  /**
   * An action grants each combatant, per resolved target, the stacks of an
   * uncapped kind its effects direct at that combatant.
   */
  lemma ExecuteActionStacks(tm: TurnManager, actor: Ref, action: Action, s: CombatState, rng: Rng, q: Ref, id: string)
    requires s.ValidRef(actor) && s.ValidRef(q)
    requires StatusManager.Uncapped(tm.statuses, id)
    ensures var targets := TargetResolver.ResolveTargets(action.targeting, actor, s, rng).0;
            StatusManager.StacksOf(ExecuteAction(tm, actor, action, s, rng).0.Get(q).statuses, id)
              == StatusManager.StacksOf(s.Get(q).statuses, id) + ReceivedAll(action.statusEffects, actor, targets, q, id)
  {
    var (targets, rng') := TargetResolver.ResolveTargets(action.targeting, actor, s, rng);
    if |targets| > 0 {
      ExecuteOnTargetsStacks(tm, actor, action, targets, s, q, id);
    }
  }

  /**
   * A self-directed status is applied once per resolved target: with every
   * effect of an uncapped kind aimed at the actor, the actor's count of that
   * kind rises by the number of targets times the stacks the action lists.
   */
  lemma ExecuteActionSelfStacks(tm: TurnManager, actor: Ref, action: Action, s: CombatState, rng: Rng, id: string)
    requires s.ValidRef(actor)
    requires StatusManager.Uncapped(tm.statuses, id) && AllSelf(action.statusEffects, id)
    ensures var targets := TargetResolver.ResolveTargets(action.targeting, actor, s, rng).0;
            StatusManager.StacksOf(ExecuteAction(tm, actor, action, s, rng).0.Get(actor).statuses, id)
              == StatusManager.StacksOf(s.Get(actor).statuses, id) + |targets| * StacksIn(action.statusEffects, id)
  {
    var targets := TargetResolver.ResolveTargets(action.targeting, actor, s, rng).0;
    ExecuteActionStacks(tm, actor, action, s, rng, actor, id);
    ReceivedAllSelf(action.statusEffects, actor, targets, id);
  }

  /** The log of `r` continues the log of `s`: no entry is lost or rewritten. */
  predicate LogExtends(s: CombatState, r: CombatState) {
    |s.combatLog| <= |r.combatLog| && r.combatLog[..|s.combatLog|] == s.combatLog
  }

  lemma LogExtendsTransitive(s1: CombatState, s2: CombatState, s3: CombatState)
    requires LogExtends(s1, s2) && LogExtends(s2, s3)
    ensures LogExtends(s1, s3)
  {
    assert s3.combatLog[..|s1.combatLog|] == s3.combatLog[..|s2.combatLog|][..|s1.combatLog|];
  }

  /** Damage only appends to the log. */
  lemma DamageTargetLog(tm: TurnManager, actor: Ref, action: Action, target: Ref, s: CombatState)
    requires s.ValidRef(actor) && s.ValidRef(target)
    ensures LogExtends(s, DamageTarget(tm, actor, action, target, s))
  {
    var r := DamageTarget(tm, actor, action, target, s);
    assert r.combatLog[..|s.combatLog|] == r.combatLog[..|s.combatLog| + 1][..|s.combatLog|];
  }

  /** One target's iteration only appends to the log. */
  lemma HitTargetLog(tm: TurnManager, actor: Ref, action: Action, target: Ref, s: CombatState)
    requires s.ValidRef(actor) && s.ValidRef(target)
    ensures LogExtends(s, HitTarget(tm, actor, action, target, s))
  {
    var s1 := if action.damage > 0 then DamageTarget(tm, actor, action, target, s) else s;
    if action.damage > 0 {
      DamageTargetLog(tm, actor, action, target, s);
    }
    ApplyEffectsLog(tm, actor, target, action.statusEffects, s1);
    LogPrefix(s1.combatLog, GainedLog(actor, target, action.statusEffects));
    LogExtendsTransitive(s, s1, HitTarget(tm, actor, action, target, s));
  }

  /** The target loop only appends to the log. */
  lemma {:induction false} ExecuteOnTargetsLog(tm: TurnManager, actor: Ref, action: Action, targets: seq<Ref>, s: CombatState)
    requires s.ValidRef(actor)
    requires forall k :: 0 <= k < |targets| ==> s.ValidRef(targets[k])
    ensures LogExtends(s, ExecuteOnTargets(tm, actor, action, targets, s))
    decreases |targets|
  {
    if |targets| > 0 {
      var s1 := HitTarget(tm, actor, action, targets[0], s);
      HitTargetLog(tm, actor, action, targets[0], s);
      assert forall k :: 0 <= k < |targets[1..]| ==> s1.ValidRef(targets[1..][k]);
      ExecuteOnTargetsLog(tm, actor, action, targets[1..], s1);
      LogExtendsTransitive(s, s1, ExecuteOnTargets(tm, actor, action, targets, s));
    }
  }

  /** An action only appends to the log. */
  lemma ExecuteActionLog(tm: TurnManager, actor: Ref, action: Action, s: CombatState, rng: Rng)
    requires s.ValidRef(actor)
    ensures LogExtends(s, ExecuteAction(tm, actor, action, s, rng).0)
  {
    var targets := TargetResolver.ResolveTargets(action.targeting, actor, s, rng).0;
    if |targets| == 0 {
      LogPrefix(s.combatLog, [NoTargets(action.id)]);
    } else {
      ExecuteOnTargetsLog(tm, actor, action, targets, s);
    }
  }

  predicate NoDuplicates(ids: seq<string>) {
    forall i, j :: 0 <= i < j < |ids| ==> ids[i] != ids[j]
  }

  /** The discovery step of `executePlayerTurn`: a new, non-fallback combo is recorded and logged. */
  function Discover(tm: TurnManager, combo: Action, s: CombatState): (r: CombatState)
    ensures r == s.(discoveredCombos := r.discoveredCombos, combatLog := r.combatLog)
    ensures combo.id != tm.Fallback().id ==> combo.id in r.discoveredCombos
    ensures combo.id == tm.Fallback().id || combo.id in s.discoveredCombos ==> r == s
    ensures combo.id != tm.Fallback().id && combo.id !in s.discoveredCombos ==>
              && r.discoveredCombos == s.discoveredCombos + [combo.id]
              && r.combatLog == s.combatLog + [ComboDiscovered(combo.id)]
    ensures NoDuplicates(s.discoveredCombos) ==> NoDuplicates(r.discoveredCombos)
    ensures r.discoveredCombos == Record(tm.Fallback().id, s.discoveredCombos, combo.id)
  {
    if combo.id != tm.Fallback().id && combo.id !in s.discoveredCombos then
      s.(discoveredCombos := s.discoveredCombos + [combo.id]).Log(ComboDiscovered(combo.id))
    else s
  }

  /** `Framed`, except that discoveries may also be recorded. */
  predicate FramedDiscovering(s: CombatState, r: CombatState) {
    Framed(s, r.(discoveredCombos := s.discoveredCombos))
  }

  /**
   * One iteration of the `for (const combo of combos)` loop of
   * `executePlayerTurn`: record a discovery, then the animation's own
   * `resolveTargets` call, which consumes a draw of its own for a random
   * target, then the action itself.
   */
  function PlayCombo(tm: TurnManager, combo: Action, s: CombatState, rng: Rng): (r: (CombatState, Rng))
    ensures r.0.discoveredCombos == Record(tm.Fallback().id, s.discoveredCombos, combo.id)
    ensures FramedDiscovering(s, r.0) && NoRevival(s, r.0)
    ensures LogExtends(Discover(tm, combo, s), r.0)
  {
    var s1 := Discover(tm, combo, s);
    var (_, rng1) := TargetResolver.ResolveTargets(combo.targeting, PlayerRef, s1, rng);
    var (s2, rng2) := ExecuteAction(tm, PlayerRef, combo, s1, rng1);
    ExecuteActionLog(tm, PlayerRef, combo, s1, rng1);
    DiscoverFrame(tm, combo, s);
    FramedDiscovers(s1, s2);
    FramedDiscoveringTransitive(s, s1, s2);
    NoRevivalTransitive(s, s1, s2);
    (s2, rng2)
  }

  /**
   * A combo does what `executeAction` does, after its discovery entry and
   * with the draw the animation's own target resolution leaves: each target
   * receives every status effect, a damaging combo logs one damage entry per
   * target, and the draw used is the second resolution's.
   */
  lemma PlayComboEffects(tm: TurnManager, combo: Action, s: CombatState, rng: Rng)
    ensures var rng1 := TargetResolver.ResolveTargets(combo.targeting, PlayerRef, s, rng).1;
            var (targets, rng2) := TargetResolver.ResolveTargets(combo.targeting, PlayerRef, s, rng1);
            var r := PlayCombo(tm, combo, s, rng);
            && CountGained(r.0.combatLog) == CountGained(s.combatLog) + |targets| * |combo.statusEffects|
            && CountDamageTaken(r.0.combatLog) == CountDamageTaken(s.combatLog) + (if combo.damage > 0 then |targets| else 0)
            && r.1 == rng2
  {
    var s1 := Discover(tm, combo, s);
    var rng1 := TargetResolver.ResolveTargets(combo.targeting, PlayerRef, s, rng).1;
    TargetResolver.ResolveTargetsReadsCombatants(combo.targeting, PlayerRef, s, s1, rng);
    TargetResolver.ResolveTargetsReadsCombatants(combo.targeting, PlayerRef, s, s1, rng1);
    if combo.id != tm.Fallback().id && combo.id !in s.discoveredCombos {
      CountsAppend(s.combatLog, [ComboDiscovered(combo.id)]);
    }
    ExecuteActionEffects(tm, PlayerRef, combo, s1, rng1);
  }

  /**
   * A combo raises each combatant's count of an uncapped kind by the stacks
   * its effects direct at that combatant over the targets it resolves.
   */
  lemma PlayComboStacks(tm: TurnManager, combo: Action, s: CombatState, rng: Rng, q: Ref, id: string)
    requires s.ValidRef(q)
    requires StatusManager.Uncapped(tm.statuses, id)
    ensures var rng1 := TargetResolver.ResolveTargets(combo.targeting, PlayerRef, s, rng).1;
            var targets := TargetResolver.ResolveTargets(combo.targeting, PlayerRef, s, rng1).0;
            StatusManager.StacksOf(PlayCombo(tm, combo, s, rng).0.Get(q).statuses, id)
              == StatusManager.StacksOf(s.Get(q).statuses, id) + ReceivedAll(combo.statusEffects, PlayerRef, targets, q, id)
  {
    var s1 := Discover(tm, combo, s);
    var rng1 := TargetResolver.ResolveTargets(combo.targeting, PlayerRef, s, rng).1;
    TargetResolver.ResolveTargetsReadsCombatants(combo.targeting, PlayerRef, s, s1, rng);
    TargetResolver.ResolveTargetsReadsCombatants(combo.targeting, PlayerRef, s, s1, rng1);
    ExecuteActionStacks(tm, PlayerRef, combo, s1, rng1, q, id);
  }

  /** The combo loop only appends to the log. */
  lemma {:induction false} RunCombosLog(tm: TurnManager, combos: seq<Action>, s: CombatState, rng: Rng)
    ensures LogExtends(s, RunCombos(tm, combos, s, rng).0)
    decreases |combos|
  {
    if |combos| > 0 {
      var (s1, rng1) := PlayCombo(tm, combos[0], s, rng);
      var d := Discover(tm, combos[0], s);
      LogPrefix(s.combatLog, d.combatLog[|s.combatLog|..]);
      assert d.combatLog == s.combatLog + d.combatLog[|s.combatLog|..];
      LogExtendsTransitive(s, d, s1);
      RunCombosLog(tm, combos[1..], s1, rng1);
      LogExtendsTransitive(s, s1, RunCombos(tm, combos, s, rng).0);
    }
  }

  /**
   * Over the combo loop no combatant loses stacks of an uncapped kind, and
   * each combo adds what `PlayComboStacks` says.
   */
  lemma {:induction false} RunCombosStacksGrow(tm: TurnManager, combos: seq<Action>, s: CombatState, rng: Rng, q: Ref, id: string)
    requires s.ValidRef(q)
    requires StatusManager.Uncapped(tm.statuses, id)
    ensures StatusManager.StacksOf(RunCombos(tm, combos, s, rng).0.Get(q).statuses, id) >= StatusManager.StacksOf(s.Get(q).statuses, id)
    decreases |combos|
  {
    if |combos| > 0 {
      var (s1, rng1) := PlayCombo(tm, combos[0], s, rng);
      PlayComboStacks(tm, combos[0], s, rng, q, id);
      RunCombosStacksGrow(tm, combos[1..], s1, rng1, q, id);
    }
  }

  /** Recording a discovery changes no combatant. */
  lemma DiscoverFrame(tm: TurnManager, combo: Action, s: CombatState)
    ensures FramedDiscovering(s, Discover(tm, combo, s))
    ensures NoRevival(s, Discover(tm, combo, s))
  {
    FramedNoRevival(s, Discover(tm, combo, s));
  }

  lemma FramedDiscovers(s: CombatState, r: CombatState)
    requires Framed(s, r)
    ensures FramedDiscovering(s, r)
  {
    assert r.(discoveredCombos := s.discoveredCombos) == r;
  }

  /** The `for (const combo of combos)` loop of `executePlayerTurn`. */
  function RunCombos(tm: TurnManager, combos: seq<Action>, s: CombatState, rng: Rng): (r: (CombatState, Rng))
    ensures |r.0.enemies| == |s.enemies|
    decreases |combos|
  {
    if |combos| == 0 then (s, rng)
    else
      var (s1, rng1) := PlayCombo(tm, combos[0], s, rng);
      RunCombos(tm, combos[1..], s1, rng1)
  }

  lemma FramedDiscoveringTransitive(s1: CombatState, s2: CombatState, s3: CombatState)
    requires FramedDiscovering(s1, s2) && FramedDiscovering(s2, s3)
    ensures FramedDiscovering(s1, s3)
  {
    FramedTransitive(s1, s2.(discoveredCombos := s1.discoveredCombos), s3.(discoveredCombos := s1.discoveredCombos));
  }

  /** Running the combos keeps the roster and the turn, and revives no one. */
  lemma {:induction false} RunCombosFrame(tm: TurnManager, combos: seq<Action>, s: CombatState, rng: Rng)
    ensures FramedDiscovering(s, RunCombos(tm, combos, s, rng).0)
    ensures NoRevival(s, RunCombos(tm, combos, s, rng).0)
    decreases |combos|
  {
    if |combos| == 0 {
      FramedNoRevival(s, s);
    } else {
      var (s1, rng1) := PlayCombo(tm, combos[0], s, rng);
      var r := RunCombos(tm, combos[1..], s1, rng1).0;
      RunCombosFrame(tm, combos[1..], s1, rng1);
      FramedDiscoveringTransitive(s, s1, r);
      NoRevivalTransitive(s, s1, r);
    }
  }

  /** The discovery list after seeing `id`: a new id other than the fallback's is appended. */
  function Record(fallback: string, known: seq<string>, id: string): seq<string> {
    if id != fallback && id !in known then known + [id] else known
  }

  /** The discovery list after seeing each of `ids` in turn. */
  function Recorded(fallback: string, known: seq<string>, ids: seq<string>): seq<string>
    decreases |ids|
  {
    if |ids| == 0 then known else Recorded(fallback, Record(fallback, known, ids[0]), ids[1..])
  }

  /**
   * The discovery fold keeps the old list as a prefix, records every id but
   * the fallback's, records nothing else, and records no id twice.
   */
  lemma {:induction false} RecordedProperties(fallback: string, known: seq<string>, ids: seq<string>)
    ensures var r := Recorded(fallback, known, ids);
            && known <= r
            && (forall k :: 0 <= k < |ids| && ids[k] != fallback ==> ids[k] in r)
            && (forall id :: id in r ==> id in known || (id in ids && id != fallback))
            && (NoDuplicates(known) ==> NoDuplicates(r))
    decreases |ids|
  {
    if |ids| > 0 {
      var known1 := Record(fallback, known, ids[0]);
      var r := Recorded(fallback, known1, ids[1..]);
      RecordedProperties(fallback, known1, ids[1..]);
      assert known <= known1;
      forall k | 0 <= k < |ids| && ids[k] != fallback
        ensures ids[k] in r
      {
        if k > 0 {
          assert ids[1..][k - 1] == ids[k];
        } else {
          var i :| 0 <= i < |known1| && known1[i] == ids[0];
          assert r[i] == ids[0];
        }
      }
      forall id | id in r
        ensures id in known || (id in ids && id != fallback)
      {
        if id !in known1 {
          var j :| 0 <= j < |ids[1..]| && ids[1..][j] == id;
          assert ids[j + 1] == id;
        } else if id !in known {
          assert id == ids[0];
        }
      }
    }
  }

  /** Running the combos records discoveries as the fold over their ids does. */
  lemma {:induction false} RunCombosRecords(tm: TurnManager, combos: seq<Action>, s: CombatState, rng: Rng)
    ensures RunCombos(tm, combos, s, rng).0.discoveredCombos == Recorded(tm.Fallback().id, s.discoveredCombos, Ids(combos))
    decreases |combos|
  {
    if |combos| > 0 {
      var (s1, rng1) := PlayCombo(tm, combos[0], s, rng);
      RunCombosRecords(tm, combos[1..], s1, rng1);
      assert Ids(combos)[1..] == Ids(combos[1..]);
    }
  }

  /**
   * Discoveries: the old list is kept as a prefix, every non-fallback combo run
   * is recorded, every new entry is such a combo, and no id is recorded twice.
   */
  lemma RunCombosDiscoveries(tm: TurnManager, combos: seq<Action>, s: CombatState, rng: Rng)
    ensures var r := RunCombos(tm, combos, s, rng).0;
            && s.discoveredCombos <= r.discoveredCombos
            && (forall k :: 0 <= k < |combos| && combos[k].id != tm.Fallback().id ==> combos[k].id in r.discoveredCombos)
            && (forall id :: id in r.discoveredCombos ==>
                  id in s.discoveredCombos || exists k :: 0 <= k < |combos| && combos[k].id == id && id != tm.Fallback().id)
            && (NoDuplicates(s.discoveredCombos) ==> NoDuplicates(r.discoveredCombos))
  {
    var ids := Ids(combos);
    RunCombosRecords(tm, combos, s, rng);
    RecordedProperties(tm.Fallback().id, s.discoveredCombos, ids);
    forall id | id in ids
      ensures exists k :: 0 <= k < |combos| && combos[k].id == id
    {
      var k :| 0 <= k < |ids| && ids[k] == id;
      assert combos[k].id == id;
    }
  }

  /** The ids of the combos run, for the summary log entry. */
  function Ids(combos: seq<Action>): (ids: seq<string>)
    ensures |ids| == |combos| && forall k :: 0 <= k < |combos| ==> ids[k] == combos[k].id
  {
    if |combos| == 0 then [] else [combos[0].id] + Ids(combos[1..])
  }

  /**
   * The end of `executePlayerTurn`: log the combos run, clear the buffer, and
   * end the combat if every enemy is dead or hand over to the enemies otherwise.
   */
  function FinishPlayerTurn(combos: seq<Action>, s: CombatState): (r: CombatState)
    ensures r == s.(combatLog := r.combatLog, inputBuffer := [], turnPhase := r.turnPhase, isVictory := r.isVictory)
    ensures r.combatLog == s.combatLog + [CombosUsed(Ids(combos))]
    ensures r.AllEnemiesDead() ==> r.turnPhase == CombatEnd && r.isVictory
    ensures !r.AllEnemiesDead() ==> r.turnPhase == EnemyTurn && r.isVictory == s.isVictory
  {
    var s1 := s.Log(CombosUsed(Ids(combos))).(inputBuffer := []);
    if s1.AllEnemiesDead() then s1.(isVictory := true, turnPhase := CombatEnd)
    else s1.(turnPhase := EnemyTurn)
  }

  /** The replay cache: the first combo found, unless it is the fallback. */
  function RememberFirst(tm: TurnManager, first: Action, s: CombatState): (r: CombatState)
    ensures r == s.(lastSuccessfulCombo := r.lastSuccessfulCombo)
    ensures r.lastSuccessfulCombo == if first.id != tm.Fallback().id then Some(first.sequence) else s.lastSuccessfulCombo
  {
    if first.id != tm.Fallback().id then s.(lastSuccessfulCombo := Some(first.sequence)) else s
  }

  /**
   * `executePlayerTurn`: parse the buffer into combos, remember the first one
   * for replay unless it is the fallback, run every combo, then finish.
   */
  function ExecutePlayerTurn(tm: TurnManager, s: CombatState, rng: Rng): (r: (CombatState, Rng))
    requires tm.Valid()
    ensures |r.0.enemies| == |s.enemies|
  {
    var combos := ComboParser.ParseAllCombos(tm.parser, s.inputBuffer);
    var s1 := RememberFirst(tm, combos[0], s);
    var (s2, rng') := RunCombos(tm, combos, s1, rng);
    (FinishPlayerTurn(combos, s2), rng')
  }

  /**
   * After the player's turn the buffer is empty, the replay cache holds the
   * first combo found unless it is the fallback, and the phase is combat end
   * with a victory exactly when every enemy is dead, the enemy turn otherwise.
   */
  lemma PlayerTurnOutcome(tm: TurnManager, s: CombatState, rng: Rng)
    requires tm.Valid()
    ensures var r := ExecutePlayerTurn(tm, s, rng).0;
            var first := ComboParser.ParseCombo(tm.parser, s.inputBuffer);
            && r.inputBuffer == []
            && SameRoster(s, r) && NoRevival(s, r)
            && r.turnCount == s.turnCount && r.battleStreak == s.battleStreak && r.isDefeat == s.isDefeat
            && r.lastSuccessfulCombo == (if first.id != tm.Fallback().id then Some(first.sequence) else s.lastSuccessfulCombo)
            && (r.AllEnemiesDead() ==> r.turnPhase == CombatEnd && r.isVictory)
            && (!r.AllEnemiesDead() ==> r.turnPhase == EnemyTurn && r.isVictory == s.isVictory)
  {
    var combos := ComboParser.ParseAllCombos(tm.parser, s.inputBuffer);
    var s1 := RememberFirst(tm, combos[0], s);
    var (s2, rng') := RunCombos(tm, combos, s1, rng);
    RunCombosFrame(tm, combos, s1, rng);
    FramedNoRevival(s, s1);
    NoRevivalTransitive(s, s1, s2);
    var r := FinishPlayerTurn(combos, s2);
    assert NoRevival(s2, r);
    NoRevivalTransitive(s, s2, r);
  }

  /**
   * Discoveries: the old list is kept as a prefix, every non-fallback combo the
   * buffer parses into is recorded, every new entry is one of them, and no id
   * is recorded twice.
   */
  lemma PlayerTurnDiscoveries(tm: TurnManager, s: CombatState, rng: Rng)
    requires tm.Valid()
    ensures var r := ExecutePlayerTurn(tm, s, rng).0;
            var combos := ComboParser.ParseAllCombos(tm.parser, s.inputBuffer);
            && s.discoveredCombos <= r.discoveredCombos
            && (forall k :: 0 <= k < |combos| && combos[k].id != tm.Fallback().id ==> combos[k].id in r.discoveredCombos)
            && (forall id :: id in r.discoveredCombos ==>
                  id in s.discoveredCombos || exists k :: 0 <= k < |combos| && combos[k].id == id && id != tm.Fallback().id)
            && (NoDuplicates(s.discoveredCombos) ==> NoDuplicates(r.discoveredCombos))
  {
    var combos := ComboParser.ParseAllCombos(tm.parser, s.inputBuffer);
    var s1 := RememberFirst(tm, combos[0], s);
    RunCombosDiscoveries(tm, combos, s1, rng);
  }

  /** `Framed`, except that the phase and the defeat flag may also change. */
  predicate FramedEnemyPhase(s: CombatState, r: CombatState) {
    Framed(s, r.(turnPhase := s.turnPhase, isDefeat := s.isDefeat))
  }

  /** How one enemy's iteration ends: the loop goes on, or the player is dead. */
  datatype Step = Continue(state: CombatState, rng: Rng) | PlayerDied(state: CombatState, rng: Rng)

  /**
   * One iteration of the `for (const enemy of state.enemies)` loop of
   * `executeEnemyTurns`. A dead enemy is skipped; a stunned one is logged and
   * skipped; any other picks an action with one draw, logs it, resolves the
   * animation's targets, and acts.
   */
  function EnemyStep(tm: TurnManager, i: nat, s: CombatState, rng: Rng): (r: Result<Step, EnemyAI.AiError>)
    requires i < |s.enemies|
    ensures r.Success? ==> Framed(s, r.value.state) && NoRevival(s, r.value.state)
    ensures r.Success? && r.value.PlayerDied? ==> !r.value.state.player.entity.isAlive
    ensures r.Success? && r.value.Continue? && s.player.entity.isAlive ==> r.value.state.player.entity.isAlive
    ensures r.Failure? ==> s.enemies[i].entity.isAlive && |EnemyAI.Candidates(tm.actions, s.enemies[i].actionPool)| == 0
    ensures r.Failure? ==> r.error == EnemyAI.NoValidActions(s.enemies[i].entity.id)
    ensures !s.enemies[i].entity.isAlive ==> r == Success(Continue(s, rng))
    ensures s.enemies[i].entity.isAlive && StatusManager.IsStunned(s.enemies[i].entity) ==>
              r == Success(Continue(s.Log(Stunned(EnemyRef(i))), rng))
    ensures s.enemies[i].entity.isAlive && !StatusManager.IsStunned(s.enemies[i].entity) ==>
              (r.Failure? <==> |EnemyAI.Candidates(tm.actions, s.enemies[i].actionPool)| == 0)
    ensures s.enemies[i].entity.isAlive && !StatusManager.IsStunned(s.enemies[i].entity) && r.Success? ==>
              var action := EnemyAI.SelectAction(tm.actions, s.enemies[i], rng.Peek()).value;
              (r.value.state, r.value.rng) == EnemyActs(tm, i, action, s, rng.Advance())
  {
    var enemy := s.enemies[i];
    if !enemy.entity.isAlive then
      FramedNoRevival(s, s);
      Success(Continue(s, rng))
    else if StatusManager.IsStunned(enemy.entity) then
      var s1 := s.Log(Stunned(EnemyRef(i)));
      FramedNoRevival(s, s1);
      Success(Continue(s1, rng))
    else
      match EnemyAI.SelectAction(tm.actions, enemy, rng.Peek())
      case Failure(err) => Failure(err)
      case Success(action) =>
        var (s2, rng2) := EnemyActs(tm, i, action, s, rng.Advance());
        if !s2.player.entity.isAlive then Success(PlayerDied(s2, rng2))
        else Success(Continue(s2, rng2))
  }

  /**
   * An enemy's action after it was picked: log it, resolve the animation's
   * targets, and execute it. The action's entry directly follows the old log,
   * and an enemy's action draws nothing.
   */
  function EnemyActs(tm: TurnManager, i: nat, action: Action, s: CombatState, rng: Rng): (r: (CombatState, Rng))
    requires i < |s.enemies|
    ensures Framed(s, r.0) && NoRevival(s, r.0)
    ensures |r.0.combatLog| > |s.combatLog|
    ensures r.0.combatLog[..|s.combatLog| + 1] == s.combatLog + [ActionUsed(EnemyRef(i), action.id)]
    ensures r.1 == rng
  {
    var s1 := s.Log(ActionUsed(EnemyRef(i), action.id));
    var (_, rng1) := TargetResolver.ResolveTargets(action.targeting, EnemyRef(i), s1, rng);
    var (s2, rng2) := ExecuteAction(tm, EnemyRef(i), action, s1, rng1);
    FramedNoRevival(s, s1);
    NoRevivalTransitive(s, s1, s2);
    FramedTransitive(s, s1, s2);
    ExecuteActionLog(tm, EnemyRef(i), action, s1, rng1);
    assert s2.combatLog[..|s.combatLog| + 1] == s2.combatLog[..|s1.combatLog|];
    (s2, rng2)
  }

  /**
   * An enemy's action does what `executeAction` does for the targets it
   * resolves: each target receives every status effect, and a damaging action
   * logs one damage entry per target.
   */
  lemma EnemyActsEffects(tm: TurnManager, i: nat, action: Action, s: CombatState, rng: Rng)
    requires i < |s.enemies|
    ensures var targets := TargetResolver.ResolveTargets(action.targeting, EnemyRef(i), s, rng).0;
            var r := EnemyActs(tm, i, action, s, rng).0;
            && CountGained(r.combatLog) == CountGained(s.combatLog) + |targets| * |action.statusEffects|
            && CountDamageTaken(r.combatLog) == CountDamageTaken(s.combatLog) + (if action.damage > 0 then |targets| else 0)
  {
    var s1 := s.Log(ActionUsed(EnemyRef(i), action.id));
    TargetResolver.ResolveTargetsReadsCombatants(action.targeting, EnemyRef(i), s, s1, rng);
    CountsAppend(s.combatLog, [ActionUsed(EnemyRef(i), action.id)]);
    ExecuteActionEffects(tm, EnemyRef(i), action, s1, rng);
  }

  /**
   * An enemy's action raises each combatant's count of an uncapped kind by the
   * stacks its effects direct at that combatant over the resolved targets.
   */
  lemma EnemyActsStacks(tm: TurnManager, i: nat, action: Action, s: CombatState, rng: Rng, q: Ref, id: string)
    requires i < |s.enemies| && s.ValidRef(q)
    requires StatusManager.Uncapped(tm.statuses, id)
    ensures var targets := TargetResolver.ResolveTargets(action.targeting, EnemyRef(i), s, rng).0;
            StatusManager.StacksOf(EnemyActs(tm, i, action, s, rng).0.Get(q).statuses, id)
              == StatusManager.StacksOf(s.Get(q).statuses, id) + ReceivedAll(action.statusEffects, EnemyRef(i), targets, q, id)
  {
    var s1 := s.Log(ActionUsed(EnemyRef(i), action.id));
    TargetResolver.ResolveTargetsReadsCombatants(action.targeting, EnemyRef(i), s, s1, rng);
    ExecuteActionStacks(tm, EnemyRef(i), action, s1, rng, q, id);
  }

  /**
   * What `selectAction`'s throw leaves behind: the error, and the state as far
   * as the enemies' turn had changed it in place (earlier enemies' actions and
   * log entries applied, the phase still the enemy turn).
   */
  datatype Aborted = Aborted(error: EnemyAI.AiError, state: CombatState)

  /**
   * The loop of `executeEnemyTurns` from the enemy at index `i` on; the turn
   * ends in defeat as soon as the player is dead after an enemy acted.
   */
  function EnemyLoop(tm: TurnManager, i: nat, s: CombatState, rng: Rng): (r: Result<(CombatState, Rng), Aborted>)
    requires i <= |s.enemies|
    decreases |s.enemies| - i
  {
    if i == |s.enemies| then Success((s.(turnPhase := TurnEnd), rng))
    else
      match EnemyStep(tm, i, s, rng)
      case Failure(err) => Failure(Aborted(err, s))
      case Success(PlayerDied(s2, rng2)) => Success((s2.(isDefeat := true, turnPhase := CombatEnd), rng2))
      case Success(Continue(s2, rng2)) => EnemyLoop(tm, i + 1, s2, rng2)
  }

  /** `executeEnemyTurns`; a failure carries `selectAction`'s error and the state it was thrown in. */
  function ExecuteEnemyTurns(tm: TurnManager, s: CombatState, rng: Rng): Result<(CombatState, Rng), Aborted> {
    EnemyLoop(tm, 0, s, rng)
  }

  /**
   * The enemies' turn changes only combatants, the log, the player's progress,
   * the phase and the defeat flag; it revives no one; it ends in the turn-end
   * phase or, with the player dead, in a defeat, and a player who dies during
   * it always ends it in defeat.
   */
  lemma {:induction false} EnemyLoopOutcome(tm: TurnManager, i: nat, s: CombatState, rng: Rng)
    requires i <= |s.enemies|
    ensures var r := EnemyLoop(tm, i, s, rng);
            r.Success? ==>
              && FramedEnemyPhase(s, r.value.0) && NoRevival(s, r.value.0)
              && (r.value.0.turnPhase == TurnEnd || r.value.0.turnPhase == CombatEnd)
              && (r.value.0.turnPhase == CombatEnd ==> r.value.0.isDefeat && !r.value.0.player.entity.isAlive)
              && (r.value.0.turnPhase == TurnEnd ==> r.value.0.isDefeat == s.isDefeat)
              && (s.player.entity.isAlive && !r.value.0.player.entity.isAlive ==> r.value.0.turnPhase == CombatEnd)
    decreases |s.enemies| - i
  {
    if i == |s.enemies| {
      var r := s.(turnPhase := TurnEnd);
      assert NoRevival(s, r);
    } else {
      match EnemyStep(tm, i, s, rng)
      case Failure(err) =>
      case Success(PlayerDied(s2, rng2)) =>
        var r := s2.(isDefeat := true, turnPhase := CombatEnd);
        assert NoRevival(s2, r);
        NoRevivalTransitive(s, s2, r);
      case Success(Continue(s2, rng2)) =>
        EnemyLoopOutcome(tm, i + 1, s2, rng2);
        var r := EnemyLoop(tm, i + 1, s2, rng2);
        if r.Success? {
          NoRevivalTransitive(s, s2, r.value.0);
          FramedTransitive(s, s2, r.value.0.(turnPhase := s.turnPhase, isDefeat := s.isDefeat));
        }
    }
  }

  /**
   * The loop fails only when an enemy that was alive at the start has an
   * action pool with no registered action.
   */
  lemma {:induction false} EnemyLoopFailure(tm: TurnManager, i: nat, s: CombatState, rng: Rng)
    requires i <= |s.enemies|
    ensures EnemyLoop(tm, i, s, rng).Failure? ==>
              exists k :: i <= k < |s.enemies| && s.enemies[k].entity.isAlive
                          && |EnemyAI.Candidates(tm.actions, s.enemies[k].actionPool)| == 0
    decreases |s.enemies| - i
  {
    if i < |s.enemies| {
      var step := EnemyStep(tm, i, s, rng);
      if step.Success? && step.value.Continue? {
        var s2 := step.value.state;
        EnemyLoopFailure(tm, i + 1, s2, step.value.rng);
        if EnemyLoop(tm, i + 1, s2, step.value.rng).Failure? {
          var k :| i + 1 <= k < |s2.enemies| && s2.enemies[k].entity.isAlive
                   && |EnemyAI.Candidates(tm.actions, s2.enemies[k].actionPool)| == 0;
          StuckEnemyWasAlive(tm, s, s2, k);
        }
      }
    }
  }

  /** An enemy alive and without candidates after a step was so before it. */
  lemma StuckEnemyWasAlive(tm: TurnManager, s: CombatState, s2: CombatState, k: nat)
    requires Framed(s, s2) && NoRevival(s, s2) && k < |s2.enemies|
    requires s2.enemies[k].entity.isAlive && |EnemyAI.Candidates(tm.actions, s2.enemies[k].actionPool)| == 0
    ensures s.enemies[k].entity.isAlive && |EnemyAI.Candidates(tm.actions, s.enemies[k].actionPool)| == 0
  {
    assert s2.Get(EnemyRef(k)).isAlive ==> s.Get(EnemyRef(k)).isAlive;
  }

  /**
   * The state a failed loop leaves is framed like a completed action's: the
   * phase and the defeat flag are those of `s`, the roster is kept and no one
   * is revived; the error names an enemy that is alive in that state.
   */
  lemma {:induction false} EnemyLoopAborted(tm: TurnManager, i: nat, s: CombatState, rng: Rng)
    requires i <= |s.enemies|
    ensures var r := EnemyLoop(tm, i, s, rng);
            r.Failure? ==>
              && Framed(s, r.error.state) && NoRevival(s, r.error.state)
              && exists k :: i <= k < |s.enemies| && r.error.state.enemies[k].entity.isAlive
                             && r.error.error == EnemyAI.NoValidActions(r.error.state.enemies[k].entity.id)
    decreases |s.enemies| - i
  {
    if i < |s.enemies| {
      match EnemyStep(tm, i, s, rng)
      case Failure(err) =>
        FramedNoRevival(s, s);
      case Success(PlayerDied(s2, rng2)) =>
      case Success(Continue(s2, rng2)) =>
        EnemyLoopAborted(tm, i + 1, s2, rng2);
        var r := EnemyLoop(tm, i + 1, s2, rng2);
        if r.Failure? {
          FramedTransitive(s, s2, r.error.state);
          NoRevivalTransitive(s, s2, r.error.state);
        }
    }
  }

  /** A living entity's statuses of the given timing fire; a dead entity is skipped. */
  function TriggerIfAlive(reg: StatusRegistry, e: Entity, timing: TriggerTiming): Entity {
    if e.isAlive then StatusManager.TriggerStatusEffects(reg, e, timing).0 else e
  }

  /**
   * What the turn end does to one combatant, taken on its own: statuses that
   * fire at turn end (if alive), decay, and, when the next turn starts,
   * statuses that fire at turn start (if still alive).
   */
  function EntityAtTurnEnd(reg: StatusRegistry, e: Entity, nextTurn: bool): (r: Entity)
    ensures r == e.(currentHp := r.currentHp, isAlive := r.isAlive, statuses := r.statuses)
    ensures r.isAlive ==> e.isAlive
    ensures 0 <= e.currentHp <= e.maxHp ==> 0 <= r.currentHp <= r.maxHp
    ensures 0 <= e.currentHp <= e.maxHp && (e.isAlive ==> e.currentHp > 0) ==> (r.isAlive ==> r.currentHp > 0)
    ensures !e.isAlive ==> r == e.(statuses := StatusManager.DecayList(reg, e.statuses))
    ensures StatusManager.UniqueIds(e.statuses) ==> StatusManager.UniqueIds(r.statuses)
    ensures forall k :: 0 <= k < |r.statuses| ==> r.statuses[k].stacks > 0
  {
    var decayed := StatusManager.DecayStatuses(reg, TriggerIfAlive(reg, e, AtTurnEnd));
    if nextTurn then TriggerIfAlive(reg, decayed, AtTurnStart) else decayed
  }

  /** References to every combatant: the player, then the enemies in roster order. */
  function AllRefs(n: nat): (refs: seq<Ref>)
    ensures |refs| == n + 1 && refs[0] == PlayerRef
    ensures forall k :: 1 <= k <= n ==> refs[k] == EnemyRef(k - 1)
  {
    if n == 0 then [PlayerRef] else AllRefs(n - 1) + [EnemyRef(n - 1)]
  }

  predicate DistinctRefs(refs: seq<Ref>) {
    forall k, l :: 0 <= k < l < |refs| ==> refs[k] != refs[l]
  }

  lemma AllRefsProperties(s: CombatState)
    ensures DistinctRefs(AllRefs(|s.enemies|))
    ensures forall q :: s.ValidRef(q) <==> q in AllRefs(|s.enemies|)
  {
    var refs := AllRefs(|s.enemies|);
    forall q | s.ValidRef(q)
      ensures q in refs
    {
      if q.EnemyRef? {
        assert refs[q.index + 1] == q;
      } else {
        assert refs[0] == q;
      }
    }
  }

  /** The log entries for one entity's fired statuses; at turn end a kill is also logged. */
  function TriggerLog(subject: Ref, results: seq<TriggerResult>, logDeaths: bool): seq<LogEntry> {
    if |results| == 0 then []
    else
      [StatusTriggered(subject, results[0])]
      + (if logDeaths && results[0].killed then [Died(subject)] else [])
      + TriggerLog(subject, results[1..], logDeaths)
  }

  /** One of the trigger loops of `executeTurnEnd`, over the combatants `refs`. */
  function TriggerPass(reg: StatusRegistry, refs: seq<Ref>, timing: TriggerTiming, logDeaths: bool, s: CombatState): (r: CombatState)
    requires forall k :: 0 <= k < |refs| ==> s.ValidRef(refs[k])
    ensures Framed(s, r) && SameProgress(s, r)
    decreases |refs|
  {
    if |refs| == 0 then s
    else
      var q := refs[0];
      var s1 :=
        if s.Get(q).isAlive then
          var (e, results) := StatusManager.TriggerStatusEffects(reg, s.Get(q), timing);
          var t := s.Set(q, e);
          t.(combatLog := t.combatLog + TriggerLog(q, results, logDeaths))
        else s;
      FramedTransitive(s, s1, TriggerPass(reg, refs[1..], timing, logDeaths, s1));
      TriggerPass(reg, refs[1..], timing, logDeaths, s1)
  }

  /** The pass treats each listed combatant on its own and leaves the others alone. */
  lemma {:induction false} TriggerPassEntities(reg: StatusRegistry, refs: seq<Ref>, timing: TriggerTiming, logDeaths: bool, s: CombatState)
    requires forall k :: 0 <= k < |refs| ==> s.ValidRef(refs[k])
    requires DistinctRefs(refs)
    ensures var r := TriggerPass(reg, refs, timing, logDeaths, s);
            forall q :: s.ValidRef(q) ==> r.Get(q) == if q in refs then TriggerIfAlive(reg, s.Get(q), timing) else s.Get(q)
    decreases |refs|
  {
    if |refs| > 0 {
      var q := refs[0];
      var s1 :=
        if s.Get(q).isAlive then
          var (e, results) := StatusManager.TriggerStatusEffects(reg, s.Get(q), timing);
          var t := s.Set(q, e);
          t.(combatLog := t.combatLog + TriggerLog(q, results, logDeaths))
        else s;
      var rest := refs[1..];
      TriggerPassEntities(reg, rest, timing, logDeaths, s1);
      var r := TriggerPass(reg, rest, timing, logDeaths, s1);
      assert r == TriggerPass(reg, refs, timing, logDeaths, s);
      forall p | s.ValidRef(p)
        ensures r.Get(p) == if p in refs then TriggerIfAlive(reg, s.Get(p), timing) else s.Get(p)
      {
        assert s1.ValidRef(p);
        if p == q {
          assert p !in rest by {
            forall k | 0 <= k < |rest| ensures rest[k] != q {
              assert rest[k] == refs[k + 1];
            }
          }
        } else {
          assert p in refs <==> p in rest;
        }
      }
    }
  }

  /** The decay loop of `executeTurnEnd`. */
  function DecayPass(reg: StatusRegistry, refs: seq<Ref>, s: CombatState): (r: CombatState)
    requires forall k :: 0 <= k < |refs| ==> s.ValidRef(refs[k])
    ensures Framed(s, r) && SameProgress(s, r)
    decreases |refs|
  {
    if |refs| == 0 then s
    else
      var s1 := s.Set(refs[0], StatusManager.DecayStatuses(reg, s.Get(refs[0])));
      FramedTransitive(s, s1, DecayPass(reg, refs[1..], s1));
      DecayPass(reg, refs[1..], s1)
  }

  lemma {:induction false} DecayPassEntities(reg: StatusRegistry, refs: seq<Ref>, s: CombatState)
    requires forall k :: 0 <= k < |refs| ==> s.ValidRef(refs[k])
    requires DistinctRefs(refs)
    ensures var r := DecayPass(reg, refs, s);
            forall q :: s.ValidRef(q) ==> r.Get(q) == if q in refs then StatusManager.DecayStatuses(reg, s.Get(q)) else s.Get(q)
    decreases |refs|
  {
    if |refs| > 0 {
      var q := refs[0];
      var s1 := s.Set(q, StatusManager.DecayStatuses(reg, s.Get(q)));
      var rest := refs[1..];
      DecayPassEntities(reg, rest, s1);
      var r := DecayPass(reg, rest, s1);
      forall p | s.ValidRef(p)
        ensures r.Get(p) == if p in refs then StatusManager.DecayStatuses(reg, s.Get(p)) else s.Get(p)
      {
        assert s1.ValidRef(p);
        if p == q {
          assert p !in rest by {
            forall k | 0 <= k < |rest| ensures rest[k] != q {
              assert rest[k] == refs[k + 1];
            }
          }
        } else {
          assert p in refs <==> p in rest;
        }
      }
    }
  }

  /** The state after the turn-end triggers and the decay, before the win/loss checks. */
  function AfterDecay(tm: TurnManager, s: CombatState): (r: CombatState)
    ensures Framed(s, r) && SameProgress(s, r)
  {
    var refs := AllRefs(|s.enemies|);
    var s1 := TriggerPass(tm.statuses, refs, AtTurnEnd, true, s);
    var r := DecayPass(tm.statuses, refs, s1);
    FramedTransitive(s, s1, r);
    r
  }

  lemma AfterDecayEntities(tm: TurnManager, s: CombatState)
    ensures forall q :: s.ValidRef(q) ==> AfterDecay(tm, s).Get(q) == EntityAtTurnEnd(tm.statuses, s.Get(q), false)
  {
    var reg := tm.statuses;
    var refs := AllRefs(|s.enemies|);
    AllRefsProperties(s);
    var s1 := TriggerPass(reg, refs, AtTurnEnd, true, s);
    TriggerPassEntities(reg, refs, AtTurnEnd, true, s);
    DecayPassEntities(reg, refs, s1);
    forall q | s.ValidRef(q)
      ensures AfterDecay(tm, s).Get(q) == EntityAtTurnEnd(reg, s.Get(q), false)
    {
      assert s1.ValidRef(q) && q in refs;
      assert s1.Get(q) == TriggerIfAlive(reg, s.Get(q), AtTurnEnd);
    }
  }

  /** Starting the next turn: the counter and phase move on, then turn-start statuses fire. */
  function StartNextTurn(tm: TurnManager, m: CombatState, turnCount: nat): (r: CombatState)
    ensures Framed(m, r.(turnCount := m.turnCount, turnPhase := m.turnPhase))
    ensures SameProgress(m, r)
    ensures r.turnCount == turnCount && r.turnPhase == PlayerInput
    ensures r.isVictory == m.isVictory && r.isDefeat == m.isDefeat
  {
    var m' := m.(turnCount := turnCount, turnPhase := PlayerInput);
    var r := TriggerPass(tm.statuses, AllRefs(|m.enemies|), AtTurnStart, false, m');
    FramedTransitive(m, m'.(turnCount := m.turnCount, turnPhase := m.turnPhase), r.(turnCount := m.turnCount, turnPhase := m.turnPhase));
    r
  }

  lemma StartNextTurnEntities(tm: TurnManager, m: CombatState, turnCount: nat)
    ensures forall q :: m.ValidRef(q) ==> StartNextTurn(tm, m, turnCount).Get(q) == TriggerIfAlive(tm.statuses, m.Get(q), AtTurnStart)
  {
    var m' := m.(turnCount := turnCount, turnPhase := PlayerInput);
    AllRefsProperties(m');
    TriggerPassEntities(tm.statuses, AllRefs(|m.enemies|), AtTurnStart, false, m');
  }

  /**
   * `executeTurnEnd`: statuses that fire at turn end (deaths logged), decay of
   * every combatant's statuses, then victory if every enemy is dead, else defeat
   * if the player is, else the next turn begins and statuses that fire at turn
   * start go off.
   */
  function ExecuteTurnEnd(tm: TurnManager, s: CombatState): (r: CombatState)
    ensures |r.enemies| == |s.enemies|
  {
    var m := AfterDecay(tm, s);
    if m.AllEnemiesDead() then m.(isVictory := true, turnPhase := CombatEnd)
    else if !m.player.entity.isAlive then m.(isDefeat := true, turnPhase := CombatEnd)
    else StartNextTurn(tm, m, s.turnCount + 1)
  }

  /** After the decay, `executeTurnEnd`'s win/loss checks end the combat. */
  predicate CombatOverAfterDecay(reg: StatusRegistry, s: CombatState) {
    || (forall i :: 0 <= i < |s.enemies| ==> !EntityAtTurnEnd(reg, s.enemies[i].entity, false).isAlive)
    || !EntityAtTurnEnd(reg, s.player.entity, false).isAlive
  }

  /** Every combatant ends the turn as `EntityAtTurnEnd` says, whatever the others do. */
  lemma TurnEndEntities(tm: TurnManager, s: CombatState)
    ensures var r := ExecuteTurnEnd(tm, s);
            forall q :: s.ValidRef(q) ==> r.Get(q) == EntityAtTurnEnd(tm.statuses, s.Get(q), r.turnPhase == PlayerInput)
  {
    var m := AfterDecay(tm, s);
    if !m.AllEnemiesDead() && m.player.entity.isAlive {
      TurnEndEntitiesNextTurn(tm, s);
    } else {
      AfterDecayEntities(tm, s);
    }
  }

  lemma TurnEndEntitiesNextTurn(tm: TurnManager, s: CombatState)
    requires !AfterDecay(tm, s).AllEnemiesDead() && AfterDecay(tm, s).player.entity.isAlive
    ensures forall q :: s.ValidRef(q) ==> ExecuteTurnEnd(tm, s).Get(q) == EntityAtTurnEnd(tm.statuses, s.Get(q), true)
  {
    var m := AfterDecay(tm, s);
    var r := StartNextTurn(tm, m, s.turnCount + 1);
    assert ExecuteTurnEnd(tm, s) == r;
    AfterDecayEntities(tm, s);
    StartNextTurnEntities(tm, m, s.turnCount + 1);
    forall q | s.ValidRef(q)
      ensures r.Get(q) == EntityAtTurnEnd(tm.statuses, s.Get(q), true)
    {
      assert m.ValidRef(q);
      EntityAtTurnEndSteps(tm.statuses, s.Get(q));
    }
  }

  /** The turn end of a combatant whose next turn starts extends the one that ends the combat. */
  lemma EntityAtTurnEndSteps(reg: StatusRegistry, e: Entity)
    ensures EntityAtTurnEnd(reg, e, true) == TriggerIfAlive(reg, EntityAtTurnEnd(reg, e, false), AtTurnStart)
  {
  }


  /** The win/loss checks read the combatants as `EntityAtTurnEnd` leaves them. */
  lemma AfterDecayOver(tm: TurnManager, s: CombatState)
    ensures var m := AfterDecay(tm, s);
            (m.AllEnemiesDead() || !m.player.entity.isAlive) <==> CombatOverAfterDecay(tm.statuses, s)
  {
    var m := AfterDecay(tm, s);
    AfterDecayEntities(tm, s);
    assert m.AllEnemiesDead() <==> forall i :: 0 <= i < |s.enemies| ==> !EntityAtTurnEnd(tm.statuses, s.enemies[i].entity, false).isAlive by {
      assert forall i :: 0 <= i < |s.enemies| ==> m.enemies[i].entity == m.Get(EnemyRef(i)) && s.enemies[i].entity == s.Get(EnemyRef(i));
    }
    assert m.player.entity == EntityAtTurnEnd(tm.statuses, s.player.entity, false) by {
      assert m.Get(PlayerRef) == EntityAtTurnEnd(tm.statuses, s.Get(PlayerRef), false);
    }
  }

  /** Turn end changes only combatants, the log, the turn counter, the phase and the outcome flags. */
  lemma TurnEndFrame(tm: TurnManager, s: CombatState)
    ensures var r := ExecuteTurnEnd(tm, s);
            && Framed(s, r.(turnCount := s.turnCount, turnPhase := s.turnPhase, isVictory := s.isVictory, isDefeat := s.isDefeat))
            && SameProgress(s, r)
  {
    var m := AfterDecay(tm, s);
    if !m.AllEnemiesDead() && m.player.entity.isAlive {
      var r := StartNextTurn(tm, m, s.turnCount + 1);
      FramedTransitive(s, m, r.(turnCount := s.turnCount, turnPhase := s.turnPhase));
    }
  }

  /**
   * `executeTurnEnd` ends the combat exactly when, after the turn-end triggers
   * and the decay, every enemy or the player is dead, with victory taking
   * precedence; otherwise the turn count goes up by one and input reopens.
   */
  lemma TurnEndOutcome(tm: TurnManager, s: CombatState)
    ensures var r := ExecuteTurnEnd(tm, s);
            && (r.turnPhase == CombatEnd || r.turnPhase == PlayerInput)
            && (r.turnPhase == CombatEnd <==> CombatOverAfterDecay(tm.statuses, s))
            && (r.turnPhase == CombatEnd ==>
                  && r.turnCount == s.turnCount
                  && (r.AllEnemiesDead() ==> r.isVictory)
                  && (!r.AllEnemiesDead() ==> r.isDefeat && !r.player.entity.isAlive && r.isVictory == s.isVictory))
            && (r.turnPhase == PlayerInput ==>
                  r.turnCount == s.turnCount + 1 && r.isVictory == s.isVictory && r.isDefeat == s.isDefeat)
  {
    AfterDecayOver(tm, s);
  }
}

=== FILE: types.dfy ===
/**
 * The records the combat core works on (src/types/index.ts). Entities are
 * immutable values; the combat state names them through `Ref`s.
 */
module Types {
  import opened Wrappers

  datatype Direction = Up | Down | Left | Right

  datatype Element = Fire | Ice | Lightning | Poison | Physical

  datatype TargetingMode = SingleEnemy | AllEnemies | RandomEnemy | Self | AllAllies

  datatype TurnPhase = PlayerInput | PlayerExecuting | EnemyTurn | TurnEnd | CombatEnd

  datatype StatusType = DamageOverTime | Buff | Debuff | Control

  datatype TriggerTiming = AtTurnStart | AtTurnEnd | OnHitDealt | OnHitTaken | Passive

  datatype AIStrategy = RandomChoice | Sequential | PriorityBased | Conditional

  /** One active status on an entity: its kind and its stack count. */
  datatype StatusInstance = StatusInstance(statusId: string, stacks: nat)

  /** The part every combatant has; `affinities` maps an element to its damage multiplier. */
  datatype Entity = Entity(
    id: string,
    name: string,
    maxHp: int,
    currentHp: int,
    shield: int,
    statuses: seq<StatusInstance>,
    affinities: map<Element, real>,
    isAlive: bool)

  /** The player; a `level` of 0 stands for an unset level, which the source reads as 1. */
  datatype Player = Player(entity: Entity, level: nat, experience: nat, experienceToNextLevel: nat)

  datatype Enemy = Enemy(entity: Entity, aiPatternId: string, actionPool: seq<string>)

  /** Who receives a status an action grants: the actor or the target. */
  datatype Recipient = ToSelf | ToTarget

  datatype StatusEffect = StatusEffect(statusId: string, stacks: nat, recipient: Recipient)

  /**
   * A player combo or an enemy action; enemy actions have an empty `sequence`.
   */
  datatype Action = Action(
    id: string,
    name: string,
    sequence: seq<Direction>,
    damage: int,
    element: Option<Element>,
    targeting: TargetingMode,
    statusEffects: seq<StatusEffect>,
    hitCount: nat)

  /**
   * What one stack of a status does. A zero field is an absent one: the source
   * tests each field for truthiness, which treats `undefined` and 0 alike.
   */
  datatype StatusEffectDef = StatusEffectDef(
    damagePerStack: nat,
    healPerStack: nat,
    shieldPerStack: nat,
    damageMultiplier: real,
    outgoingDamageMultiplier: real,
    preventAction: bool)

  datatype StatusDefinition = StatusDefinition(
    id: string,
    name: string,
    kind: StatusType,
    triggerTiming: TriggerTiming,
    effectPerStack: StatusEffectDef,
    decayPerTurn: nat,
    maxStacks: Option<nat>)

  type StatusRegistry = map<string, StatusDefinition>

  type ActionRegistry = map<string, Action>

  /** A reference to a combatant of the state: the player or the enemy at an index. */
  datatype Ref = PlayerRef | EnemyRef(index: nat)

  datatype TriggerEffect = Damaged(amount: int) | Healed(amount: int) | ActionPrevented

  datatype TriggerResult = TriggerResult(statusName: string, effect: TriggerEffect, killed: bool)

  /** The combat log as tagged entries (message text and timestamps are not modelled). */
  datatype LogEntry =
    | ComboDiscovered(comboId: string)
    | CombosUsed(comboIds: seq<string>)
    | ActionUsed(actor: Ref, actionId: string)
    | Stunned(actor: Ref)
    | NoTargets(actionId: string)
    | DamageTaken(target: Ref, amount: int)
    | Died(target: Ref)
    | StatusGained(recipient: Ref, statusId: string, stacks: nat)
    | StatusTriggered(subject: Ref, result: TriggerResult)
    | ExperienceGained(amount: int)
    | LeveledUp(level: nat)

  datatype CombatState = CombatState(
    player: Player,
    enemies: seq<Enemy>,
    turnPhase: TurnPhase,
    turnCount: nat,
    inputBuffer: seq<Direction>,
    maxInputLimit: int,
    lastSuccessfulCombo: Option<seq<Direction>>,
    discoveredCombos: seq<string>,
    battleStreak: nat,
    combatLog: seq<LogEntry>,
    isVictory: bool,
    isDefeat: bool)
  {
    predicate ValidRef(r: Ref) {
      r.EnemyRef? ==> r.index < |enemies|
    }

    function Get(r: Ref): Entity
      requires ValidRef(r)
    {
      match r
      case PlayerRef => player.entity
      case EnemyRef(i) => enemies[i].entity
    }

    /** Replaces the entity `r` refers to, leaving every other part of the state alone. */
    function Set(r: Ref, e: Entity): (s': CombatState)
      requires ValidRef(r)
      ensures |s'.enemies| == |enemies|
      ensures s'.Get(r) == e
      ensures forall q :: ValidRef(q) && q != r ==> s'.Get(q) == Get(q)
      ensures SameRoster(this, s')
    {
      match r
      case PlayerRef => this.(player := player.(entity := e))
      case EnemyRef(i) => this.(enemies := enemies[i := enemies[i].(entity := e)])
    }

    function Log(entry: LogEntry): CombatState {
      this.(combatLog := combatLog + [entry])
    }

    predicate AllEnemiesDead() {
      forall i :: 0 <= i < |enemies| ==> !enemies[i].entity.isAlive
    }
  }

  /**
   * Two states with the same enemy roster: same length, and each enemy keeps its
   * identity, AI pattern and action pool (only the combat entity changes).
   */
  predicate SameRoster(s: CombatState, s': CombatState) {
    && |s'.enemies| == |s.enemies|
    && forall i :: 0 <= i < |s.enemies| ==>
         && s'.enemies[i].aiPatternId == s.enemies[i].aiPatternId
         && s'.enemies[i].actionPool == s.enemies[i].actionPool
  }

  lemma SameRosterTransitive(s1: CombatState, s2: CombatState, s3: CombatState)
    requires SameRoster(s1, s2) && SameRoster(s2, s3)
    ensures SameRoster(s1, s3)
  {
  }
}

=== FILE: wrappers.dfy ===
/** Failure-compatible wrappers used across the model. */
module Wrappers {

  /** A value that may be missing (`undefined` / `null` in the source). */
  datatype Option<+T> = None | Some(value: T) {
    function GetOr(default: T): T {
      match this
      case Some(v) => v
      case None => default
    }
  }

  /** The outcome of an operation that the source may abort by throwing. */
  datatype Result<+T, +E> = Success(value: T) | Failure(error: E) {
    predicate IsFailure() {
      Failure?
    }

    function PropagateFailure<U>(): Result<U, E>
      requires Failure?
    {
      Failure(error)
    }

    function Extract(): T
      requires Success?
    {
      value
    }
  }
}
